=== FILE: README.md ===
# Job automation: a verified model of its core

This project models, in Dafny, the core of a job-application automation
system:

- the scraper that crawls job listings and reads each job's detail page with
  retries and exponential back-off;
- the CV customiser that matches a fixed table of DevOps skills against a job
  description, rewrites the professional summary and fills the placeholders
  of a CV template;
- the batch job that classifies every stored job by skill match, saves the
  level, and writes and uploads a CV for the jobs worth applying to;
- the backend routes that update, delete and fetch one job;
- the front end's shared HTTP layer (`dataStore.js`) and the Pinia stores
  built on it: jobs, CVs, job analytics, user, dashboard and bookmarks.

Everything is modelled as pure functions over immutable data. The browser,
the HTTP client, the database and the clock are replaced by inputs:

- the HTTP client is a function from a request to its outcome (resolved with
  a reply, or rejected with or without one);
- `localStorage` is a map from keys to text;
- a detail page is the outcome of each attempt, indexed by attempt number;
- the n-th listing page loaded is given by index;
- the database's row count or fetched row is a function of the statement or
  job id, and a statement the database rejects has no row count;
- the sleeps of the back-off are returned as their durations.

JavaScript values (`undefined`, `null`, booleans, integers, strings, arrays,
objects with ordered properties) are a datatype. The operators the stores
use are written out on it: `??`, `||`, `!!`, `?.`, `===`, `String(v)` and
`JSON.stringify`.

Modules, one per source file plus shared helpers:

- `Wrappers`, `Seqs`, `Text`: Option/Result, ordered filtering, and
  Python's `join`, `in`, `replace` and `strip`, with `lower` restricted to
  ASCII letters.
- `CvCustomizer`, `SkillMatch`: `backend/utils/cv_customizer.py` and the
  batch job in `backend/test_cv_customizer.py`.
- `UrlJoin`, `JobDetails`, `Crawl`: `backend/jobs_main.py`.
- `JobsRoutes`: `backend/jobs_routes.py`.
- `JsValues`, `Json`, `DataStore`, `ListStore`: the JavaScript semantics and
  `dataStore.js`. `ListStore` holds what the jobs, CVs and analytics stores
  share.
- `JobsStore`, `CvsStore`, `JobAnalyticsStore`, `UserStore`,
  `DashboardStore`, `BookmarksStore`: one per Pinia store.

Some behaviours of the code are easy to misread, and the model keeps them
as written:

- the crawler does not de-duplicate jobs: an element listed twice gives two
  records;
- the placeholder for an unreadable field is "N/A";
- a detail attempt is retried not only when the page fails to load but also
  when the location or description read raises, or when the title or company
  read returns None (calling `strip` on None raises);
- a listing element with no `href` is not dropped: it is joined to the base
  URL;
- the original CV summary speaks of "cloud infrastructure", so the summary
  rewrite for cloud platforms never fires.

## Model

| member | source | states |
|---|---|---|
| CvCustomizer.Names | backend/utils/cv_customizer.py:9-23 | the category names of a skill dictionary, one per entry and in order |
| CvCustomizer.PredefinedNames | backend/utils/cv_customizer.py:9-23 | the predefined table has the four categories Cloud Platforms, CI/CD Tools, Infrastructure as Code (IaC) Tools and Monitoring Tools, in that order |
| CvCustomizer.PredefinedHasNoEmptySkill | backend/utils/cv_customizer.py:9-23 | no skill of the predefined table is the empty string |
| CvCustomizer.MatchCategory | backend/utils/cv_customizer.py:33-36 | matching one category keeps its name |
| CvCustomizer.ExtractRelevantSkills | backend/utils/cv_customizer.py:25-37 | every category keeps its name and position; a skill is kept exactly when it belongs to the category and its lower-cased text occurs in the lower-cased description |
| CvCustomizer.ExtractedSkillsAreOrderedSubsequences | backend/utils/cv_customizer.py:33-36 | each category's matches keep the order of the table |
| CvCustomizer.ExtractedHasPredefinedKeys | backend/utils/cv_customizer.py:32 | the dictionary built from the predefined table has every key the summary customisation reads |
| CvCustomizer.ExtractedHasPredefinedNames | backend/utils/cv_customizer.py:32 | the matched dictionary has exactly the four predefined names, in order |
| CvCustomizer.ExtractedHasNoEmptySkill | backend/utils/cv_customizer.py:34-36 | matching keeps only skills of the table, so none is empty when none of the table is |
| CvCustomizer.Lookup | backend/utils/cv_customizer.py:49-66 | `d[name]` fails (KeyError) exactly when the name is not a key; otherwise it yields that entry's skills |
| CvCustomizer.RewritePhrases | backend/utils/cv_customizer.py:48-56 | with neither a cloud nor a CI/CD skill matched the summary is not rewritten (that a present phrase is rewritten: CiCdRewriteFires) |
| CvCustomizer.AppendSentences | backend/utils/cv_customizer.py:58-66 | with neither an IaC nor a monitoring tool matched nothing is appended |
| CvCustomizer.CloudSentence | backend/utils/cv_customizer.py:51 | the sentence that replaces "cloud platforms" holds the matched cloud skills, joined with ", " |
| CvCustomizer.CiCdSentence | backend/utils/cv_customizer.py:56 | the sentence that replaces "CI/CD pipelines" holds the matched CI/CD tools, joined with ", " |
| CvCustomizer.IacSentence | backend/utils/cv_customizer.py:61 | the appended IaC sentence holds the matched IaC tools, joined with ", " |
| CvCustomizer.MonitoringSentence | backend/utils/cv_customizer.py:66 | the appended monitoring sentence holds the matched monitoring tools, joined with ", " |
| CvCustomizer.RewriteWithoutPhrasesIsIdentity | backend/utils/cv_customizer.py:48-56 | the two `replace` rewrites leave a summary that mentions neither "cloud platforms" nor "CI/CD pipelines" unchanged |
| CvCustomizer.AppendTwo | backend/utils/cv_customizer.py:58-66 | appending two optional non-empty sentences keeps the summary as a prefix, and leaves it unchanged exactly when neither is appended |
| CvCustomizer.AppendOnlyExtends | backend/utils/cv_customizer.py:58-66 | the IaC and monitoring sentences only extend the summary, and extend it exactly when one of those categories matched |
| CvCustomizer.CustomizeSummary | backend/utils/cv_customizer.py:39-68 | fails (KeyError) exactly when one of the four categories is missing; otherwise the result starts with the summary after the two phrase rewrites |
| CvCustomizer.SummaryUnchangedWithoutMatches | backend/utils/cv_customizer.py:39-68 | with no skill matched the summary comes back as it was |
| CvCustomizer.CloudPhraseAbsent | backend/utils/cv_customizer.py:130-132 | the original summary never contains "cloud platforms" |
| CvCustomizer.CloudRewriteNeverFires | backend/utils/cv_customizer.py:49-51 | so the cloud rewrite never changes a CV's summary: the result is that of no cloud skill matched |
| CvCustomizer.CiCdPhrasePresent | backend/utils/cv_customizer.py:131 | the fixed summary does hold "CI/CD pipelines" |
| CvCustomizer.CiCdAcrossPieces | backend/utils/cv_customizer.py:131 | the phrase lies across the fourth and fifth pieces of the summary as written here |
| CvCustomizer.CiCdRewriteFires | backend/utils/cv_customizer.py:54-56 | when a CI/CD tool matched, a CV's summary does get the CI/CD sentence, whatever cloud skills matched |
| CvCustomizer.SkillsLine | backend/utils/cv_customizer.py:139 | with no category matched the "{skills}" value is empty |
| CvCustomizer.NonEmptyJoins | backend/utils/cv_customizer.py:139 | one `", ".join` of the matched skills per category with a match, in category order; there are none exactly when no category matched |
| CvCustomizer.NonEmptyJoinIsNonEmpty | backend/utils/cv_customizer.py:139 | each joined piece is non-empty when no skill is empty |
| CvCustomizer.JoinOfNonEmptyIsNonEmpty | backend/utils/cv_customizer.py:139 | joining a non-empty list gives a text at least as long as its first piece |
| CvCustomizer.SkillsLineEmptyIffNothingMatched | backend/utils/cv_customizer.py:139 | when no skill is empty, the "{skills}" value is empty exactly when no category matched |
| CvCustomizer.SkillsLineEmptyIffNoMention | backend/utils/cv_customizer.py:125-139 | the "{skills}" value is empty exactly when the description mentions no skill of the table |
| CvCustomizer.PredefinedSkillsLineEmptyIffNoMention | backend/utils/cv_customizer.py:125-139 | the same for the predefined table |
| CvCustomizer.GeneratedSkillsEmptyIffNoMention | backend/utils/cv_customizer.py:123-139 | a generated CV's "{skills}" entry is empty exactly when the job's description mentions no skill of the table |
| CvCustomizer.GeneratedSkills | backend/utils/cv_customizer.py:137-139 | the "{skills}" entry of a generated CV is the skills text of its description |
| CvCustomizer.GenerateCv | backend/utils/cv_customizer.py:110-149 | a missing title raises before anything is written; on success the placeholder map has six entries in insertion order: the title, the skills text and the customised summary of the description (default "N/A"), the description as the duties, then company and location (default "N/A") |
| CvCustomizer.GenerateCvSucceedsIff | backend/utils/cv_customizer.py:123-127 | `generate_cv` succeeds exactly when the title is present and not NULL and the description is absent or not NULL |
| CvCustomizer.Get | backend/utils/cv_customizer.py:126 | `job.get(key, default)`: the default when the column is absent, and the column's value otherwise, None exactly for a present NULL column |
| CvCustomizer.BuildReplacements | backend/utils/cv_customizer.py:137-144 | the six entries in insertion order: title, skills, summary, duties, company and location, with "N/A" for an absent column |
| CvCustomizer.ReplacementDefaults | backend/utils/cv_customizer.py:142-143 | a CV for a job without company and location columns says "N/A" for both |
| CvCustomizer.MissingDescriptionDefaults | backend/utils/cv_customizer.py:126 | a missing description is matched as "N/A" and becomes the duties text |
| CvCustomizer.Values | backend/utils/cv_customizer.py:81 | the values of a placeholder map, one per entry and in order |
| CvCustomizer.ApplyReplacements | backend/utils/cv_customizer.py:80-97 | one paragraph after the placeholder loop keeps its text or is one of the map's values (which value: FirstPlaceholderWins) |
| CvCustomizer.FirstPlaceholder | backend/utils/cv_customizer.py:81-82 | the first key of the map, in insertion order, that occurs in the paragraph; none exactly when no key occurs |
| CvCustomizer.FirstPlaceholderWins | backend/utils/cv_customizer.py:80-97 | when no value of the map holds a key, a paragraph ends as the value of the first key it contains |
| CvCustomizer.ValueIsTestedAgain | backend/utils/cv_customizer.py:80-97 | a value that holds a later key is replaced again: "{a}" with "{a}" to "{b}" and "{b}" to "B" ends as "B" |
| CvCustomizer.Rendered | backend/utils/cv_customizer.py:94 | the text `add_run` writes: a value of None writes nothing, a text value writes that text |
| CvCustomizer.ParagraphWithoutPlaceholderUnchanged | backend/utils/cv_customizer.py:80-82 | a paragraph that contains no placeholder keeps its text |
| CvCustomizer.ParagraphBecomesAValue | backend/utils/cv_customizer.py:80-97 | once a paragraph contains a placeholder, its whole text becomes one of the map's values |
| CvCustomizer.CustomizeCv | backend/utils/cv_customizer.py:71-105 | the paragraph count is kept; a paragraph holding a placeholder becomes one of the map's values, and every other paragraph keeps its text; when no value holds a key, a paragraph becomes the value of the first key it contains |
| SkillMatch.CategoriesWithMatches | backend/test_cv_customizer.py:35 | the number of matching categories is at most the number of categories |
| SkillMatch.Classify | backend/test_cv_customizer.py:37-44 | "High Match" exactly at the size of the table, "Average Match" exactly above it, "No Match" exactly below two |
| SkillMatch.CalculateSkillMatchLevel | backend/test_cv_customizer.py:31-44 | with a dictionary the size of the table, "High Match" exactly when every category matched; "No Match" exactly when fewer than two categories matched |
| SkillMatch.ClassifyMonotone | backend/test_cv_customizer.py:37-44 | within the size of the table, more matching categories never lower the level |
| SkillMatch.ClassifyNotMonotoneBeyondTable | backend/test_cv_customizer.py:37-44 | beyond the size of the table the order breaks: five matching categories rank below four |
| SkillMatch.PositiveCountHasMatch | backend/test_cv_customizer.py:35 | the count is positive exactly when some category matched |
| SkillMatch.FullCountAllMatch | backend/test_cv_customizer.py:35-37 | the count equals the number of categories exactly when every category matched |
| SkillMatch.LevelOfDescription | backend/test_cv_customizer.py:31-44 | a job is a "High Match" exactly when every category has a skill its description mentions, and "Average Match" is never produced with four categories |
| SkillMatch.AnyNonEmpty | backend/test_cv_customizer.py:145-150 | `any` raises only at a name the dictionary lacks; true only when some listed name has a non-empty list; false only when every listed name exists with an empty list |
| SkillMatch.ChooseTemplate | backend/test_cv_customizer.py:145-157 | "devops" exactly when the devops scan finds a match, a KeyError exactly when it raises, and never "frontend" |
| SkillMatch.AnyNonEmptyStopsEarly | backend/test_cv_customizer.py:145-150 | `any` stops with true at a non-empty list when the names before it all exist |
| SkillMatch.TemplateIsDevops | backend/test_cv_customizer.py:145-157 | whenever the template choice is reached the answer is "devops", without a KeyError on the nine names the dictionary lacks |
| SkillMatch.LookupDistinct | backend/test_cv_customizer.py:145-150 | in the matched dictionary, looking up the i-th predefined name finds the i-th entry |
| SkillMatch.ProcessMatched | backend/test_cv_customizer.py:128-163 | the level is saved first; then the job is skipped on "No Match", skipped when a CV exists, skipped when no template fires, fails when the template scan raises or `generate_cv` lacks its inputs, and otherwise (each case exactly) gets a CV written with the chosen template and uploaded under its id |
| SkillMatch.ProcessJob | backend/test_cv_customizer.py:119-166 | a NULL description raises before anything is written; otherwise the job is processed as above |
| SkillMatch.MatchedJobsUseDevops | backend/test_cv_customizer.py:145-160 | a customised job with the predefined dictionary gets the devops template |
| SkillMatch.CustomizedJobsUseDevops | backend/test_cv_customizer.py:119-163 | a customised job had no stored CV and gets the devops template |
| SkillMatch.MatchingJobGetsCv | backend/test_cv_customizer.py:128-163 | a matching job with no stored CV and with the title and description present gets a devops CV, uploaded under its id |
| SkillMatch.UploadsAppend | backend/test_cv_customizer.py:118 | the uploads of consecutive effects are those of each part, in order |
| SkillMatch.MatchedUploads | backend/test_cv_customizer.py:134-163 | a job's effects upload a CV for it exactly when it was customised |
| SkillMatch.JobUploads | backend/test_cv_customizer.py:119-166 | the same, including the NULL-description failure |
| SkillMatch.ProcessAllJobs | backend/test_cv_customizer.py:113-166 | one outcome per job, and the set of jobs with a CV only grows (the outcome of each job: JobInRun) |
| SkillMatch.RunJobs | backend/test_cv_customizer.py:118-166 | the job loop with any per-job body: one outcome per job, and the set of jobs with a CV only grows |
| SkillMatch.RunJobsAppend | backend/test_cv_customizer.py:118-166 | running two lists of jobs one after the other is running their concatenation: effects and outcomes concatenate, and the second list starts from the CVs the first one stored |
| SkillMatch.ProcessAllJobsAppend | backend/test_cv_customizer.py:118-166 | the same for `process_all_jobs` itself |
| SkillMatch.JobInRun | backend/test_cv_customizer.py:118-166 | the outcome of job i is that of processing row i alone, given the CVs the jobs before it stored, and its effects follow theirs |
| SkillMatch.SkippedJobChangesNothingLater | backend/test_cv_customizer.py:165-166 | a job that gets no CV, whether skipped or failed, leaves the outcomes of every later job as in a run without it |
| SkillMatch.RunJobsSkip | backend/test_cv_customizer.py:165-166 | the same for any per-job body |
| SkillMatch.RunJobsCons | backend/test_cv_customizer.py:133-141 | a first job that gets no CV adds its outcome and hands the same stored CVs to the jobs after it |
| SkillMatch.FreshCons | backend/test_cv_customizer.py:139-163 | a fresh id in front of fresh ids keeps them fresh |
| SkillMatch.UploadsAreUnique | backend/test_cv_customizer.py:113-166 | in one run no job gets two CV uploads, and no job that already had a CV gets one |
| Text.Strip | backend/jobs_main.py:48-53 | `strip` gives a slice of the text, with no whitespace at either end, and removes only whitespace |
| Text.Lower | backend/utils/cv_customizer.py:35 | lower-casing keeps the length and maps each ASCII capital to its small letter |
| Text.ReplaceAll | backend/utils/cv_customizer.py:51 | replacing a text by one of the same length keeps the length (an absent pattern changes nothing: ReplaceAbsentIsIdentity; a present one is replaced: PresentIsReplaced) |
| Text.PresentIsReplaced | backend/utils/cv_customizer.py:51 | `replace` of a non-empty pattern that occurs puts the replacement into the result |
| Text.OccursInContext | backend/utils/cv_customizer.py:131 | an occurrence inside a piece of a text is an occurrence in the whole text, shifted by what precedes the piece |
| Text.StripStrippedIsIdentity | backend/jobs_main.py:48-53 | stripping a text without whitespace at either end keeps it |
| Text.StripIdempotent | backend/jobs_main.py:95 | stripping twice is stripping once |
| Text.ReplaceAbsentIsIdentity | backend/utils/cv_customizer.py:51 | `replace` of a non-empty text that does not occur changes nothing |
| Text.ContainsIffOccurs | backend/utils/cv_customizer.py:35 | the substring test `p in s` holds exactly when `p` occurs at some position |
| Seqs.FilterMultiset | frontend/job-automation-frontend/src/stores/jobAnalyticsStore.js:27 | filtering keeps every kept element as many times as it occurs and drops the rest |
| JobDetails.OrUnavailable | backend/jobs_main.py:28 | `text or "N/A"`: None and "" become "N/A", and any other text is kept |
| JobDetails.ParseAttempt | backend/jobs_main.py:20-53 | an attempt raises exactly when the page does not load, when the location or description read raises, or when the title or company read gives None; otherwise each field is the stripped text read, a raising title or company read gives "N/A", and a missing or empty location or description gives "N/A" |
| JobDetails.AttemptFails | backend/jobs_main.py:20-54 | a page that does not load makes the attempt fail; a loaded page whose location and description reads succeed does not fail when the title and company reads raise, since those are caught |
| JobDetails.FetchFrom | backend/jobs_main.py:19-58 | the loop from an attempt on: every attempt before the one that ends it failed, and it returns that attempt's record, or all "N/A" once the budget is spent |
| JobDetails.Backoff | backend/jobs_main.py:56 | one sleep per failed attempt |
| JobDetails.FetchJobDetails | backend/jobs_main.py:17-58 | the record of the first attempt that does not raise, after a sleep of 2^k seconds for each failed attempt k; all "N/A" after `retries` failures |
| JobDetails.UnavailableIsStripped | backend/jobs_main.py:58 | the "N/A" placeholder is already stripped |
| JobDetails.FetchedDetailsStripped | backend/jobs_main.py:48-58 | every field `fetch_job_details` returns is stripped, whether read from the page or "N/A" |
| JobDetails.AttemptsMade | backend/jobs_main.py:19 | the number of attempts is at most `retries`, and zero exactly when `retries` is not positive |
| JobDetails.FirstSuccessWins | backend/jobs_main.py:19-53 | when attempt k is the first that succeeds, its record is returned after k sleeps |
| JobDetails.AllFailuresGiveUnavailable | backend/jobs_main.py:54-58 | when every attempt fails, the record is all "N/A", after one sleep per attempt |
| JobDetails.TotalBackoff | backend/jobs_main.py:56 | the sleeps of n failed attempts add up to 2^n - 1 seconds |
| JobDetails.DefaultRetriesBackoff | backend/jobs_main.py:17-58 | three failed attempts sleep 7 seconds in all |
| UrlJoin.Resolve | backend/jobs_main.py:86 | `urljoin` of a missing or empty reference is the base; of an absolute path it is the base's origin followed by the reference |
| UrlJoin.AlteredReferencesExcluded | backend/jobs_main.py:86 | absolute paths that `urljoin` rewrites (an empty query, an empty fragment or parameters marker, a tab, a dot segment before parameters) are outside the references the model resolves |
| UrlJoin.FragmentsAndParametersLeftOut | backend/jobs_main.py:86 | paths with a fragment or parameters are left out even where `urljoin` keeps them as written ("/a#x", "/a;x", "/a;b/c") |
| UrlJoin.Serialize | backend/jobs_main.py:86 | the text of a base with a scheme without ':', an authority without '/' and a rest starting with '/' splits back into that base |
| UrlJoin.ParseWellFormed | backend/jobs_main.py:86 | the same, stated on the pieces of the text |
| UrlJoin.IndexOf | backend/jobs_main.py:86 | the first index holding a character, with none before it |
| UrlJoin.ParseUrl | backend/jobs_main.py:86 | splitting a URL into scheme, authority and the rest loses nothing |
| UrlJoin.ParseJoin | backend/jobs_main.py:86 | reading a join back gives the base's scheme and authority with the reference as the path |
| UrlJoin.ParseSplit | backend/jobs_main.py:86 | a URL built from a scheme without ':', an authority without '/' and a path starting with '/' splits back into those three |
| UrlJoin.ParseSliced | backend/jobs_main.py:86 | the same split, stated on the slices of the URL |
| UrlJoin.ParseUrlAt | backend/jobs_main.py:86 | the split happens at the first ':' followed by "//" and at the first '/' after it |
| UrlJoin.FirstIndex | backend/jobs_main.py:86 | the first index search finds the first occurrence |
| UrlJoin.JoinIgnoresBasePath | backend/jobs_main.py:15 | the base's own path plays no part in joining an absolute path |
| Crawl.ProcessElement | backend/jobs_main.py:80-108 | an element gives no record exactly when reading its list title or `href` raises; the record's URL is the `href` joined to the base URL |
| Crawl.RecordFieldsStripped | backend/jobs_main.py:48-53 | every text field of a record is stripped |
| Crawl.TitleFallback | backend/jobs_main.py:91-100 | a detail title of "N/A" is replaced by the stripped list title; the other fields come from the detail page |
| Crawl.UnreachableDetailPage | backend/jobs_main.py:54-58 | when every detail attempt fails the record has "N/A" for location, description and company, and the list title |
| Crawl.PageRecords | backend/jobs_main.py:80-108 | a page gives at most one record per element |
| Crawl.Present | backend/jobs_main.py:80-108 | the records kept are exactly those of the elements that did not raise, and all are kept exactly when none raised |
| Crawl.PresentAppend | backend/jobs_main.py:80 | the records kept from consecutive outcomes are those of each part, in order |
| Crawl.Outcomes | backend/jobs_main.py:80-108 | one outcome per element, in element order, each the processing of that element |
| Crawl.OutcomesAppend | backend/jobs_main.py:80 | the outcomes of consecutive elements are those of each part, in order |
| Crawl.PageRecordsAppend | backend/jobs_main.py:80 | the records of consecutive elements are those of each part, in order |
| Crawl.PageRecordsCount | backend/jobs_main.py:80-108 | exactly one record per element whose reads did not raise |
| Crawl.NoDeduplication | backend/jobs_main.py:97-100 | an element listed twice gives two equal records |
| Crawl.NextUrl | backend/jobs_main.py:110-120 | the crawl goes on exactly when the next link is visible and could be read |
| Crawl.WalkFrom | backend/jobs_main.py:71-120 | the first page loaded is the current URL; the loop loads at most the fuel in pages, and all of it only when the fuel runs out |
| Crawl.RecordsOfPages | backend/jobs_main.py:69-100 | every record collected comes from one of the listing pages loaded |
| Crawl.CrawlFollowsNextLinks | backend/jobs_main.py:110-115 | each page loaded after the first is the one the previous listing page's next link pointed to |
| Crawl.CrawlStopsAtLastPage | backend/jobs_main.py:71-120 | the crawl ends at a page without a visible next link, or at a page that raised |
| Crawl.Scrape | backend/jobs_main.py:61-120 | the scrape succeeds exactly when the loop ends on a page without a next link, and then yields the records of every page loaded, in page order; otherwise it fails with how the loop ended |
| Crawl.ScrapeFollowsTheListing | backend/jobs_main.py:71-120 | a completed crawl starts at the search URL, follows each next link, and ends at a listing page without a visible one |
| JobsRoutes.Updates | backend/jobs_routes.py:73 | the updates are exactly the non-null entries of the body, and there are none exactly when every value is null |
| JobsRoutes.UpdatesKeepOrder | backend/jobs_routes.py:73 | the updates keep the body's order |
| JobsRoutes.Wrapped | backend/jobs_routes.py:73 | the updates read as body entries again, one per update |
| JobsRoutes.SetClause | backend/jobs_routes.py:78 | the SET clause is empty exactly when there is no update, and starts with the first key's `key = %s` |
| JobsRoutes.UpdateStatement | backend/jobs_routes.py:78-84 | the statement's parameters are the values in order, then the job id |
| JobsRoutes.UpdateJob | backend/jobs_routes.py:70-92 | a refused token gets the JWT extension's status and a body that is not a JSON object gets 500, both without a statement; 400 without a statement exactly when every value is null; otherwise the UPDATE of the non-null values runs, and the answer is 500 exactly when the database rejects it (an unknown column, a value it cannot bind), 404 exactly when no row changed, 200 exactly otherwise |
| JobsRoutes.CountCharAppend | backend/jobs_routes.py:84 | the count of a character in a concatenation is the sum of the counts |
| JobsRoutes.CountCharAbsent | backend/jobs_routes.py:84 | a text without the character has none of it |
| JobsRoutes.CountPlaceholder | backend/jobs_routes.py:78 | `%s` holds one '%' |
| JobsRoutes.CountLiteralThenPlaceholder | backend/jobs_routes.py:78 | a literal without '%' followed by `%s` holds one '%' |
| JobsRoutes.SetClausePercents | backend/jobs_routes.py:78 | the SET clause holds one '%' per update when no key holds one |
| JobsRoutes.CountUpdatePrefix | backend/jobs_routes.py:84 | the text before the SET clause holds no '%' |
| JobsRoutes.CountWhereClause | backend/jobs_routes.py:84 | the WHERE clause holds the one placeholder for the job id |
| JobsRoutes.PlaceholdersMatchParams | backend/jobs_routes.py:78-84 | when no key holds '%', the statement has exactly as many placeholders as bound parameters |
| JobsRoutes.DeleteJob | backend/jobs_routes.py:96-109 | the DELETE runs exactly when the token is accepted, and a refused token gets the JWT extension's status; then 500 exactly when the database rejects the DELETE (a job an application still references), 404 exactly when no row was deleted, 200 exactly otherwise |
| JobsRoutes.GetJobById | backend/jobs_routes.py:54-66 | 200 with the row exactly when the SELECT found a non-empty row, 404 with a message otherwise |
| JsValues.Coalesce | frontend/job-automation-frontend/src/stores/dataStore.js:64 | `a ?? b` is `a` unless it is null or undefined; the result is nullish only when both are |
| JsValues.Or | frontend/job-automation-frontend/src/stores/dashboardStore.js:36-42 | the logical or of `a` and `b` is `a` when truthy, `b` otherwise; the result is truthy exactly when one of them is |
| JsValues.Truthy | frontend/job-automation-frontend/src/stores/userStore.js:57-59 | `!!v` is false exactly for undefined, null, false, 0 and "" |
| JsValues.StrictEq | frontend/job-automation-frontend/src/stores/jobsStore.js:30 | `===` holds exactly between equal values that are neither arrays nor objects |
| JsValues.Lookup | frontend/job-automation-frontend/src/stores/jobAnalyticsStore.js:36 | no property is found exactly when no property has that name |
| JsValues.LookupFound | frontend/job-automation-frontend/src/stores/jobAnalyticsStore.js:36 | a property that is found is one of the object's own properties |
| JsValues.Member | frontend/job-automation-frontend/src/stores/dataStore.js:64 | `v?.key` is undefined on null, undefined and non-objects, and on an object without that property |
| JsValues.SetProp | frontend/job-automation-frontend/src/stores/jobAnalyticsStore.js:37-39 | `o[key] = value` sets that property and leaves every other property as it was |
| JsValues.NumberIsNeverString | frontend/job-automation-frontend/src/stores/bookmarksStore.js:14 | a number is never strictly equal to a string |
| JsValues.NatToString | frontend/job-automation-frontend/src/stores/bookmarksStore.js:12 | the decimal text of a number is a non-empty run of digits |
| JsValues.NatToStringRoundTrip | frontend/job-automation-frontend/src/stores/bookmarksStore.js:12 | reading the decimal text back gives the number |
| JsValues.IntToString | frontend/job-automation-frontend/src/stores/bookmarksStore.js:12 | the text of an integer starts with '-' exactly when it is negative |
| JsValues.ToString | frontend/job-automation-frontend/src/stores/userStore.js:28 | `String(v)` is empty only for a string or an array, and a number's text starts with '-' exactly when it is negative |
| JsValues.ToStringOfString | frontend/job-automation-frontend/src/stores/userStore.js:28 | storing a string stores it as it is |
| JsValues.StoredTextTruthiness | frontend/job-automation-frontend/src/stores/userStore.js:8 | a stored value read back is truthy unless it was the empty string; "undefined" and "null" are stored as truthy text |
| Json.UnescapeChar | frontend/job-automation-frontend/src/stores/jobsStore.js:19 | one escaped character reads back as itself |
| Json.UnescapeEscape | frontend/job-automation-frontend/src/stores/jobsStore.js:19 | an escaped text reads back as itself |
| Json.Quote | frontend/job-automation-frontend/src/stores/jobsStore.js:19 | a string literal is the escaped text between double quotes, at least two characters longer than the string |
| Json.EscapeChar | frontend/job-automation-frontend/src/stores/jobsStore.js:19 | an escaped character has no control character; it is the character itself exactly when that is not a control character, '"' or '\\', and otherwise starts with a backslash |
| Json.Escape | frontend/job-automation-frontend/src/stores/jobsStore.js:19 | an escaped text is at least as long as the text and holds no control character |
| Json.QuoteRoundTrip | frontend/job-automation-frontend/src/stores/jobsStore.js:19 | a quoted string literal reads back as the string |
| Json.QuoteInjective | frontend/job-automation-frontend/src/stores/jobsStore.js:19 | two different strings never serialise to the same literal |
| Json.Stringify | frontend/job-automation-frontend/src/stores/jobsStore.js:19 | `JSON.stringify` has no text exactly for undefined; a string is quoted; an array gives "[...]" and an object "{...}" |
| Json.ArrayParts | frontend/job-automation-frontend/src/stores/jobsStore.js:19 | one serialised part per array element |
| Json.PropertyParts | frontend/job-automation-frontend/src/stores/jobsStore.js:19 | at most one serialised part per property |
| DataStore.HandleResponse | frontend/job-automation-frontend/src/stores/dataStore.js:62-68 | success with the reply's status; the data is `data.data`, else `data`, else an empty object |
| DataStore.HandleErrorResponse | frontend/job-automation-frontend/src/stores/dataStore.js:71-81 | failure; without a reply the data is the fixed message object and the status is 500; with one, the reply's status and its `data.data`, else `data`, else the message object |
| DataStore.NormalisedDataIsNeverNullish | frontend/job-automation-frontend/src/stores/dataStore.js:62-81 | neither normalisation yields null or undefined data |
| DataStore.GetItem | frontend/job-automation-frontend/src/stores/dataStore.js:51 | `getItem` finds an item exactly when the key is stored, and returns its text |
| DataStore.AddAuthHeader | frontend/job-automation-frontend/src/stores/dataStore.js:50-59 | Authorization becomes "Bearer " and the token when the stored token is non-empty; without one the options are unchanged; no other key changes |
| DataStore.Perform | frontend/job-automation-frontend/src/stores/dataStore.js:8-45 | the request has the action's verb and URL and the options with the auth header; only POST and PUT carry a payload; success exactly when the request resolves, with the reply's status; the data is never nullish |
| DataStore.StatusIsNumeric | frontend/job-automation-frontend/src/stores/dataStore.js:65-78 | an action's status is never strictly equal to a string |
| ListStore.FetchOnce | frontend/job-automation-frontend/src/stores/jobsStore.js:10-22 | no request exactly when the list already has a positive length; otherwise a GET of the URL whose data replaces the list on success, the list being kept on failure |
| ListStore.LengthPositive | frontend/job-automation-frontend/src/stores/jobsStore.js:11 | `list.length > 0` never holds for null, undefined, a boolean or a number, and holds for an array exactly when it is not empty |
| ListStore.FetchOnceIsIdempotent | frontend/job-automation-frontend/src/stores/jobsStore.js:11 | once loaded, a list is not fetched again, whatever the server would answer |
| ListStore.FailedFetchIsRetried | frontend/job-automation-frontend/src/stores/jobsStore.js:11-22 | an empty list whose fetch fails stays empty, so the next call fetches again |
| ListStore.FindIn | frontend/job-automation-frontend/src/stores/jobsStore.js:30 | `find` gives undefined exactly when no element matches or throws; a found value is the first match; a TypeError comes from a null or undefined element before any match |
| ListStore.FindById | frontend/job-automation-frontend/src/stores/jobsStore.js:29-31 | the same on an array, and a TypeError on anything else |
| ListStore.IdStep | frontend/job-automation-frontend/src/stores/jobsStore.js:30 | one element throws exactly when it is null or undefined, and any other element matches exactly when its `id` is the one sought and that id is neither an array nor an object |
| ListStore.StringIdFindsNothing | frontend/job-automation-frontend/src/stores/cvsStore.js:27-29 | when every id is a number, a string id finds nothing, even "1" for 1 |
| JobsStore.GetAllJobs | frontend/job-automation-frontend/src/stores/jobsStore.js:26-31 | the list `getJobById` searches |
| JobsStore.GetJobById | frontend/job-automation-frontend/src/stores/jobsStore.js:29-31 | a TypeError on a list that is not an array; undefined exactly when no job's id is `===` the id and none before a match is null; a found job is in the list and its id is `===` the id |
| JobsStore.FetchJobs | frontend/job-automation-frontend/src/stores/jobsStore.js:10-23 | the fetch-once action on the job list; on success the stored "jobs" item is the JSON text of the new list; otherwise the storage is unchanged |
| JobsStore.FetchedJobsAreStored | frontend/job-automation-frontend/src/stores/jobsStore.js:16-19 | after a successful first fetch, the list and the stored copy are the reply's data, and a stored string reads back unchanged |
| CvsStore.FetchCvs | frontend/job-automation-frontend/src/stores/cvsStore.js:10-21 | no request when CVs are loaded; otherwise the CVs become the reply's data on success and are kept on failure; never nullish |
| CvsStore.GetAllCvs | frontend/job-automation-frontend/src/stores/cvsStore.js:24-29 | the list `getCVById` searches |
| CvsStore.GetCvById | frontend/job-automation-frontend/src/stores/cvsStore.js:27-29 | a TypeError on a list that is not an array; undefined exactly when no CV's id is `===` the id and none before a match is null; a found CV is in the list and its id is `===` the id |
| JobAnalyticsStore.FetchJobAnalytics | frontend/job-automation-frontend/src/stores/jobAnalyticsStore.js:9-20 | no request when analytics are loaded; otherwise they become the reply's data on success and are kept on failure; never nullish |
| JobAnalyticsStore.BySkillMatch | frontend/job-automation-frontend/src/stores/jobAnalyticsStore.js:26-28 | exactly the entries of that level, each as many times as in the list, in their order |
| JobAnalyticsStore.ByLocation | frontend/job-automation-frontend/src/stores/jobAnalyticsStore.js:29-31 | exactly the entries at that location, each as many times as in the list, in their order |
| JobAnalyticsStore.LevelTotalIsFilteredTotal | frontend/job-automation-frontend/src/stores/jobAnalyticsStore.js:26-43 | the level total the summary accumulates is the sum of the counts of the filtered entries |
| JobAnalyticsStore.SetPropSum | frontend/job-automation-frontend/src/stores/jobAnalyticsStore.js:37-39 | setting a level changes the sum of the values by the difference |
| JobAnalyticsStore.SetPropNumbers | frontend/job-automation-frontend/src/stores/jobAnalyticsStore.js:37-39 | setting a level to a number keeps every value a number |
| JobAnalyticsStore.LookupNumber | frontend/job-automation-frontend/src/stores/jobAnalyticsStore.js:36 | a level found in the summary holds a number |
| JobAnalyticsStore.ResetIfFalsy | frontend/job-automation-frontend/src/stores/jobAnalyticsStore.js:36-38 | afterwards the level holds its number, or 0 when it was absent; the sum is unchanged |
| JobAnalyticsStore.AddEntry | frontend/job-automation-frontend/src/stores/jobAnalyticsStore.js:35-40 | one entry adds its count to its level and to the sum of the values |
| JobAnalyticsStore.AddEntryKeys | frontend/job-automation-frontend/src/stores/jobAnalyticsStore.js:35-40 | one entry adds its own level to the keys and no other |
| JobAnalyticsStore.AddEntryKeepsOthers | frontend/job-automation-frontend/src/stores/jobAnalyticsStore.js:35-40 | the other levels are left as they were |
| JobAnalyticsStore.AddEntryToLevel | frontend/job-automation-frontend/src/stores/jobAnalyticsStore.js:35-40 | the entry's own level gains its count |
| JobAnalyticsStore.AddEntryValue | frontend/job-automation-frontend/src/stores/jobAnalyticsStore.js:35-40 | every level's number grows by the count exactly when it is the entry's level |
| JobAnalyticsStore.Summary | frontend/job-automation-frontend/src/stores/jobAnalyticsStore.js:32-43 | every value of the summary is a number |
| JobAnalyticsStore.HasLevelLast | frontend/job-automation-frontend/src/stores/jobAnalyticsStore.js:35 | a level occurs in a non-empty list exactly when it occurs before the last entry or is the last entry's |
| JobAnalyticsStore.SummaryKeys | frontend/job-automation-frontend/src/stores/jobAnalyticsStore.js:32-43 | the summary's keys are exactly the levels that occur |
| JobAnalyticsStore.SummaryValues | frontend/job-automation-frontend/src/stores/jobAnalyticsStore.js:32-43 | each level holds the sum of the counts of its entries |
| JobAnalyticsStore.SummaryPerLevel | frontend/job-automation-frontend/src/stores/jobAnalyticsStore.js:32-43 | a level is present exactly when it occurs, and then holds the sum of its entries' counts |
| JobAnalyticsStore.SummaryTotal | frontend/job-automation-frontend/src/stores/jobAnalyticsStore.js:32-43 | the summary's values add up to the sum of all counts |
| UserStore.InitialState | frontend/job-automation-frontend/src/stores/userStore.js:6-9 | no user; the token is the stored one, or null when there is none or it is empty |
| UserStore.StoredToken | frontend/job-automation-frontend/src/stores/userStore.js:8 | `localStorage.getItem("token")` is null exactly when no token is stored, and otherwise the stored text |
| UserStore.InitiallyAuthenticatedIff | frontend/job-automation-frontend/src/stores/userStore.js:6-9 | a page load starts signed in exactly when a non-empty token is stored |
| UserStore.IsAuthenticated | frontend/job-automation-frontend/src/stores/userStore.js:57-59 | signed in only with a token that is not null or undefined, and with a text token exactly when it is non-empty |
| UserStore.Logout | frontend/job-automation-frontend/src/stores/userStore.js:50-54 | user and token become null, the stored token is removed, and no other item changes |
| UserStore.LogoutSurvivesReload | frontend/job-automation-frontend/src/stores/userStore.js:50-54 | after a logout a reload starts from the logged-out state |
| UserStore.FetchUserProfile | frontend/job-automation-frontend/src/stores/userStore.js:35-48 | a GET of the profile; on success the user is the reply's data; a 401 logs out; any other failure changes nothing |
| UserStore.UnreachableServerKeepsSession | frontend/job-automation-frontend/src/stores/userStore.js:42-46 | a profile request with no reply reports 500, so the user stays signed in |
| UserStore.Login | frontend/job-automation-frontend/src/stores/userStore.js:22-33 | a POST of the credentials; on success the token becomes the reply's `access_token`, its text is stored, and the profile is fetched with it; on failure nothing changes |
| UserStore.LoginUsesNewToken | frontend/job-automation-frontend/src/stores/userStore.js:26-29 | a login that returns a non-empty token stores it, and the options of the profile request carry `Authorization: Bearer <token>` (at the top level, not as a header; see DataStore.AddAuthHeader under Left out) |
| UserStore.MissingAccessTokenIsStoredAsText | frontend/job-automation-frontend/src/stores/userStore.js:27-28 | a successful login without `access_token` leaves the store signed out but stores "undefined", which a reload takes for a token |
| UserStore.Register | frontend/job-automation-frontend/src/stores/userStore.js:11-20 | a POST of the new account; the state and the storage are unchanged |
| DashboardStore.FetchDashboardSummary | frontend/job-automation-frontend/src/stores/dashboardStore.js:14-31 | no request exactly when no non-empty token is stored; otherwise a GET whose options carry `Authorization: Bearer <token>` (at the top level, not as a header; see DataStore.AddAuthHeader under Left out), whose data replaces the summary on success; the summary is kept on failure and is never nullish |
| DashboardStore.TotalJobs | frontend/job-automation-frontend/src/stores/dashboardStore.js:36 | `total_jobs` when it is truthy, and 0 whenever it is falsy or absent |
| DashboardStore.TotalCvs | frontend/job-automation-frontend/src/stores/dashboardStore.js:39 | `total_cvs` when it is truthy, and 0 whenever it is falsy or absent |
| DashboardStore.RecentJobs | frontend/job-automation-frontend/src/stores/dashboardStore.js:42 | `recent_jobs` when it is truthy, and [] whenever it is falsy or absent |
| DashboardStore.GettersDefault | frontend/job-automation-frontend/src/stores/dashboardStore.js:5-43 | the three getters read 0, 0 and [] before the first fetch, and after a fetch whose data lacks those fields |
| BookmarksStore.FetchBookmarksAsWritten | frontend/job-automation-frontend/src/stores/bookmarksStore.js:10-19 | as written, a GET of `/bookmarks/<user>` that never changes the list |
| BookmarksStore.BookmarksUrl | frontend/job-automation-frontend/src/stores/bookmarksStore.js:12 | the URL is "/bookmarks/" followed by the user id: the text itself for a text id, and digits reading back as the number for a non-negative number |
| BookmarksStore.NewBookmark | frontend/job-automation-frontend/src/stores/bookmarksStore.js:23 | the add request's body has `user_id` and `job_id` set to the ids given |
| BookmarksStore.StatusIsSuccessText | frontend/job-automation-frontend/src/stores/bookmarksStore.js:14 | the test `response.status === "success"` fails for every reply |
| BookmarksStore.AddBookmarkAsWritten | frontend/job-automation-frontend/src/stores/bookmarksStore.js:21-30 | as written, only the POST is made and the list never changes |
| BookmarksStore.RemoveBookmarkAsWritten | frontend/job-automation-frontend/src/stores/bookmarksStore.js:32-41 | as written, only the DELETE is made and the list never changes |
| BookmarksStore.FetchBookmarks | frontend/job-automation-frontend/src/stores/bookmarksStore.js:10-19 | the list becomes the reply's data on success and is kept on failure |
| BookmarksStore.AddBookmark | frontend/job-automation-frontend/src/stores/bookmarksStore.js:21-30 | a POST of the new bookmark, then a refresh of the list on success; nothing else on failure |
| BookmarksStore.RemoveBookmark | frontend/job-automation-frontend/src/stores/bookmarksStore.js:32-41 | a DELETE of the bookmark, then a refresh of the list on success; nothing else on failure |
| BookmarksStore.BookmarksNeverLoadAsWritten | frontend/job-automation-frontend/src/stores/bookmarksStore.js:14 | a server holding one bookmark: the store as written stays empty, and the corrected store shows it |
| BookmarksStore.AddedBookmarkIsShown | frontend/job-automation-frontend/src/stores/bookmarksStore.js:21-30 | after adding to a server that then lists the bookmarks, the corrected store shows the server's list |

## Left out

- Playwright itself, the browser contexts, page timeouts and the random 3-7 second delays between jobs: page contents and read outcomes are inputs, and the sleeps are returned as durations.
- Writing `job_details.txt`, logging, `print`, `console` output and `alert`: they have no effect on the state.
- The database connection, commits and S3 upload of the batch job and the routes: these become the effects they request, or an input giving the row count (none for a statement the database rejects) or row.
- `docx` formatting (bold, underline, font size): only the paragraph text is modelled.
- spaCy loading in `cv_customizer.py`: it is unused by the functions modelled.
- `SKILL_MATCH_THRESHOLD` and the other helpers of `test_cv_customizer.py` (`get_all_jobs`, `save_skill_match_to_db`, `is_cv_saved`, `save_cv_to_s3_and_database`): database I/O, modelled as effects and as the set of ids with a CV.
- UrlJoin.Resolve: only missing or empty references and absolute paths are resolved, and only paths with no tab, carriage return or newline (`urlsplit` deletes them), no trailing '?' (`urlunsplit` drops an empty query) and no '#' or ';'. The last restriction is the model's own: `urljoin` rewrites some such paths ("/a#", "/a;", "/a/..;x" becomes "/;x") and keeps others ("/a#x", "/a;x"), and the model does not tell them apart. Paths with a dot segment ("." or "..", which `urljoin` removes) are left out as well; network-path, relative and full-URL references are not modelled either. The crawler's `href`s are plain site-relative paths.
- Crawl.WalkFrom: `jobs_main.py` has no bound on the pages it visits, so the model carries a fuel bound. A site whose next links never end is only followed for as many pages as the fuel allows, and ends as `FuelExhausted`.
- JsValues: numbers are integers (no NaN, infinities, fractions or exponent notation); `===` on two objects or arrays is taken to be false (object identity is not modelled); built-in properties of strings and arrays (other than `length` in the fetch-once test) are not modelled; the integer-like keys that JavaScript orders first in an object are kept in insertion order.
- ListStore.LengthPositive: an object whose `length` property is a string is taken to have no positive length; JavaScript would compare the string numerically.
- JobAnalyticsStore: the filter and summary getters take the entries as typed records of level, location and integer count. Entries of other shapes, and `+=` on non-numbers (string concatenation), are not modelled.
- DataStore.AddAuthHeader: as `dataStore.js` does, the Authorization entry is set on the options object handed to the HTTP client, not inside its `headers`. An axios client sends only `options.headers`, so no request would carry the token; the model stops at the options and does not follow them into the client. One plausible consequence, not executed: `/profile` requires a JWT, so the profile fetch right after a login would get 401 and `fetchUserProfile` would log the user out again.
- BookmarksStore: `fetchBookmarks` is not awaited after adding or removing; the model lets it complete before the action returns.
- CvCustomizer.CustomizeSummary: the contract states the result for any summary. For the one `generate_cv` uses, which has "cloud infrastructure" and never "cloud platforms", CloudRewriteNeverFires shows that the cloud rewrite is a no-op.
- ExtractRelevantSkills: lower-casing is ASCII only (Text.Lower). Python's `str.lower` also maps other letters, such as the Kelvin sign U+212A to 'k' and 'İ' to "i̇", so a description such as "NETWOR\u212AING" matches a skill in Python and not in the model.
- UpdateJob: the JWT check of `@jwt_required()` is an input (`Access`) rather than a token to decode, and a body that is not a JSON object is one value (None) that gets 500; Flask's own 400 or 415 for a request without a JSON body is not distinguished.
- JsValues.Member: properties inherited from `Object.prototype` (`constructor`, `toString`, ...) are not modelled, so JobAnalyticsStore.SummaryPerLevel does not cover a level with such a name, which JavaScript would concatenate to the inherited function's text.
- The `http.js` plugin, the router and `main.ts`: configuration only.

## Findings

| source | as written | input that shows it | evidently intended | confidence | as-written member | corrected member |
|---|---|---|---|---|---|---|
| frontend/job-automation-frontend/src/stores/bookmarksStore.js:14 | every action tests `response.status === "success"`, but the normalised status is the numeric HTTP status (or 500), so the test never holds: bookmarks are never loaded and no refresh follows an add or remove | a server that answers the GET with status 200 and data `[1]`: the list stays `[]` | test the `success` flag of the normalised reply | high (not executed) | BookmarksStore.FetchBookmarksAsWritten | BookmarksStore.FetchBookmarks |

=== FILE: bookmarks_store.dfy ===
/** The bookmarks store (`bookmarksStore.js`): a user's bookmarked jobs,
    loaded from `/bookmarks/<user>` and refreshed after adding or removing
    one. As written every action tests `response.status === "success"`,
    which a numeric status never satisfies, so the list never changes; the
    actions below test the `success` flag of the normalised reply instead,
    and the `AsWritten` members keep the original test. */
module BookmarksStore {
  import opened Wrappers
  import opened JsValues
  import opened DataStore

  datatype BookmarksState = BookmarksState(bookmarks: JsVal)

  const Initial := BookmarksState(Arr([]))

  /** `/bookmarks/${id}`. */
  function BookmarksUrl(id: JsVal): (r: string)
    ensures |r| >= 11 && r[..11] == "/bookmarks/"
    ensures id.Str? ==> r[11..] == id.s
    ensures id.Num? && id.n >= 0 ==>
              (forall k :: 11 <= k < |r| ==> '0' <= r[k] <= '9') && DigitsValue(r[11..]) == id.n
  {
    if id.Num? && id.n >= 0 then NatToStringRoundTrip(id.n); "/bookmarks/" + ToString(id)
    else "/bookmarks/" + ToString(id)
  }

  const AddUrl := "/bookmarks"

  /** The body of the add request. */
  function NewBookmark(userId: JsVal, jobId: JsVal): (r: JsVal)
    ensures Member(r, "user_id") == userId && Member(r, "job_id") == jobId
  {
    var props := [("user_id", userId), ("job_id", jobId)];
    assert props[1..] == [("job_id", jobId)] && "user_id"[0] != "job_id"[0];
    assert Lookup(props, "job_id") == Lookup(props[1..], "job_id") == Some(jobId);
    Obj(props)
  }

  /** `getBookmarks`: the list itself. */
  function GetBookmarks(s: BookmarksState): JsVal
  {
    s.bookmarks
  }

  /** The test the store applies to every reply. */
  predicate StatusIsSuccessText(response: ActionResult)
    ensures !StatusIsSuccessText(response)
  {
    StrictEq(Num(response.status), Str("success"))
  }

  /** `fetchBookmarks(userId)` as written: the list would become the reply's
      data if the numeric status were the string "success", so it never
      does. */
  function FetchBookmarksAsWritten(s: BookmarksState, userId: JsVal, storage: Storage,
                                   send: Request -> Outcome): (r: (BookmarksState, Request))
    ensures r.1 == Request(Get, BookmarksUrl(userId), None, AddAuthHeader([], GetItem(storage, "token")))
    ensures r.0 == s
  {
    var (request, response) := Perform(Get, BookmarksUrl(userId), Undefined, [], storage, send);
    NumberIsNeverString(response.status, "success");
    (if StatusIsSuccessText(response) then BookmarksState(response.data) else s, request)
  }

  /** `addBookmark(userId, jobId)` as written: the refresh behind the same
      test never runs, so only the POST is made. */
  function AddBookmarkAsWritten(s: BookmarksState, userId: JsVal, jobId: JsVal, storage: Storage,
                                send: Request -> Outcome): (r: (BookmarksState, seq<Request>))
    ensures r.0 == s
    ensures r.1 == [Request(Post, AddUrl, Some(NewBookmark(userId, jobId)), AddAuthHeader([], GetItem(storage, "token")))]
  {
    var (request, response) := Perform(Post, AddUrl, NewBookmark(userId, jobId), [], storage, send);
    NumberIsNeverString(response.status, "success");
    if StatusIsSuccessText(response) then
      var (state, refresh) := FetchBookmarksAsWritten(s, userId, storage, send);
      (state, [request, refresh])
    else (s, [request])
  }

  /** `removeBookmark(bookmarkId, userId)` as written: only the DELETE is
      made. */
  function RemoveBookmarkAsWritten(s: BookmarksState, bookmarkId: JsVal, userId: JsVal, storage: Storage,
                                   send: Request -> Outcome): (r: (BookmarksState, seq<Request>))
    ensures r.0 == s
    ensures r.1 == [Request(Delete, BookmarksUrl(bookmarkId), None, AddAuthHeader([], GetItem(storage, "token")))]
  {
    var (request, response) := Perform(Delete, BookmarksUrl(bookmarkId), Undefined, [], storage, send);
    NumberIsNeverString(response.status, "success");
    if StatusIsSuccessText(response) then
      var (state, refresh) := FetchBookmarksAsWritten(s, userId, storage, send);
      (state, [request, refresh])
    else (s, [request])
  }

  /** A server that answers every request with a list of bookmarks. */
  function ServerWithBookmarks(bookmarks: seq<JsVal>): Request -> Outcome
  {
    (request: Request) => Resolved(HttpResponse(200, Obj([("data", Arr(bookmarks))])))
  }

  /** `fetchBookmarks(userId)` as intended: the list becomes the reply's data
      on success and is kept on failure. */
  function FetchBookmarks(s: BookmarksState, userId: JsVal, storage: Storage,
                          send: Request -> Outcome): (r: (BookmarksState, Request))
    ensures r.1 == Request(Get, BookmarksUrl(userId), None, AddAuthHeader([], GetItem(storage, "token")))
    ensures send(r.1).Resolved? ==> r.0.bookmarks == HandleResponse(send(r.1).response).data
    ensures send(r.1).Rejected? ==> r.0 == s
  {
    var (request, response) := Perform(Get, BookmarksUrl(userId), Undefined, [], storage, send);
    (if response.success then BookmarksState(response.data) else s, request)
  }

  /** `addBookmark(userId, jobId)` as intended: after a successful POST the
      list is fetched again; after a failed one nothing changes. */
  function AddBookmark(s: BookmarksState, userId: JsVal, jobId: JsVal, storage: Storage,
                       send: Request -> Outcome): (r: (BookmarksState, seq<Request>))
    ensures |r.1| >= 1 &&
            r.1[0] == Request(Post, AddUrl, Some(NewBookmark(userId, jobId)), AddAuthHeader([], GetItem(storage, "token")))
    ensures send(r.1[0]).Resolved? ==>
              var refresh := FetchBookmarks(s, userId, storage, send);
              r == (refresh.0, [r.1[0], refresh.1])
    ensures send(r.1[0]).Rejected? ==> r == (s, [r.1[0]])
  {
    var (request, response) := Perform(Post, AddUrl, NewBookmark(userId, jobId), [], storage, send);
    if response.success then
      var (state, refresh) := FetchBookmarks(s, userId, storage, send);
      (state, [request, refresh])
    else (s, [request])
  }

  /** `removeBookmark(bookmarkId, userId)` as intended: after a successful
      DELETE the list is fetched again; after a failed one nothing changes. */
  function RemoveBookmark(s: BookmarksState, bookmarkId: JsVal, userId: JsVal, storage: Storage,
                          send: Request -> Outcome): (r: (BookmarksState, seq<Request>))
    ensures |r.1| >= 1 &&
            r.1[0] == Request(Delete, BookmarksUrl(bookmarkId), None, AddAuthHeader([], GetItem(storage, "token")))
    ensures send(r.1[0]).Resolved? ==>
              var refresh := FetchBookmarks(s, userId, storage, send);
              r == (refresh.0, [r.1[0], refresh.1])
    ensures send(r.1[0]).Rejected? ==> r == (s, [r.1[0]])
  {
    var (request, response) := Perform(Delete, BookmarksUrl(bookmarkId), Undefined, [], storage, send);
    if response.success then
      var (state, refresh) := FetchBookmarks(s, userId, storage, send);
      (state, [request, refresh])
    else (s, [request])
  }

  /** The discrepancy on one input: a server holding one bookmark answers
      the fetch with it, the store as written stays empty, and the intended
      store shows the bookmark. */
  lemma BookmarksNeverLoadAsWritten(userId: JsVal, storage: Storage)
    ensures GetBookmarks(FetchBookmarksAsWritten(Initial, userId, storage, ServerWithBookmarks([Num(1)])).0) == Arr([])
    ensures GetBookmarks(FetchBookmarks(Initial, userId, storage, ServerWithBookmarks([Num(1)])).0) == Arr([Num(1)])
  {
    var send := ServerWithBookmarks([Num(1)]);
    var request := Request(Get, BookmarksUrl(userId), None, AddAuthHeader([], GetItem(storage, "token")));
    assert send(request) == Resolved(HttpResponse(200, Obj([("data", Arr([Num(1)]))])));
    assert Member(Obj([("data", Arr([Num(1)]))]), "data") == Arr([Num(1)]);
  }

  /** After adding a bookmark to a server that then lists it, the intended
      store shows the server's list. */
  lemma AddedBookmarkIsShown(s: BookmarksState, userId: JsVal, jobId: JsVal, storage: Storage, bookmarks: seq<JsVal>)
    ensures GetBookmarks(AddBookmark(s, userId, jobId, storage, ServerWithBookmarks(bookmarks)).0) == Arr(bookmarks)
  {
    var send := ServerWithBookmarks(bookmarks);
    var request := Request(Get, BookmarksUrl(userId), None, AddAuthHeader([], GetItem(storage, "token")));
    assert send(request) == Resolved(HttpResponse(200, Obj([("data", Arr(bookmarks))])));
    assert Member(Obj([("data", Arr(bookmarks))]), "data") == Arr(bookmarks);
  }
}

=== FILE: crawl.dfy ===
/** The listing crawl of `scrape_jobs_with_playwright`: page after page of
    search results, one record per job element whose processing does not
    raise, following the "next page" link until it is hidden or cannot be
    read. What each page load and each read returns is an input: the n-th
    listing page loaded is `pages(n)`, and an element carries the outcomes
    of the reads made on it and of the attempts at its detail page. */
module Crawl {
  import opened Wrappers
  import opened Seqs
  import opened Text
  import opened JobDetails
  import opened UrlJoin

  /** `BASE_URL`, "https://uk.indeed.com". */
  const BaseUrl := Base("https", "uk.indeed.com", "")

  /** The first listing page: the search for "developer" with no location. */
  const StartUrl := Serialize(BaseUrl) + "/jobs?q=developer&l="

  /** The attempts `fetch_job_details` is called with. */
  const DetailRetries := 3

  /** A job element of a listing page: the title text read from the list,
      its `href` attribute, and the outcomes of the attempts at its detail
      page. */
  datatype Element = Element(listTitle: Lookup<string>, href: Lookup<Reference>, attempts: nat -> Attempt)

  /** The "next page" control: reading it raised, it is hidden, or it is
      visible with this `href`. */
  datatype NextLink = NextError | NextHidden | NextVisible(href: Option<Reference>)

  /** A listing page: loading it (or reading its title or job list) raised,
      or it shows these job elements and this next link. */
  datatype ListingPage = PageLoadError | Listing(elements: seq<Element>, next: NextLink)

  /** One job as the crawler stores it: the absolute URL, then the detail
      fields. */
  datatype JobRecord = JobRecord(url: string, title: string, location: string,
                                 description: string, company: string)

  /** The per-element body of the loop: the record, or None when reading
      the list title or the `href` raised (the error is logged and the
      element skipped). The record's URL is the joined `href`, and its title
      falls back to the stripped list title when the detail page gave "N/A". */
  function ProcessElement(e: Element): (r: Option<JobRecord>)
    ensures r.None? <==> e.listTitle.LookupError? || e.href.LookupError?
    ensures r.Some? ==> r.value.url == Resolve(BaseUrl, e.href.content)
  {
    if e.listTitle.LookupError? || e.href.LookupError? then None
    else
      var listTitle := OrUnavailable(e.listTitle.content);
      var details := FetchJobDetails(DetailRetries, e.attempts).details;
      var title := if details.title == Unavailable then Strip(listTitle) else details.title;
      Some(JobRecord(Resolve(BaseUrl, e.href.content), title, details.location, details.description, details.company))
  }

  /** Every text field of a record is whitespace-stripped. */
  predicate FieldsStripped(r: JobRecord)
  {
    IsStripped(r.title) && IsStripped(r.location) && IsStripped(r.description) && IsStripped(r.company)
  }

  /** The detail fields come from the detail page (or are all "N/A"), and
      every text field is stripped. */
  lemma RecordFieldsStripped(e: Element)
    requires ProcessElement(e).Some?
    ensures FieldsStripped(ProcessElement(e).value)
  {
    FetchedDetailsStripped(DetailRetries, e.attempts);
  }

  /** The title fallback: a detail title of "N/A" is replaced by the list
      title ("N/A" itself when the list gave no text), and any other detail
      title is kept. */
  lemma TitleFallback(e: Element)
    requires ProcessElement(e).Some?
    ensures var details := FetchJobDetails(DetailRetries, e.attempts).details;
            ProcessElement(e).value.title ==
              (if details.title == Unavailable then Strip(OrUnavailable(e.listTitle.content)) else details.title)
    ensures var details := FetchJobDetails(DetailRetries, e.attempts).details;
            ProcessElement(e).value.location == details.location &&
            ProcessElement(e).value.description == details.description &&
            ProcessElement(e).value.company == details.company
  {
  }

  /** When every detail attempt fails the record carries "N/A" for location,
      description and company, and the list title. */
  lemma UnreachableDetailPage(e: Element)
    requires ProcessElement(e).Some?
    requires forall j :: 0 <= j < DetailRetries ==> AttemptFails(e.attempts(j))
    ensures ProcessElement(e).value.location == Unavailable
    ensures ProcessElement(e).value.description == Unavailable
    ensures ProcessElement(e).value.company == Unavailable
    ensures ProcessElement(e).value.title == Strip(OrUnavailable(e.listTitle.content))
  {
    AllFailuresGiveUnavailable(DetailRetries, e.attempts);
  }

  /** The values present in `xs`, in order. */
  function Present<T(==,!new)>(xs: seq<Option<T>>): (r: seq<T>)
    ensures |r| <= |xs|
    ensures forall x :: x in r <==> Some(x) in xs
    ensures |r| == |xs| <==> forall i :: 0 <= i < |xs| ==> xs[i].Some?
  {
    if |xs| == 0 then [] else (if xs[0].Some? then [xs[0].value] else []) + Present(xs[1..])
  }

  lemma {:induction false} PresentAppend<T(!new)>(a: seq<Option<T>>, b: seq<Option<T>>)
    ensures Present(a + b) == Present(a) + Present(b)
  {
    if |a| == 0 {
      assert a + b == b;
    } else {
      assert (a + b)[1..] == a[1..] + b;
      assert (a + b)[0] == a[0];
      PresentAppend(a[1..], b);
    }
  }

  /** What processing each element of a page gives, in element order. */
  function Outcomes(elements: seq<Element>): (r: seq<Option<JobRecord>>)
    ensures |r| == |elements|
    ensures forall i :: 0 <= i < |r| ==> r[i] == ProcessElement(elements[i])
  {
    seq(|elements|, i requires 0 <= i < |elements| => ProcessElement(elements[i]))
  }

  /** The records of one page, in element order, skipping elements whose
      processing raised. */
  function PageRecords(elements: seq<Element>): (r: seq<JobRecord>)
    ensures |r| <= |elements|
  {
    Present(Outcomes(elements))
  }

  /** The records of consecutive elements are the records of the first part
      followed by those of the second. */
  lemma PageRecordsAppend(a: seq<Element>, b: seq<Element>)
    ensures PageRecords(a + b) == PageRecords(a) + PageRecords(b)
  {
    OutcomesAppend(a, b);
    PresentAppend(Outcomes(a), Outcomes(b));
  }

  lemma OutcomesAppend(a: seq<Element>, b: seq<Element>)
    ensures Outcomes(a + b) == Outcomes(a) + Outcomes(b)
  {
    var l, r := Outcomes(a + b), Outcomes(a) + Outcomes(b);
    forall i | 0 <= i < |l|
      ensures l[i] == r[i]
    {
      if i < |a| {
        assert (a + b)[i] == a[i];
      } else {
        assert (a + b)[i] == b[i - |a|];
      }
    }
  }

  /** Whether reading an element's list title and `href` went through. */
  predicate Readable(e: Element)
  {
    !e.listTitle.LookupError? && !e.href.LookupError?
  }

  /** A page has one record per element that did not raise: skipped
      elements leave no record and no other element is dropped. */
  lemma {:induction false} PageRecordsCount(elements: seq<Element>)
    ensures |PageRecords(elements)| == |Filter(elements, Readable)|
  {
    if |elements| > 0 {
      PageRecordsCount(elements[1..]);
      assert Outcomes(elements)[1..] == Outcomes(elements[1..]);
    }
  }

  /** There is no de-duplication: an element listed twice gives two equal
      records. */
  lemma NoDeduplication(e: Element)
    requires ProcessElement(e).Some?
    ensures PageRecords([e, e]) == [ProcessElement(e).value, ProcessElement(e).value]
  {
    var o := Outcomes([e, e]);
    assert o == [ProcessElement(e), ProcessElement(e)];
    assert o[1..] == [ProcessElement(e)];
    assert o[1..][1..] == [];
    assert Present(o[1..]) == [ProcessElement(e).value] + Present(o[1..][1..]);
  }

  /** Where the next link leads: nowhere when it is hidden or reading it
      raised, otherwise to its `href` joined to the base URL. */
  function NextUrl(next: NextLink): (r: Option<string>)
    ensures r.None? <==> !next.NextVisible?
  {
    if next.NextVisible? then Some(Resolve(BaseUrl, next.href)) else None
  }

  /** How the crawl ended: no next page, a listing page raised (the whole
      scrape fails and nothing is written), or the fuel ran out first. */
  datatype CrawlEnd = LastPage | PageCrashed | FuelExhausted

  /** The listing URLs loaded, in order, and how the loop ended. */
  datatype Walk = Walk(visited: seq<string>, end: CrawlEnd)

  /** The `while current_page_url` loop from the `visit`-th page load on, at
      most `fuel` more pages (`jobs_main.py` has no bound: a site whose next
      links never stop keeps it going): load the page, then follow its next
      link while there is one. */
  function WalkFrom(url: string, visit: nat, pages: nat -> ListingPage, fuel: nat): (r: Walk)
    ensures |r.visited| <= fuel
    ensures r.end == FuelExhausted ==> |r.visited| == fuel
    ensures fuel > 0 ==> |r.visited| > 0 && r.visited[0] == url
    decreases fuel
  {
    if fuel == 0 then Walk([], FuelExhausted)
    else match pages(visit)
      case PageLoadError => Walk([url], PageCrashed)
      case Listing(_, next) =>
        match NextUrl(next)
        case None => Walk([url], LastPage)
        case Some(nextUrl) =>
          var rest := WalkFrom(nextUrl, visit + 1, pages, fuel - 1);
          Walk([url] + rest.visited, rest.end)
  }

  /** The `k`-th page loaded from the `visit`-th on is a listing whose next
      link leads to the next URL visited. */
  predicate LinkedAt(pages: nat -> ListingPage, visit: nat, visited: seq<string>, k: nat)
    requires k + 1 < |visited|
  {
    pages(visit + k).Listing? && NextUrl(pages(visit + k).next) == Some(visited[k + 1])
  }

  /** Each page after the first is the one the previous page's next link
      pointed to. */
  lemma {:induction false} CrawlFollowsNextLinks(url: string, visit: nat, pages: nat -> ListingPage, fuel: nat)
    ensures forall k: nat :: k + 1 < |WalkFrom(url, visit, pages, fuel).visited| ==>
              LinkedAt(pages, visit, WalkFrom(url, visit, pages, fuel).visited, k)
    decreases fuel
  {
    var r := WalkFrom(url, visit, pages, fuel);
    if fuel > 0 && pages(visit).Listing? && NextUrl(pages(visit).next).Some? {
      var nextUrl := NextUrl(pages(visit).next).value;
      CrawlFollowsNextLinks(nextUrl, visit + 1, pages, fuel - 1);
      var rest := WalkFrom(nextUrl, visit + 1, pages, fuel - 1);
      assert r.visited == [url] + rest.visited;
      forall k: nat | k + 1 < |r.visited|
        ensures LinkedAt(pages, visit, r.visited, k)
      {
        if k == 0 {
          assert rest.visited[0] == nextUrl;
        } else {
          assert LinkedAt(pages, visit + 1, rest.visited, k - 1);
          assert r.visited[k + 1] == rest.visited[k];
          assert visit + k == (visit + 1) + (k - 1);
        }
      }
    } else {
      assert |r.visited| <= 1;
    }
  }

  /** The crawl stops at a page without a visible next link, or at a page
      that raised; it only stops elsewhere when the fuel runs out. */
  lemma {:induction false} CrawlStopsAtLastPage(url: string, visit: nat, pages: nat -> ListingPage, fuel: nat)
    ensures var r := WalkFrom(url, visit, pages, fuel);
            r.end == LastPage ==>
              (|r.visited| > 0 && pages(visit + |r.visited| - 1).Listing? &&
               !pages(visit + |r.visited| - 1).next.NextVisible?)
    ensures var r := WalkFrom(url, visit, pages, fuel);
            r.end == PageCrashed ==> (|r.visited| > 0 && pages(visit + |r.visited| - 1).PageLoadError?)
    decreases fuel
  {
    if fuel > 0 && pages(visit).Listing? && NextUrl(pages(visit).next).Some? {
      var nextUrl := NextUrl(pages(visit).next).value;
      CrawlStopsAtLastPage(nextUrl, visit + 1, pages, fuel - 1);
      var rest := WalkFrom(nextUrl, visit + 1, pages, fuel - 1);
      assert WalkFrom(url, visit, pages, fuel).visited == [url] + rest.visited;
    }
  }

  /** The records of the `n` listing pages loaded from the `from`-th on, page
      after page: what `jobs_data` holds once the loop has loaded them. */
  function RecordsOfPages(pages: nat -> ListingPage, from: nat, n: nat): (r: seq<JobRecord>)
    ensures forall rec :: rec in r ==>
              exists k :: from <= k < from + n && pages(k).Listing? && rec in PageRecords(pages(k).elements)
    decreases n
  {
    if n == 0 then []
    else (if pages(from).Listing? then PageRecords(pages(from).elements) else []) +
         RecordsOfPages(pages, from + 1, n - 1)
  }

  /** The crawler's output: when the loop ends on a page without a next
      link, the records of the pages it loaded, in order; when a listing page
      raised, nothing (the exception escapes before the records are
      written). */
  function Scrape(pages: nat -> ListingPage, fuel: nat): (r: Result<seq<JobRecord>, CrawlEnd>)
    ensures var w := WalkFrom(StartUrl, 0, pages, fuel);
            (r.Success? <==> w.end == LastPage) &&
            (r.Success? ==> 0 < |w.visited| <= fuel && r.value == RecordsOfPages(pages, 0, |w.visited|)) &&
            (r.Failure? ==> r.error == w.end)
  {
    var w := WalkFrom(StartUrl, 0, pages, fuel);
    if w.end == LastPage then Success(RecordsOfPages(pages, 0, |w.visited|)) else Failure(w.end)
  }

  /** A crawl that completes starts at the search URL, follows each page's
      next link to the next page, and ends at a listing page without one. */
  lemma ScrapeFollowsTheListing(pages: nat -> ListingPage, fuel: nat)
    requires WalkFrom(StartUrl, 0, pages, fuel).end == LastPage
    ensures |WalkFrom(StartUrl, 0, pages, fuel).visited| > 0
    ensures WalkFrom(StartUrl, 0, pages, fuel).visited[0] == StartUrl
    ensures forall k: nat :: k + 1 < |WalkFrom(StartUrl, 0, pages, fuel).visited| ==>
              LinkedAt(pages, 0, WalkFrom(StartUrl, 0, pages, fuel).visited, k)
    ensures pages(|WalkFrom(StartUrl, 0, pages, fuel).visited| - 1).Listing?
    ensures !pages(|WalkFrom(StartUrl, 0, pages, fuel).visited| - 1).next.NextVisible?
  {
    CrawlFollowsNextLinks(StartUrl, 0, pages, fuel);
    CrawlStopsAtLastPage(StartUrl, 0, pages, fuel);
  }
}

=== FILE: cv_customizer.dfy ===
/** The CV customiser of the backend: matching a fixed skill table against a
    job description, rewriting the professional summary, building the
    placeholder map for a CV and applying it to the paragraphs of a template
    document (modelled as its sequence of paragraph texts). */
module CvCustomizer {
  import opened Wrappers
  import opened Seqs
  import opened Text

  /** One entry of an ordered skill dictionary: a category name and its
      skills, in dictionary order. */
  datatype Category = Category(name: string, skills: seq<string>)

  const CloudPlatforms := "Cloud Platforms"
  const CiCdTools := "CI/CD Tools"
  const IacTools := "Infrastructure as Code (IaC) Tools"
  const MonitoringTools := "Monitoring Tools"

  /** The skill table every job description is matched against. */
  const PredefinedCategories: seq<Category> := [
    Category(CloudPlatforms, ["EC2", "S3", "RDS", "Lambda", "VPC", "AWS CloudFormation",
                              "Azure Resource Manager", "CDK", "networking", "security",
                              "IAM configurations"]),
    Category(CiCdTools, ["Jenkins", "GitLab CI/CD", "GitHub Actions", "CircleCI"]),
    Category(IacTools, ["Terraform", "Ansible", "CloudFormation", "Bicep"]),
    Category(MonitoringTools, ["Prometheus", "Grafana", "Datadog", "New Relic"])
  ]

  /** The category names of an ordered skill dictionary, in order. */
  function Names(d: seq<Category>): (r: seq<string>)
    ensures |r| == |d|
    ensures forall i :: 0 <= i < |d| ==> r[i] == d[i].name
  {
    seq(|d|, i requires 0 <= i < |d| => d[i].name)
  }

  /** A case-insensitive mention of `skill` in `description`. */
  predicate SkillMentioned(description: string, skill: string)
  {
    Contains(Lower(description), Lower(skill))
  }

  /** The skills of one category that the description mentions, in table order. */
  function MatchCategory(description: string, c: Category): (r: Category)
    ensures r.name == c.name
  {
    Category(c.name, Filter(c.skills, s => SkillMentioned(description, s)))
  }

  /** Every category keeps its name and position; a skill is kept exactly
      when its lower-case form occurs in the lower-cased description. */
  function ExtractRelevantSkills(description: string, categories: seq<Category>): (r: seq<Category>)
    ensures Names(r) == Names(categories)
    ensures forall i, s :: 0 <= i < |r| ==>
              (s in r[i].skills <==> s in categories[i].skills && SkillMentioned(description, s))
  {
    seq(|categories|, i requires 0 <= i < |categories| => MatchCategory(description, categories[i]))
  }

  /** Each category's matches keep the order of the table. */
  lemma ExtractedSkillsAreOrderedSubsequences(description: string, categories: seq<Category>)
    ensures forall i :: 0 <= i < |categories| ==>
              IsSubsequence(ExtractRelevantSkills(description, categories)[i].skills, categories[i].skills)
  {
    forall i | 0 <= i < |categories|
      ensures IsSubsequence(ExtractRelevantSkills(description, categories)[i].skills, categories[i].skills)
    {
      FilterIsSubsequence(categories[i].skills, s => SkillMentioned(description, s));
    }
  }

  /** `d[name]` on an ordered dictionary; a missing key is Python's KeyError. */
  function Lookup(d: seq<Category>, name: string): (r: Option<seq<string>>)
    ensures r.None? <==> name !in Names(d)
    ensures r.Some? ==> exists i :: 0 <= i < |d| && d[i].name == name && d[i].skills == r.value
  {
    if |d| == 0 then None
    else if d[0].name == name then Some(d[0].skills)
    else
      var r := Lookup(d[1..], name);
      assert Names(d) == [d[0].name] + Names(d[1..]);
      assert r.Some? ==> exists i :: 0 <= i < |d| && d[i].name == name && d[i].skills == r.value by {
        if r.Some? {
          var i :| 0 <= i < |d[1..]| && d[1..][i].name == name && d[1..][i].skills == r.value;
          assert d[i + 1] == d[1..][i];
        }
      }
      r
  }

  const CloudPhrase := "cloud platforms"
  const CiCdPhrase := "CI/CD pipelines"

  function CloudSentence(skills: seq<string>): (r: string)
    ensures |r| > |Join(", ", skills)|
    ensures Contains(r, Join(", ", skills))
  {
    var sentence := "Proficient in leveraging AWS services such as  " + Join(", ", skills) +
    " to build scalable and reliable solutions.";
    OccursImpliesContains(sentence, Join(", ", skills), |"Proficient in leveraging AWS services such as  "|);
    sentence
  }

  function CiCdSentence(skills: seq<string>): (r: string)
    ensures |r| > |Join(", ", skills)|
    ensures Contains(r, Join(", ", skills))
  {
    var sentence := "Proficient in designing and implementing CI/CD pipelines using tools like  " + Join(", ", skills) +
    " to streamline software delivery processes.";
    OccursImpliesContains(sentence, Join(", ", skills), |"Proficient in designing and implementing CI/CD pipelines using tools like  "|);
    sentence
  }

  function IacSentence(skills: seq<string>): (r: string)
    ensures |r| > |Join(", ", skills)|
    ensures Contains(r, Join(", ", skills))
  {
    var sentence := " Skilled in Infrastructure as Code (IaC) tools like " + Join(", ", skills) +
    " for efficient and repeatable infrastructure management.";
    OccursImpliesContains(sentence, Join(", ", skills), |" Skilled in Infrastructure as Code (IaC) tools like "|);
    sentence
  }

  function MonitoringSentence(skills: seq<string>): (r: string)
    ensures |r| > |Join(", ", skills)|
    ensures Contains(r, Join(", ", skills))
  {
    var sentence := " Experienced in implementing robust monitoring solutions using tools like " + Join(", ", skills) +
    " to ensure system reliability and performance.";
    OccursImpliesContains(sentence, Join(", ", skills), |" Experienced in implementing robust monitoring solutions using tools like "|);
    sentence
  }

  /** The two in-place rewrites of the summary: every "cloud platforms" when a
      cloud skill matched, then every "CI/CD pipelines" when a CI/CD tool matched. */
  function RewritePhrases(summary: string, cloud: seq<string>, ciCd: seq<string>): (r: string)
    ensures |cloud| == 0 && |ciCd| == 0 ==> r == summary
  {
    var s := if |cloud| > 0 then ReplaceAll(summary, CloudPhrase, CloudSentence(cloud)) else summary;
    if |ciCd| > 0 then ReplaceAll(s, CiCdPhrase, CiCdSentence(ciCd)) else s
  }

  /** The two appended sentences: infrastructure-as-code tools, then monitoring tools. */
  function AppendSentences(summary: string, iac: seq<string>, monitoring: seq<string>): (r: string)
    ensures |iac| == 0 && |monitoring| == 0 ==> r == summary
  {
    var s := if |iac| > 0 then summary + IacSentence(iac) else summary;
    if |monitoring| > 0 then s + MonitoringSentence(monitoring) else s
  }

  /** The rewrites only act on the two phrases: a summary mentioning neither is kept. */
  lemma RewriteWithoutPhrasesIsIdentity(summary: string, cloud: seq<string>, ciCd: seq<string>)
    requires !Contains(summary, CloudPhrase) && !Contains(summary, CiCdPhrase)
    ensures RewritePhrases(summary, cloud, ciCd) == summary
  {
    ReplaceAbsentIsIdentity(summary, CloudPhrase, CloudSentence(cloud));
    ReplaceAbsentIsIdentity(summary, CiCdPhrase, CiCdSentence(ciCd));
  }

  /** The appended sentences only extend the text, and extend it exactly
      when an infrastructure-as-code or monitoring tool matched. */
  lemma AppendOnlyExtends(summary: string, iac: seq<string>, monitoring: seq<string>)
    ensures StartsWith(AppendSentences(summary, iac, monitoring), summary)
    ensures AppendSentences(summary, iac, monitoring) == summary <==> |iac| == 0 && |monitoring| == 0
  {
    AppendTwo(summary, IacSentence(iac), MonitoringSentence(monitoring), |iac| > 0, |monitoring| > 0);
  }

  /** Appending up to two non-empty texts keeps the start, and changes the
      text exactly when one of them is appended. */
  lemma AppendTwo(summary: string, a: string, b: string, addA: bool, addB: bool)
    requires |a| > 0 && |b| > 0
    ensures var s := if addA then summary + a else summary;
            var r := if addB then s + b else s;
            StartsWith(r, summary) && (r == summary <==> !addA && !addB)
  {
    var s := if addA then summary + a else summary;
    var r := if addB then s + b else s;
    assert s[..|summary|] == summary;
    assert r[..|s|] == s;
    assert |r| == |summary| + (if addA then |a| else 0) + (if addB then |b| else 0);
  }

  /** The four categories `customize_summary` looks up are all present. */
  predicate HasSummaryKeys(d: seq<Category>)
  {
    CloudPlatforms in Names(d) && CiCdTools in Names(d) && IacTools in Names(d) && MonitoringTools in Names(d)
  }

  /** `customize_summary`: the summary after the phrase rewrites and the
      appended sentences, or the name of the first category missing from
      the dictionary (Python's KeyError). */
  function CustomizeSummary(original: string, matched: seq<Category>): (r: Result<string, string>)
    ensures r.Failure? <==> !HasSummaryKeys(matched)
    ensures r.Success? ==> StartsWith(r.value, RewritePhrases(original, Lookup(matched, CloudPlatforms).value,
                                                             Lookup(matched, CiCdTools).value))
  {
    match (Lookup(matched, CloudPlatforms), Lookup(matched, CiCdTools),
           Lookup(matched, IacTools), Lookup(matched, MonitoringTools))
    case (Some(cloud), Some(ciCd), Some(iac), Some(monitoring)) =>
      var rewritten := RewritePhrases(original, cloud, ciCd);
      AppendOnlyExtends(rewritten, iac, monitoring);
      Success(AppendSentences(rewritten, iac, monitoring))
    case (None, _, _, _) => Failure(CloudPlatforms)
    case (_, None, _, _) => Failure(CiCdTools)
    case (_, _, None, _) => Failure(IacTools)
    case (_, _, _, None) => Failure(MonitoringTools)
  }

  /** With no skill matched in any of the four categories the summary comes
      back unchanged. */
  lemma SummaryUnchangedWithoutMatches(original: string, matched: seq<Category>)
    requires forall i :: 0 <= i < |matched| ==> |matched[i].skills| == 0
    requires HasSummaryKeys(matched)
    ensures CustomizeSummary(original, matched) == Success(original)
  {
  }

  /** The dictionary built from the predefined table has all four keys, so
      `customize_summary` never raises on it. */
  lemma ExtractedHasPredefinedKeys(description: string)
    ensures HasSummaryKeys(ExtractRelevantSkills(description, PredefinedCategories))
  {
    PredefinedNames();
  }

  lemma ExtractedHasPredefinedNames(description: string)
    ensures Names(ExtractRelevantSkills(description, PredefinedCategories)) ==
            [CloudPlatforms, CiCdTools, IacTools, MonitoringTools]
  {
    PredefinedNames();
  }

  lemma PredefinedNames()
    ensures Names(PredefinedCategories) == [CloudPlatforms, CiCdTools, IacTools, MonitoringTools]
  {
  }

  /** The number of categories in the skill table. */
  const CategoryCount := 4

  lemma PredefinedCount()
    ensures |PredefinedCategories| == CategoryCount
  {
  }

  /** The joined matches of every category that matched anything, in
      category order: the value of the "{skills}" placeholder. */
  function SkillsLine(matched: seq<Category>): (r: string)
    ensures (forall i :: 0 <= i < |matched| ==> |matched[i].skills| == 0) ==> r == ""
  {
    Join(", ", NonEmptyJoins(matched))
  }

  /** The category matched at least one skill. */
  predicate HasMatch(c: Category)
  {
    |c.skills| > 0
  }

  /** `", ".join(skills)` for each category with at least one match: one
      piece per such category, in category order. */
  function NonEmptyJoins(matched: seq<Category>): (r: seq<string>)
    ensures |r| == |Filter(matched, HasMatch)|
    ensures forall i :: 0 <= i < |r| ==> r[i] == Join(", ", Filter(matched, HasMatch)[i].skills)
    ensures |r| == 0 <==> forall i :: 0 <= i < |matched| ==> |matched[i].skills| == 0
  {
    var matching := Filter(matched, HasMatch);
    assert |matching| > 0 ==> matching[0] in matched;
    assert (exists i :: 0 <= i < |matched| && |matched[i].skills| > 0) ==> |matching| > 0 by {
      if exists i :: 0 <= i < |matched| && |matched[i].skills| > 0 {
        var i :| 0 <= i < |matched| && |matched[i].skills| > 0;
        assert matched[i] in matching;
      }
    }
    seq(|matching|, i requires 0 <= i < |matching| => Join(", ", matching[i].skills))
  }

  /** The "{skills}" value is empty exactly when nothing matched. */
  lemma SkillsLineEmptyIffNothingMatched(matched: seq<Category>)
    requires NoEmptySkill(matched)
    ensures SkillsLine(matched) == "" <==> forall i :: 0 <= i < |matched| ==> |matched[i].skills| == 0
  {
    var parts := NonEmptyJoins(matched);
    if |parts| > 0 {
      NonEmptyJoinIsNonEmpty(matched);
      JoinOfNonEmptyIsNonEmpty(parts);
    }
  }

  /** Each piece is non-empty when no skill is. */
  lemma NonEmptyJoinIsNonEmpty(matched: seq<Category>)
    requires NoEmptySkill(matched)
    ensures forall k :: 0 <= k < |NonEmptyJoins(matched)| ==> |NonEmptyJoins(matched)[k]| > 0
  {
    var matching := Filter(matched, HasMatch);
    forall k | 0 <= k < |matching|
      ensures |Join(", ", matching[k].skills)| > 0
    {
      assert matching[k] in matched;
      JoinOfNonEmptyIsNonEmpty(matching[k].skills);
    }
  }

  /** No skill of the dictionary is the empty string (an empty skill would
      match every description and join to nothing). */
  predicate NoEmptySkill(d: seq<Category>)
  {
    forall i, k :: 0 <= i < |d| && 0 <= k < |d[i].skills| ==> |d[i].skills[k]| > 0
  }

  lemma PredefinedHasNoEmptySkill()
    ensures NoEmptySkill(PredefinedCategories)
  {
  }

  /** Matching keeps only skills of the table, so it keeps their non-emptiness. */
  lemma ExtractedHasNoEmptySkill(description: string, categories: seq<Category>)
    requires NoEmptySkill(categories)
    ensures NoEmptySkill(ExtractRelevantSkills(description, categories))
  {
    var r := ExtractRelevantSkills(description, categories);
    forall i, k | 0 <= i < |r| && 0 <= k < |r[i].skills|
      ensures |r[i].skills[k]| > 0
    {
      assert r[i].skills[k] in r[i].skills;
      var j :| 0 <= j < |categories[i].skills| && categories[i].skills[j] == r[i].skills[k];
    }
  }

  /** Joining a non-empty list whose first piece is non-empty gives a non-empty string. */
  lemma JoinOfNonEmptyIsNonEmpty(xs: seq<string>)
    requires |xs| > 0
    ensures |Join(", ", xs)| >= |xs[0]|
  {
  }

  /** A database or crawl row: column name to value, None for SQL NULL. */
  type Row = map<string, Option<string>>

  /** Python's `row.get(key, default)`. */
  function Get(row: Row, key: string, default: string): (r: Option<string>)
    ensures r.None? <==> key in row && row[key].None?
    ensures key !in row ==> r == Some(default)
    ensures key in row && row[key].Some? ==> r == row[key]
  {
    if key in row then row[key] else Some(default)
  }

  /** The summary every CV starts from, written in pieces short enough for
      facts about their characters to be checked one piece at a time. */
  const OriginalSummary := Summary0 + Summary1 + Summary2 + Summary3 + Summary4 + Summary5
  const Summary0 := "DevOps Engineer with ov"
  const Summary1 := "er 5 years of experienc"
  const Summary2 := "e in cloud infrastructu"
  const Summary3 := "re, specializing in CI/"
  const Summary4 := "CD pipelines, and infra"
  const Summary5 := "structure automation."

  /** Where each piece holds a 'c' and a 'p'. */
  lemma Piece0() ensures OnlyAt(Summary0, 'c', {}) && OnlyAt(Summary0, 'p', {4}) {}
  lemma Piece1() ensures OnlyAt(Summary1, 'c', {22}) && OnlyAt(Summary1, 'p', {16}) {}
  lemma Piece2() ensures OnlyAt(Summary2, 'c', {5, 20}) && OnlyAt(Summary2, 'p', {}) {}
  lemma Piece3() ensures OnlyAt(Summary3, 'c', {7}) && OnlyAt(Summary3, 'p', {5}) {}
  lemma Piece4() ensures OnlyAt(Summary4, 'c', {}) && OnlyAt(Summary4, 'p', {3, 5}) {}
  lemma Piece5() ensures OnlyAt(Summary5, 'c', {4}) && OnlyAt(Summary5, 'p', {}) {}

  lemma SummaryLowerC()
    ensures OnlyAt(OriginalSummary, 'c', {45, 51, 66, 76, 119})
  {
    Piece0(); Piece1(); Piece2(); Piece3(); Piece4(); Piece5();
    var s1 := Summary0 + Summary1;
    var s2 := s1 + Summary2;
    var s3 := s2 + Summary3;
    var s4 := s3 + Summary4;
    OnlyAtAppend(Summary0, Summary1, 'c', {}, {22}, {45});
    OnlyAtAppend(s1, Summary2, 'c', {45}, {5, 20}, {45, 51, 66});
    OnlyAtAppend(s2, Summary3, 'c', {45, 51, 66}, {7}, {45, 51, 66, 76});
    OnlyAtAppend(s3, Summary4, 'c', {45, 51, 66, 76}, {}, {45, 51, 66, 76});
    OnlyAtAppend(s4, Summary5, 'c', {45, 51, 66, 76}, {4}, {45, 51, 66, 76, 119});
  }

  lemma SummaryLowerP()
    ensures OnlyAt(OriginalSummary, 'p', {4, 39, 74, 95, 97})
  {
    Piece0(); Piece1(); Piece2(); Piece3(); Piece4(); Piece5();
    var s1 := Summary0 + Summary1;
    var s2 := s1 + Summary2;
    var s3 := s2 + Summary3;
    var s4 := s3 + Summary4;
    OnlyAtAppend(Summary0, Summary1, 'p', {4}, {16}, {4, 39});
    OnlyAtAppend(s1, Summary2, 'p', {4, 39}, {}, {4, 39});
    OnlyAtAppend(s2, Summary3, 'p', {4, 39}, {5}, {4, 39, 74});
    OnlyAtAppend(s3, Summary4, 'p', {4, 39, 74}, {3, 5}, {4, 39, 74, 95, 97});
    OnlyAtAppend(s4, Summary5, 'p', {4, 39, 74, 95, 97}, {}, {4, 39, 74, 95, 97});
  }

  /** The summary speaks of "cloud infrastructure", never of "cloud
      platforms": no 'c' in it has a 'p' six places later. */
  lemma CloudPhraseAbsent()
    ensures !Contains(OriginalSummary, CloudPhrase)
  {
    SummaryLowerC();
    SummaryLowerP();
    AbsentByTwo(OriginalSummary, CloudPhrase, 6, {45, 51, 66, 76, 119}, {4, 39, 74, 95, 97});
  }

  /** So the Cloud Platforms rewrite never changes a CV's summary: the
      result is the same as with no cloud skill matched. */
  lemma CloudRewriteNeverFires(cloud: seq<string>, ciCd: seq<string>)
    ensures RewritePhrases(OriginalSummary, cloud, ciCd) == RewritePhrases(OriginalSummary, [], ciCd)
  {
    CloudPhraseAbsent();
    ReplaceAbsentIsIdentity(OriginalSummary, CloudPhrase, CloudSentence(cloud));
  }

  /** The summary does speak of "CI/CD pipelines", at index 89. */
  lemma CiCdPhrasePresent()
    ensures Contains(OriginalSummary, CiCdPhrase)
  {
    var before := Summary0 + Summary1 + Summary2;
    CiCdAcrossPieces();
    OccursInContext(before, Summary3 + Summary4, Summary5, CiCdPhrase, 20);
    assert OriginalSummary == before + (Summary3 + Summary4) + Summary5;
    OccursImpliesContains(OriginalSummary, CiCdPhrase, 89);
  }

  /** The phrase straddles the fourth and fifth pieces. */
  lemma CiCdAcrossPieces()
    ensures OccursAt(Summary3 + Summary4, CiCdPhrase, 20)
  {
    var middle := Summary3 + Summary4;
    assert Summary3[20..] == "CI/";
    assert Summary4[..12] == "CD pipelines";
    assert middle[20..35] == Summary3[20..] + Summary4[..12];
  }

  /** So the CI/CD rewrite does fire on a CV's summary when a CI/CD tool
      matched: the result holds the CI/CD sentence. */
  lemma CiCdRewriteFires(cloud: seq<string>, ciCd: seq<string>)
    requires |ciCd| > 0
    ensures Contains(RewritePhrases(OriginalSummary, cloud, ciCd), CiCdSentence(ciCd))
  {
    CloudRewriteNeverFires(cloud, ciCd);
    CiCdPhrasePresent();
    PresentIsReplaced(OriginalSummary, CiCdPhrase, CiCdSentence(ciCd));
  }

  /** Why `generate_cv` raises before writing a CV. */
  datatype CvError = MissingTitle | NullTitle | NullDescription

  /** The text a placeholder value becomes in the rewritten paragraph: a run
      added with the value None holds no text. */
  function Rendered(v: Option<string>): (r: string)
    ensures v.Some? ==> r == v.value
    ensures v.None? ==> r == ""
  {
    v.GetOr("")
  }

  /** The placeholder map of `generate_cv`, in insertion order. The title
      lookup of the output file name raises first when the title is absent
      or NULL, and matching a NULL description raises. */
  function GenerateCv(job: Row): (r: Result<seq<(string, string)>, CvError>)
    ensures "title" !in job ==> r == Failure(MissingTitle)
    ensures r.Success? ==> |r.value| == 6 && job["title"].Some?
    ensures r.Success? ==> r.value[0] == ("{job_title}", job["title"].value)
    ensures r.Success? ==> Get(job, "description", "N/A").Some?
    ensures r.Success? ==> r.value[3] == ("{job_duties}", Get(job, "description", "N/A").value)
    ensures r.Success? ==> r.value[4] == ("{company}", Rendered(Get(job, "company", "N/A"))) &&
                           r.value[5] == ("{location}", Rendered(Get(job, "location", "N/A")))
    ensures r.Success? ==> r.value[1] == ("{skills}", SkillsText(Get(job, "description", "N/A").value))
    ensures r.Success? ==>
              r.value[2] == ("{professional_summary}", CustomizedSummary(Get(job, "description", "N/A").value))
  {
    if "title" !in job then Failure(MissingTitle)
    else if job["title"].None? then Failure(NullTitle)
    else match Get(job, "description", "N/A")
      case None => Failure(NullDescription)
      case Some(description) =>
        Success(BuildReplacements(job, description, SkillsText(description), CustomizedSummary(description)))
  }

  /** The job columns `generate_cv` needs: a title that is present and not
      NULL, and a description that is absent or not NULL. */
  predicate CvInputsPresent(job: Row)
  {
    "title" in job && job["title"].Some? && Get(job, "description", "N/A").Some?
  }

  /** `generate_cv` raises exactly when its inputs are missing. */
  lemma GenerateCvSucceedsIff(job: Row)
    ensures GenerateCv(job).Success? <==> CvInputsPresent(job)
  {
  }

  /** The summary of a CV for a job with this description. */
  function CustomizedSummary(description: string): string
  {
    ExtractedHasPredefinedKeys(description);
    CustomizeSummary(OriginalSummary, ExtractRelevantSkills(description, PredefinedCategories)).value
  }

  /** The "{skills}" value for a job with this description. */
  function SkillsText(description: string): string
  {
    SkillsLine(ExtractRelevantSkills(description, PredefinedCategories))
  }

  /** The six placeholder entries of `generate_cv`, given the description,
      the skills line and the customised summary. */
  function BuildReplacements(job: Row, description: string, skills: string, summary: string): (r: seq<(string, string)>)
    ensures |r| == 6
    ensures r[0] == ("{job_title}", Rendered(Get(job, "title", "N/A")))
    ensures r[1] == ("{skills}", skills) && r[2] == ("{professional_summary}", summary)
    ensures r[3] == ("{job_duties}", description)
    ensures r[4] == ("{company}", Rendered(Get(job, "company", "N/A")))
    ensures r[5] == ("{location}", Rendered(Get(job, "location", "N/A")))
  {
    [("{job_title}", Rendered(Get(job, "title", "N/A"))),
     ("{skills}", skills),
     ("{professional_summary}", summary),
     ("{job_duties}", description),
     ("{company}", Rendered(Get(job, "company", "N/A"))),
     ("{location}", Rendered(Get(job, "location", "N/A")))]
  }

  /** A CV for a job without company and location columns says "N/A" for
      both. */
  lemma ReplacementDefaults(job: Row)
    requires CvInputsPresent(job)
    requires "company" !in job && "location" !in job
    ensures GenerateCv(job).Success?
    ensures GenerateCv(job).value[4] == ("{company}", "N/A")
    ensures GenerateCv(job).value[5] == ("{location}", "N/A")
  {
  }

  /** The description mentions no skill of the table. */
  predicate MentionsNoSkill(description: string, categories: seq<Category>)
  {
    forall i, s :: 0 <= i < |categories| && s in categories[i].skills ==> !SkillMentioned(description, s)
  }

  /** The "{skills}" value is empty exactly when the description mentions no
      skill of the table. */
  lemma SkillsLineEmptyIffNoMention(description: string, categories: seq<Category>)
    requires NoEmptySkill(categories)
    ensures SkillsLine(ExtractRelevantSkills(description, categories)) == "" <==>
            MentionsNoSkill(description, categories)
  {
    var matched := ExtractRelevantSkills(description, categories);
    ExtractedHasNoEmptySkill(description, categories);
    SkillsLineEmptyIffNothingMatched(matched);
    forall i | 0 <= i < |matched| && |matched[i].skills| > 0
      ensures !MentionsNoSkill(description, categories)
    {
      assert matched[i].skills[0] in matched[i].skills;
    }
    if !MentionsNoSkill(description, categories) {
      var i, s :| 0 <= i < |categories| && s in categories[i].skills && SkillMentioned(description, s);
      assert s in matched[i].skills;
    }
  }

  /** For the predefined table in particular. */
  lemma PredefinedSkillsLineEmptyIffNoMention(description: string)
    ensures SkillsLine(ExtractRelevantSkills(description, PredefinedCategories)) == "" <==>
            MentionsNoSkill(description, PredefinedCategories)
  {
    PredefinedHasNoEmptySkill();
    SkillsLineEmptyIffNoMention(description, PredefinedCategories);
  }

  /** The "{skills}" entry of a generated CV is empty exactly when the job's
      description mentions no skill of the table. */
  lemma GeneratedSkillsEmptyIffNoMention(job: Row)
    requires CvInputsPresent(job)
    ensures GenerateCv(job).Success?
    ensures GenerateCv(job).value[1].1 == "" <==>
            MentionsNoSkill(Get(job, "description", "N/A").value, PredefinedCategories)
  {
    var skills := GeneratedSkills(job);
    PredefinedSkillsLineEmptyIffNoMention(Get(job, "description", "N/A").value);
  }

  /** The "{skills}" entry of a generated CV is the skills text of the
      job's description. */
  lemma GeneratedSkills(job: Row) returns (skills: string)
    requires CvInputsPresent(job)
    ensures GenerateCv(job).Success? && GenerateCv(job).value[1].1 == skills
    ensures skills == SkillsText(Get(job, "description", "N/A").value)
  {
    skills := GenerateCv(job).value[1].1;
  }

  /** A missing description is matched as "N/A" and becomes the duties text. */
  lemma MissingDescriptionDefaults(job: Row)
    requires "title" in job && job["title"].Some? && "description" !in job
    ensures GenerateCv(job).Success?
    ensures GenerateCv(job).value[3] == ("{job_duties}", "N/A")
  {
  }

  /** One paragraph after `customize_cv`: for each placeholder in map order,
      if the paragraph's current text contains it, the whole text becomes
      that placeholder's value. */
  function ApplyReplacements(text: string, replacements: seq<(string, string)>): (r: string)
    ensures r == text || r in Values(replacements)
    decreases |replacements|
  {
    if |replacements| == 0 then text
    else
      var next := if Contains(text, replacements[0].0) then replacements[0].1 else text;
      assert Values(replacements[1..]) == Values(replacements)[1..];
      ApplyReplacements(next, replacements[1..])
  }

  /** Some placeholder of the map occurs in the text. */
  predicate HasPlaceholder(text: string, replacements: seq<(string, string)>)
  {
    exists k :: 0 <= k < |replacements| && Contains(text, replacements[k].0)
  }

  /** The values of a placeholder map, in order. */
  function Values(replacements: seq<(string, string)>): (r: seq<string>)
    ensures |r| == |replacements|
    ensures forall i :: 0 <= i < |r| ==> r[i] == replacements[i].1
  {
    seq(|replacements|, i requires 0 <= i < |replacements| => replacements[i].1)
  }

  /** A paragraph mentioning no placeholder keeps its text. */
  lemma {:induction false} ParagraphWithoutPlaceholderUnchanged(text: string, replacements: seq<(string, string)>)
    requires forall k :: 0 <= k < |replacements| ==> !Contains(text, replacements[k].0)
    ensures ApplyReplacements(text, replacements) == text
  {
    if |replacements| > 0 {
      ParagraphWithoutPlaceholderUnchanged(text, replacements[1..]);
    }
  }

  /** Replacement is whole-paragraph: once any placeholder is found, the
      paragraph ends up as the value of some placeholder, never as the old
      text with the placeholder substituted in place. */
  lemma {:induction false} ParagraphBecomesAValue(text: string, replacements: seq<(string, string)>)
    requires text in Values(replacements) ||
             exists k :: 0 <= k < |replacements| && Contains(text, replacements[k].0)
    ensures ApplyReplacements(text, replacements) in Values(replacements)
    decreases |replacements|
  {
    var vals := Values(replacements);
    if |replacements| > 0 {
      var next := if Contains(text, replacements[0].0) then replacements[0].1 else text;
      var rest := replacements[1..];
      assert Values(rest) == vals[1..];
      if next in Values(rest) || exists k :: 0 <= k < |rest| && Contains(next, rest[k].0) {
        ParagraphBecomesAValue(next, rest);
      } else {
        ParagraphWithoutPlaceholderUnchanged(next, rest);
        if !Contains(text, replacements[0].0) {
          forall k | 0 <= k < |replacements|
            ensures !Contains(text, replacements[k].0)
          {
            if k > 0 {
              assert rest[k - 1] == replacements[k];
            }
          }
        }
      }
    }
  }

  /** No value of the map contains any of its placeholders, so a value put
      into a paragraph is never replaced again. */
  predicate NoKeyInValues(replacements: seq<(string, string)>)
  {
    forall i, j :: 0 <= i < |replacements| && 0 <= j < |replacements| ==>
      !Contains(replacements[j].1, replacements[i].0)
  }

  /** The index of the first placeholder, in map order, that the text
      contains, or None when it contains none. */
  function FirstPlaceholder(text: string, replacements: seq<(string, string)>): (r: Option<nat>)
    ensures r.None? <==> !HasPlaceholder(text, replacements)
    ensures r.Some? ==> r.value < |replacements| && Contains(text, replacements[r.value].0) &&
                        forall j :: 0 <= j < r.value ==> !Contains(text, replacements[j].0)
    decreases |replacements|
  {
    if |replacements| == 0 then None
    else if Contains(text, replacements[0].0) then Some(0)
    else
      var rest := FirstPlaceholder(text, replacements[1..]);
      assert forall k :: 1 <= k < |replacements| ==> replacements[1..][k - 1] == replacements[k];
      if rest.None? then None else Some(rest.value + 1)
  }

  /** When no value contains a placeholder, a paragraph becomes the value of
      the first placeholder it contains: that one replaces the whole text,
      and the later placeholders are tested against the value, which holds
      none of them. */
  lemma {:induction false} FirstPlaceholderWins(text: string, replacements: seq<(string, string)>, k: nat)
    requires NoKeyInValues(replacements)
    requires k < |replacements| && Contains(text, replacements[k].0)
    requires forall j :: 0 <= j < k ==> !Contains(text, replacements[j].0)
    ensures ApplyReplacements(text, replacements) == replacements[k].1
    decreases k
  {
    var rest := replacements[1..];
    assert forall i :: 0 <= i < |rest| ==> rest[i] == replacements[i + 1];
    if k == 0 {
      forall i | 0 <= i < |rest|
        ensures !Contains(replacements[0].1, rest[i].0)
      {
        assert rest[i] == replacements[i + 1];
      }
      ParagraphWithoutPlaceholderUnchanged(replacements[0].1, rest);
    } else {
      FirstPlaceholderWins(text, rest, k - 1);
    }
  }

  /** Replacement is not limited to the text the paragraph started with: a
      value that contains a later placeholder is replaced again. */
  lemma ValueIsTestedAgain()
    ensures ApplyReplacements("{a}", [("{a}", "{b}"), ("{b}", "B")]) == "B"
  {
    assert StartsWith("{a}", "{a}");
    assert StartsWith("{b}", "{b}");
  }

  /** `customize_cv` over the document's paragraphs: the paragraph count is
      kept; a paragraph holding a placeholder becomes one of the values (that
      of the first placeholder it holds, when no value holds a placeholder),
      and every other paragraph is kept. */
  function CustomizeCv(paragraphs: seq<string>, replacements: seq<(string, string)>): (r: seq<string>)
    ensures |r| == |paragraphs|
    ensures forall i :: 0 <= i < |r| && HasPlaceholder(paragraphs[i], replacements) ==>
              r[i] in Values(replacements)
    ensures forall i :: 0 <= i < |r| && !HasPlaceholder(paragraphs[i], replacements) ==>
              r[i] == paragraphs[i]
    ensures NoKeyInValues(replacements) ==>
              forall i :: 0 <= i < |r| && FirstPlaceholder(paragraphs[i], replacements).Some? ==>
                r[i] == replacements[FirstPlaceholder(paragraphs[i], replacements).value].1
  {
    var r := seq(|paragraphs|, i requires 0 <= i < |paragraphs| => ApplyReplacements(paragraphs[i], replacements));
    forall i | 0 <= i < |r|
      ensures HasPlaceholder(paragraphs[i], replacements) ==> r[i] in Values(replacements)
      ensures !HasPlaceholder(paragraphs[i], replacements) ==> r[i] == paragraphs[i]
      ensures NoKeyInValues(replacements) && FirstPlaceholder(paragraphs[i], replacements).Some? ==>
                r[i] == replacements[FirstPlaceholder(paragraphs[i], replacements).value].1
    {
      if HasPlaceholder(paragraphs[i], replacements) {
        ParagraphBecomesAValue(paragraphs[i], replacements);
        if NoKeyInValues(replacements) {
          FirstPlaceholderWins(paragraphs[i], replacements, FirstPlaceholder(paragraphs[i], replacements).value);
        }
      } else {
        ParagraphWithoutPlaceholderUnchanged(paragraphs[i], replacements);
      }
    }
    r
  }
}

=== FILE: cvs_store.dfy ===
/** The CVs store (`cvsStore.js`): the list of generated CVs, fetched once
    from `/cvs`. */
module CvsStore {
  import opened Wrappers
  import opened JsValues
  import opened DataStore
  import opened ListStore

  datatype CvsState = CvsState(cvs: JsVal)

  const Initial := CvsState(Arr([]))

  const CvsUrl := "/cvs"

  /** `fetchCVs()`: the fetch-once action on the CV list; nothing is
      written to storage. */
  function FetchCvs(s: CvsState, storage: Storage, send: Request -> Outcome): (r: CvsState)
    requires !Nullish(s.cvs)
    ensures LengthPositive(s.cvs) ==> r == s
    ensures !LengthPositive(s.cvs) ==>
              var request := Request(Get, CvsUrl, None, AddAuthHeader([], GetItem(storage, "token")));
              r.cvs == (if send(request).Resolved? then HandleResponse(send(request).response).data else s.cvs)
    ensures !Nullish(r.cvs)
  {
    CvsState(FetchOnce(s.cvs, CvsUrl, storage, send).0)
  }

  /** `getAllCVs`: the list itself, the one `getCVById` searches. */
  function GetAllCvs(s: CvsState): (r: JsVal)
    ensures forall id :: GetCvById(s, id) == FindById(r, id)
  {
    s.cvs
  }

  /** `getCVById(id)`. */
  function GetCvById(s: CvsState, id: JsVal): (r: Eval)
    ensures !s.cvs.Arr? ==> r == TypeError
    ensures s.cvs.Arr? ==>
              (r == Value(Undefined) <==> forall i :: 0 <= i < |s.cvs.items| ==> IdStep(s.cvs.items[i], id) == Passes)
    ensures s.cvs.Arr? && r.Value? && r.v != Undefined ==> r.v in s.cvs.items && StrictEq(Member(r.v, "id"), id)
  {
    FindById(s.cvs, id)
  }
}

=== FILE: dashboard_store.dfy ===
/** The dashboard store (`dashboardStore.js`): the summary object shown on
    the dashboard, fetched only when a token is stored, and read through
    getters that fall back to 0 and an empty list. */
module DashboardStore {
  import opened Wrappers
  import opened JsValues
  import opened DataStore

  datatype DashboardState = DashboardState(summary: JsVal)

  const Initial := DashboardState(Obj([("total_jobs", Num(0)), ("total_cvs", Num(0)), ("recent_jobs", Arr([]))]))

  const SummaryUrl := "/dashboard/summary"

  /** `fetchDashboardSummary()`: without a stored token (or with an empty
      one) nothing is requested and nothing changes; otherwise a GET whose
      data replaces the summary on success, the summary being kept on
      failure. The request made, if any, is returned with the state. */
  function FetchDashboardSummary(s: DashboardState, storage: Storage, send: Request -> Outcome): (r: (DashboardState, Option<Request>))
    ensures !("token" in storage && storage["token"] != "") <==> r.1.None?
    ensures r.1.None? ==> r.0 == s
    ensures r.1.Some? ==> r.1.value.verb == Get && r.1.value.url == SummaryUrl &&
                          Lookup(r.1.value.options, "Authorization") == Some(Str("Bearer " + storage["token"]))
    ensures r.1.Some? && send(r.1.value).Resolved? ==> r.0.summary == HandleResponse(send(r.1.value).response).data
    ensures r.1.Some? && send(r.1.value).Rejected? ==> r.0 == s
    ensures !Nullish(s.summary) ==> !Nullish(r.0.summary)
  {
    var token := GetItem(storage, "token");
    if !(token.Some? && Truthy(Str(token.value))) then (s, None)
    else
      var (request, response) := Perform(Get, SummaryUrl, Undefined, [], storage, send);
      (if response.success then DashboardState(response.data) else s, Some(request))
  }

  /** `totalJobs`: the summary's `total_jobs`, or 0 when that is falsy. */
  function TotalJobs(s: DashboardState): (r: JsVal)
    requires !Nullish(s.summary)
    ensures Truthy(r) || r == Num(0)
    ensures Truthy(Member(s.summary, "total_jobs")) ==> r == Member(s.summary, "total_jobs")
    ensures !Truthy(Member(s.summary, "total_jobs")) ==> r == Num(0)
  {
    Or(Member(s.summary, "total_jobs"), Num(0))
  }

  /** `totalCVs`: the summary's `total_cvs`, or 0 when that is falsy. */
  function TotalCvs(s: DashboardState): (r: JsVal)
    requires !Nullish(s.summary)
    ensures Truthy(r) || r == Num(0)
    ensures Truthy(Member(s.summary, "total_cvs")) ==> r == Member(s.summary, "total_cvs")
    ensures !Truthy(Member(s.summary, "total_cvs")) ==> r == Num(0)
  {
    Or(Member(s.summary, "total_cvs"), Num(0))
  }

  /** `recentJobs`: the summary's `recent_jobs`, or [] when that is falsy. */
  function RecentJobs(s: DashboardState): (r: JsVal)
    requires !Nullish(s.summary)
    ensures Truthy(r) || r == Arr([])
    ensures Truthy(Member(s.summary, "recent_jobs")) ==> r == Member(s.summary, "recent_jobs")
    ensures !Truthy(Member(s.summary, "recent_jobs")) ==> r == Arr([])
  {
    Or(Member(s.summary, "recent_jobs"), Arr([]))
  }

  /** The getters read 0, 0 and [] before the first fetch, and again after
      a fetch that replaced the summary by data without those fields (the
      summary object is never null or undefined, so they never throw). */
  lemma GettersDefault(storage: Storage, send: Request -> Outcome)
    ensures TotalJobs(Initial) == Num(0) && TotalCvs(Initial) == Num(0) && RecentJobs(Initial) == Arr([])
    ensures var r := FetchDashboardSummary(Initial, storage, send).0;
            !Nullish(r.summary) &&
            (Member(r.summary, "total_jobs") == Undefined ==> TotalJobs(r) == Num(0)) &&
            (Member(r.summary, "total_cvs") == Undefined ==> TotalCvs(r) == Num(0)) &&
            (Member(r.summary, "recent_jobs") == Undefined ==> RecentJobs(r) == Arr([]))
  {
    assert Member(Initial.summary, "total_jobs") == Num(0);
    assert Member(Initial.summary, "total_cvs") == Num(0);
    assert Member(Initial.summary, "recent_jobs") == Arr([]);
  }
}

=== FILE: data_store.dfy ===
/** The shared HTTP layer of the front end (`dataStore.js`): the four
    request actions, the header that carries the stored token, and the
    normalisation of replies and errors into `{data, status, success}`.
    The HTTP client is an input: what it does with a request is given as a
    function from the request to its outcome. */
module DataStore {
  import opened Wrappers
  import opened JsValues

  /** A reply of the HTTP client. */
  datatype HttpResponse = HttpResponse(status: int, data: JsVal)

  /** A rejected request: with the server's reply when there was one. */
  datatype HttpError = HttpError(response: Option<HttpResponse>)

  /** What the client does with a request: it resolves or rejects. */
  datatype Outcome = Resolved(response: HttpResponse) | Rejected(error: HttpError)

  /** What every action returns. */
  datatype ActionResult = ActionResult(data: JsVal, status: int, success: bool)

  /** The text of the message object used when an error carries no data. */
  const ErrorMessage := "An error occurred while processing your request"

  /** The status reported when an error carries no reply. */
  const NoResponseStatus := 500

  /** `handleResponse(response)`: the reply's `data.data`, else its `data`,
      else an empty object; its status; success. */
  function HandleResponse(response: HttpResponse): (r: ActionResult)
    ensures r.success && r.status == response.status
    ensures !Nullish(Member(response.data, "data")) ==> r.data == Member(response.data, "data")
    ensures Nullish(Member(response.data, "data")) && !Nullish(response.data) ==> r.data == response.data
    ensures Nullish(response.data) ==> r.data == Obj([])
  {
    ActionResult(Coalesce(Member(response.data, "data"), Coalesce(response.data, Obj([]))),
                 response.status, true)
  }

  /** `handleErrorResponse(error)`: the reply's `data.data`, else its
      `data`, else the fixed message object; the reply's status or 500;
      failure. */
  function HandleErrorResponse(error: HttpError): (r: ActionResult)
    ensures !r.success
    ensures error.response.None? ==> r == ActionResult(Obj([("message", Str(ErrorMessage))]), NoResponseStatus, false)
    ensures error.response.Some? ==> r.status == error.response.value.status
    ensures error.response.Some? && !Nullish(Member(error.response.value.data, "data")) ==>
              r.data == Member(error.response.value.data, "data")
    ensures (error.response.Some? && Nullish(Member(error.response.value.data, "data")) &&
             !Nullish(error.response.value.data)) ==> r.data == error.response.value.data
    ensures error.response.Some? && Nullish(error.response.value.data) ==>
              r.data == Obj([("message", Str(ErrorMessage))])
  {
    var fallback := Obj([("message", Str(ErrorMessage))]);
    match error.response
    case None => ActionResult(fallback, NoResponseStatus, false)
    case Some(response) =>
      ActionResult(Coalesce(Member(response.data, "data"), Coalesce(response.data, fallback)),
                   response.status, false)
  }

  /** Neither normalisation ever yields null or undefined data, so callers
      can read `response.data.message` without a TypeError. */
  lemma NormalisedDataIsNeverNullish(response: HttpResponse, error: HttpError)
    ensures !Nullish(HandleResponse(response).data)
    ensures !Nullish(HandleErrorResponse(error).data)
  {
  }

  /** The browser's `localStorage`: text items by key. */
  type Storage = map<string, string>

  /** `localStorage.getItem(key)`: None stands for `null`. */
  function GetItem(storage: Storage, key: string): (r: Option<string>)
    ensures r.Some? <==> key in storage
    ensures r.Some? ==> r.value == storage[key]
  {
    if key in storage then Some(storage[key]) else None
  }

  /** `addAuthHeader(headers)` with the stored token: sets `Authorization`
      to "Bearer " and the token when the token is a non-empty string, and
      leaves every other key as it was. */
  function AddAuthHeader(headers: seq<(string, JsVal)>, token: Option<string>): (r: seq<(string, JsVal)>)
    ensures token.Some? && |token.value| > 0 ==> Lookup(r, "Authorization") == Some(Str("Bearer " + token.value))
    ensures token.None? || token.value == "" ==> r == headers
    ensures forall k :: k != "Authorization" ==> Lookup(r, k) == Lookup(headers, k)
  {
    if token.Some? && Truthy(Str(token.value)) then SetProp(headers, "Authorization", Str("Bearer " + token.value))
    else headers
  }

  datatype Method = Get | Post | Delete | Put

  /** What an action hands to the HTTP client. */
  datatype Request = Request(verb: Method, url: string, payload: Option<JsVal>, options: seq<(string, JsVal)>)

  /** `getData`, `postData`, `deleteData` and `putData`: the options get the
      auth header from the stored token, the request goes out, and its
      outcome is normalised. GET and DELETE carry no payload. */
  function Perform(verb: Method, url: string, payload: JsVal, options: seq<(string, JsVal)>,
                   storage: Storage, send: Request -> Outcome): (r: (Request, ActionResult))
    ensures r.0.verb == verb && r.0.url == url
    ensures r.0.options == AddAuthHeader(options, GetItem(storage, "token"))
    ensures r.0.payload.Some? <==> verb == Post || verb == Put
    ensures r.1.success <==> send(r.0).Resolved?
    ensures send(r.0).Resolved? ==> r.1.status == send(r.0).response.status
    ensures !Nullish(r.1.data)
  {
    var body := if verb == Post || verb == Put then Some(payload) else None;
    var request := Request(verb, url, body, AddAuthHeader(options, GetItem(storage, "token")));
    match send(request)
    case Resolved(response) => (request, HandleResponse(response))
    case Rejected(error) => (request, HandleErrorResponse(error))
  }

  /** A successful action's status is the server's numeric status; a
      failed one's too, or 500. The status is never a string. */
  lemma StatusIsNumeric(verb: Method, url: string, payload: JsVal, options: seq<(string, JsVal)>,
                        storage: Storage, send: Request -> Outcome, text: string)
    ensures !StrictEq(Num(Perform(verb, url, payload, options, storage, send).1.status), Str(text))
  {
  }
}

=== FILE: job_analytics_store.dfy ===
/** The job-analytics store (`jobAnalyticsStore.js`): analytics entries
    fetched once from `/job-analytics`, filtered by skill-match level or by
    location, and summed per level into a summary object. The getters read
    the entries as records of level, location and count. */
module JobAnalyticsStore {
  import opened Wrappers
  import opened Seqs
  import opened JsValues
  import opened DataStore
  import opened ListStore

  datatype AnalyticsState = AnalyticsState(analytics: JsVal)

  const Initial := AnalyticsState(Arr([]))

  const AnalyticsUrl := "/job-analytics"

  /** `fetchJobAnalytics()`: the fetch-once action on the analytics list. */
  function FetchJobAnalytics(s: AnalyticsState, storage: Storage, send: Request -> Outcome): (r: AnalyticsState)
    requires !Nullish(s.analytics)
    ensures LengthPositive(s.analytics) ==> r == s
    ensures !LengthPositive(s.analytics) ==>
              var request := Request(Get, AnalyticsUrl, None, AddAuthHeader([], GetItem(storage, "token")));
              r.analytics == (if send(request).Resolved? then HandleResponse(send(request).response).data else s.analytics)
    ensures !Nullish(r.analytics)
  {
    AnalyticsState(FetchOnce(s.analytics, AnalyticsUrl, storage, send).0)
  }

  /** One analytics entry: `skill_match_level`, `location`, `count`. */
  datatype Entry = Entry(level: string, location: string, count: int)

  /** `getAnalyticsBySkillMatch(level)`: the entries of that level, in
      order. */
  function BySkillMatch(entries: seq<Entry>, level: string): (r: seq<Entry>)
    ensures forall e :: e in r <==> e in entries && e.level == level
    ensures IsSubsequence(r, entries)
    ensures forall e :: multiset(r)[e] == if e.level == level then multiset(entries)[e] else 0
  {
    FilterMultiset(entries, AtLevel(level));
    FilterIsSubsequence(entries, AtLevel(level));
    Filter(entries, AtLevel(level))
  }

  /** `getAnalyticsByLocation(location)`: the entries at that location, in
      order. */
  function ByLocation(entries: seq<Entry>, location: string): (r: seq<Entry>)
    ensures forall e :: e in r <==> e in entries && e.location == location
    ensures IsSubsequence(r, entries)
    ensures forall e :: multiset(r)[e] == if e.location == location then multiset(entries)[e] else 0
  {
    FilterMultiset(entries, (e: Entry) => e.location == location);
    FilterIsSubsequence(entries, (e: Entry) => e.location == location);
    Filter(entries, (e: Entry) => e.location == location)
  }

  /** The sum of the counts of `entries`. */
  function Total(entries: seq<Entry>): int
  {
    if |entries| == 0 then 0 else Total(entries[..|entries| - 1]) + entries[|entries| - 1].count
  }

  /** The test `entry.skill_match_level === level`. */
  function AtLevel(level: string): Entry -> bool
  {
    (e: Entry) => e.level == level
  }

  /** The sum of the counts of the entries of one level, entry by entry. */
  function LevelTotal(entries: seq<Entry>, level: string): int
  {
    if |entries| == 0 then 0
    else
      var last := entries[|entries| - 1];
      LevelTotal(entries[..|entries| - 1], level) + (if last.level == level then last.count else 0)
  }

  /** The level total is the sum of the counts of the entries
      `getAnalyticsBySkillMatch(level)` returns. */
  lemma LevelTotalIsFilteredTotal(entries: seq<Entry>, level: string)
    ensures LevelTotal(entries, level) == Total(BySkillMatch(entries, level))
  {
    LevelTotalOfFilter(entries, level);
  }

  /** The same sum, stated on the filter itself. */
  lemma {:induction false} LevelTotalOfFilter(entries: seq<Entry>, level: string)
    ensures LevelTotal(entries, level) == Total(Filter(entries, AtLevel(level)))
  {
    if |entries| > 0 {
      var n := |entries| - 1;
      var prefix := entries[..n];
      var last := entries[n];
      LevelTotalOfFilter(prefix, level);
      assert entries == prefix + [last];
      FilterAppend(prefix, [last], AtLevel(level));
      assert [last][1..] == [];
      var f := Filter(prefix, AtLevel(level)) + Filter([last], AtLevel(level));
      if last.level == level {
        assert f[..|f| - 1] == Filter(prefix, AtLevel(level));
      } else {
        assert f == Filter(prefix, AtLevel(level));
      }
    }
  }

  /** Every value of the summary object is a number. */
  predicate AllNumbers(summary: seq<(string, JsVal)>)
  {
    forall i :: 0 <= i < |summary| ==> summary[i].1.Num?
  }

  /** The numeric value of a summary property (0 for anything else). */
  function NumberOf(v: JsVal): int
  {
    if v.Num? then v.n else 0
  }

  /** The sum of the summary's values. */
  function SumValues(summary: seq<(string, JsVal)>): int
  {
    if |summary| == 0 then 0 else NumberOf(summary[0].1) + SumValues(summary[1..])
  }

  /** Setting a property to a number changes the sum of the values by the
      difference with the value it replaces (a new property counts as
      replacing 0). */
  lemma {:induction false} SetPropSum(summary: seq<(string, JsVal)>, key: string, n: int)
    ensures SumValues(SetProp(summary, key, Num(n))) ==
            SumValues(summary) - NumberOf(Lookup(summary, key).GetOr(Num(0))) + n
  {
    if |summary| > 0 && summary[0].0 != key {
      SetPropSum(summary[1..], key, n);
      assert SetProp(summary, key, Num(n))[1..] == SetProp(summary[1..], key, Num(n));
    } else if |summary| > 0 {
      assert SetProp(summary, key, Num(n))[1..] == summary[1..];
    }
  }

  /** Setting a property to a number keeps every value a number. */
  lemma {:induction false} SetPropNumbers(summary: seq<(string, JsVal)>, key: string, n: int)
    requires AllNumbers(summary)
    ensures AllNumbers(SetProp(summary, key, Num(n)))
  {
    if |summary| > 0 && summary[0].0 != key {
      SetPropNumbers(summary[1..], key, n);
    }
  }

  /** The value found for a key of an all-number summary is a number. */
  lemma LookupNumber(summary: seq<(string, JsVal)>, key: string)
    requires AllNumbers(summary)
    ensures Lookup(summary, key).Some? ==> Lookup(summary, key).value == Num(NumberOf(Lookup(summary, key).value))
  {
    if Lookup(summary, key).Some? {
      LookupFound(summary, key);
    }
  }

  /** `if (!summary[level]) summary[level] = 0`: afterwards the level holds
      the number it held before, or 0 when it was absent. */
  function ResetIfFalsy(summary: seq<(string, JsVal)>, key: string): (r: seq<(string, JsVal)>)
    requires AllNumbers(summary)
    ensures AllNumbers(r)
    ensures Lookup(r, key) == Some(Num(NumberOf(Lookup(summary, key).GetOr(Num(0)))))
    ensures SumValues(r) == SumValues(summary)
  {
    LookupNumber(summary, key);
    if !Truthy(Member(Obj(summary), key)) then
      SetPropNumbers(summary, key, 0);
      SetPropSum(summary, key, 0);
      SetProp(summary, key, Num(0))
    else summary
  }

  /** One turn of the `forEach`: a level whose value is falsy (absent, or
      0) is set to 0, then the entry's count is added to it. */
  function AddEntry(summary: seq<(string, JsVal)>, e: Entry): (r: seq<(string, JsVal)>)
    requires AllNumbers(summary)
    ensures AllNumbers(r)
    ensures Lookup(r, e.level) == Some(Num(NumberOf(Lookup(summary, e.level).GetOr(Num(0))) + e.count))
    ensures SumValues(r) == SumValues(summary) + e.count
  {
    var reset := ResetIfFalsy(summary, e.level);
    var current := NumberOf(Lookup(reset, e.level).value);
    SetPropNumbers(reset, e.level, current + e.count);
    SetPropSum(reset, e.level, current + e.count);
    SetProp(reset, e.level, Num(current + e.count))
  }

  /** The other levels of the summary are left as they were. */
  lemma AddEntryKeepsOthers(summary: seq<(string, JsVal)>, e: Entry, level: string)
    requires AllNumbers(summary)
    requires level != e.level
    ensures Lookup(AddEntry(summary, e), level) == Lookup(summary, level)
  {
  }

  /** The entry's own level gains its count. */
  lemma AddEntryToLevel(summary: seq<(string, JsVal)>, e: Entry, level: string)
    requires AllNumbers(summary)
    requires e.level == level
    ensures Lookup(AddEntry(summary, e), level) == Some(Num(NumberOf(Lookup(summary, level).GetOr(Num(0))) + e.count))
  {
  }

  /** `getAnalyticsSummary`: the entries folded into an object in order. */
  function Summary(entries: seq<Entry>): (r: seq<(string, JsVal)>)
    ensures AllNumbers(r)
  {
    if |entries| == 0 then [] else AddEntry(Summary(entries[..|entries| - 1]), entries[|entries| - 1])
  }

  /** Some entry has this level. */
  predicate HasLevel(entries: seq<Entry>, level: string)
  {
    exists i :: 0 <= i < |entries| && entries[i].level == level
  }

  /** Whether a level occurs is decided by the prefix unless the last entry
      has it. */
  lemma HasLevelLast(entries: seq<Entry>, level: string)
    requires |entries| > 0
    ensures HasLevel(entries, level) <==>
            HasLevel(entries[..|entries| - 1], level) || entries[|entries| - 1].level == level
  {
    var prefix, last := entries[..|entries| - 1], entries[|entries| - 1];
    if HasLevel(entries, level) && last.level != level {
      var i :| 0 <= i < |entries| && entries[i].level == level;
      assert prefix[i].level == level;
    }
    if HasLevel(prefix, level) {
      var i :| 0 <= i < |prefix| && prefix[i].level == level;
      assert entries[i].level == level;
    }
    if last.level == level {
      assert entries[|prefix|].level == level;
    }
  }

  /** The summary's keys are exactly the levels that occur. */
  lemma {:induction false} SummaryKeys(entries: seq<Entry>, level: string)
    ensures Lookup(Summary(entries), level).Some? <==> HasLevel(entries, level)
  {
    if |entries| > 0 {
      var n := |entries| - 1;
      var prefix := entries[..n];
      var last := entries[n];
      SummaryKeys(prefix, level);
      HasLevelLast(entries, level);
      AddEntryKeys(Summary(prefix), last, level);
    }
  }

  /** One step of the fold adds the entry's level and no other. */
  lemma AddEntryKeys(summary: seq<(string, JsVal)>, e: Entry, level: string)
    requires AllNumbers(summary)
    ensures Lookup(AddEntry(summary, e), level).Some? <==> Lookup(summary, level).Some? || e.level == level
  {
    if e.level != level {
      AddEntryKeepsOthers(summary, e, level);
    }
  }

  /** The number each level holds (0 when absent) is the sum of the counts
      of its entries. */
  lemma {:induction false} SummaryValues(entries: seq<Entry>, level: string)
    ensures NumberOf(Lookup(Summary(entries), level).GetOr(Num(0))) == LevelTotal(entries, level)
  {
    if |entries| > 0 {
      var n := |entries| - 1;
      SummaryValues(entries[..n], level);
      AddEntryValue(Summary(entries[..n]), entries[n], level);
    }
  }

  /** One step of the fold adds the entry's count to its own level. */
  lemma AddEntryValue(summary: seq<(string, JsVal)>, e: Entry, level: string)
    requires AllNumbers(summary)
    ensures NumberOf(Lookup(AddEntry(summary, e), level).GetOr(Num(0))) ==
            NumberOf(Lookup(summary, level).GetOr(Num(0))) + (if e.level == level then e.count else 0)
  {
    if e.level == level {
      AddEntryToLevel(summary, e, level);
    } else {
      AddEntryKeepsOthers(summary, e, level);
    }
  }

  /** `getAnalyticsSummary()[level]`: present exactly for the levels that
      occur, and then the sum of the counts of that level's entries. */
  lemma SummaryPerLevel(entries: seq<Entry>, level: string)
    ensures Lookup(Summary(entries), level).Some? <==> HasLevel(entries, level)
    ensures HasLevel(entries, level) ==> Lookup(Summary(entries), level) == Some(Num(LevelTotal(entries, level)))
  {
    SummaryKeys(entries, level);
    SummaryValues(entries, level);
    LookupNumber(Summary(entries), level);
  }

  /** The summary's values add up to the sum of all counts. */
  lemma {:induction false} SummaryTotal(entries: seq<Entry>)
    ensures SumValues(Summary(entries)) == Total(entries)
  {
    if |entries| > 0 {
      SummaryTotal(entries[..|entries| - 1]);
    }
  }
}

=== FILE: job_details.dfy ===
/** `fetch_job_details` of the crawler: up to `retries` attempts to read a
    job's detail page, each failed attempt followed by an exponential
    back-off sleep, and a record of "N/A" fields once every attempt failed.
    The browser is replaced by the outcome of each attempt, given as an
    oracle indexed by the attempt number; the sleeps become the list of
    their durations in seconds. */
module JobDetails {
  import opened Wrappers
  import opened Seqs
  import opened Text

  /** What reading one element of a page yields: the read raised (element
      missing, timeout), or it returned a text or None. */
  datatype Lookup<+T> = LookupError | Found(content: Option<T>)

  /** One attempt at the detail page: the page did not load, or it loaded and
      the four reads gave these results. */
  datatype Attempt =
    | LoadFailed
    | Loaded(location: Lookup<string>, title: Lookup<string>,
             description: Lookup<string>, company: Lookup<string>)

  datatype Details = Details(title: string, location: string, description: string, company: string)

  /** The placeholder for a field that could not be read. */
  const Unavailable := "N/A"

  /** The record returned once every attempt failed. */
  const AllUnavailable := Details(Unavailable, Unavailable, Unavailable, Unavailable)

  /** Python's `text or "N/A"`: None and the empty text fall back. */
  function OrUnavailable(text: Option<string>): (r: string)
    ensures |r| > 0
    ensures text.Some? && |text.value| > 0 ==> r == text.value
    ensures text.None? || text.value == "" ==> r == Unavailable
  {
    if text.Some? && |text.value| > 0 then text.value else Unavailable
  }

  /** An attempt fails when the page does not load, when reading the location
      or the description raises, or when the title or company read returned
      None (calling `strip` on None raises). */
  predicate AttemptFails(a: Attempt)
    ensures a.LoadFailed? ==> AttemptFails(a)
    ensures (a.Loaded? && a.location.Found? && a.description.Found? &&
             a.title.LookupError? && a.company.LookupError?) ==> !AttemptFails(a)
  {
    a.LoadFailed? || a.location.LookupError? || a.description.LookupError? ||
    a.title == Found(None) || a.company == Found(None)
  }

  /** The record one attempt produces, or None when it raises. Title and
      company reads that raise are caught and become "N/A"; a location or
      description that is None or empty becomes "N/A"; every field is
      stripped. */
  function ParseAttempt(a: Attempt): (r: Option<Details>)
    ensures r.None? <==> AttemptFails(a)
    ensures r.Some? ==> IsStripped(r.value.title) && IsStripped(r.value.location) &&
                        IsStripped(r.value.description) && IsStripped(r.value.company)
    ensures r.Some? && a.title.LookupError? ==> r.value.title == Unavailable
    ensures r.Some? && a.company.LookupError? ==> r.value.company == Unavailable
    ensures r.Some? && (a.location.content.None? || a.location.content == Some("")) ==>
              r.value.location == Unavailable
    ensures r.Some? && (a.description.content.None? || a.description.content == Some("")) ==>
              r.value.description == Unavailable
    ensures r.Some? && a.title.Found? ==> r.value.title == Strip(a.title.content.value)
    ensures r.Some? && a.company.Found? ==> r.value.company == Strip(a.company.content.value)
    ensures r.Some? ==> r.value.location == Strip(OrUnavailable(a.location.content)) &&
                        r.value.description == Strip(OrUnavailable(a.description.content))
  {
    if AttemptFails(a) then None
    else
      var title := if a.title.LookupError? then Unavailable else a.title.content.value;
      var company := if a.company.LookupError? then Unavailable else a.company.content.value;
      StripStrippedIsIdentity(Unavailable);
      Some(Details(Strip(title), Strip(OrUnavailable(a.location.content)),
                   Strip(OrUnavailable(a.description.content)), Strip(company)))
  }

  /** What a call returns: the record, and the sleeps taken after failed
      attempts, in seconds and in order. */
  datatype Fetched = Fetched(details: Details, sleeps: seq<nat>)

  /** The loop from attempt `k` on: the record it returns and the number of
      the attempt that ended it (`retries` when all failed). */
  function FetchFrom(k: nat, retries: int, outcomes: nat -> Attempt): (r: (Details, nat))
    ensures k <= r.1
    ensures forall i :: k <= i < r.1 ==> AttemptFails(outcomes(i))
    ensures r.1 < retries ==> ParseAttempt(outcomes(r.1)) == Some(r.0)
    ensures r.1 >= retries ==> r.0 == AllUnavailable && (r.1 == k || r.1 == retries)
    decreases retries - k
  {
    if k >= retries then (AllUnavailable, k)
    else match ParseAttempt(outcomes(k))
      case Some(details) => (details, k)
      case None => FetchFrom(k + 1, retries, outcomes)
  }

  /** The sleeps after failed attempts 0, 1, ..., n - 1: 2^k seconds each. */
  function Backoff(n: nat): (r: seq<nat>)
    ensures |r| == n
  {
    seq(n, k requires 0 <= k => Pow2(k))
  }

  /** `fetch_job_details(browser, url, retries)`: the record of the first
      attempt that does not raise, after one sleep of 2^k seconds for each
      failed attempt k before it; all "N/A" after `retries` failures (and at
      once when `retries` is not positive). */
  function FetchJobDetails(retries: int, outcomes: nat -> Attempt): (r: Fetched)
    ensures forall k :: 0 <= k < |r.sleeps| ==> AttemptFails(outcomes(k)) && r.sleeps[k] == Pow2(k)
    ensures (|r.sleeps| < retries && ParseAttempt(outcomes(|r.sleeps|)) == Some(r.details)) ||
            (|r.sleeps| == (if retries > 0 then retries else 0) && r.details == AllUnavailable)
  {
    var (details, failures) := FetchFrom(0, retries, outcomes);
    Fetched(details, Backoff(failures))
  }

  /** "N/A" has no whitespace at either end. */
  lemma UnavailableIsStripped()
    ensures IsStripped(Unavailable)
  {
    StripStrippedIsIdentity(Unavailable);
  }

  /** Every field a call returns is whitespace-stripped. */
  lemma FetchedDetailsStripped(retries: int, outcomes: nat -> Attempt)
    ensures var d := FetchJobDetails(retries, outcomes).details;
            IsStripped(d.title) && IsStripped(d.location) && IsStripped(d.description) && IsStripped(d.company)
  {
    UnavailableIsStripped();
  }

  /** The number of attempts a call makes: the failed ones, plus the one
      that succeeded if any. */
  function AttemptsMade(retries: int, outcomes: nat -> Attempt): (n: nat)
    ensures n <= (if retries > 0 then retries else 0)
    ensures n == 0 <==> retries <= 0
  {
    var r := FetchJobDetails(retries, outcomes);
    if |r.sleeps| < retries then |r.sleeps| + 1 else |r.sleeps|
  }

  /** When some attempt within the budget succeeds, the call returns the
      record of the first such attempt and sleeps once per failure before it. */
  lemma FirstSuccessWins(retries: int, outcomes: nat -> Attempt, k: nat)
    requires k < retries && !AttemptFails(outcomes(k))
    requires forall j :: 0 <= j < k ==> AttemptFails(outcomes(j))
    ensures FetchJobDetails(retries, outcomes).details == ParseAttempt(outcomes(k)).value
    ensures |FetchJobDetails(retries, outcomes).sleeps| == k
  {
  }

  /** When every attempt fails the call returns all "N/A" after `retries`
      sleeps. */
  lemma AllFailuresGiveUnavailable(retries: nat, outcomes: nat -> Attempt)
    requires forall j :: 0 <= j < retries ==> AttemptFails(outcomes(j))
    ensures FetchJobDetails(retries, outcomes) ==
            Fetched(AllUnavailable, Backoff(retries))
  {
  }

  /** The sleeps 1, 2, 4, ... of `n` failed attempts add up to 2^n - 1
      seconds. */
  lemma {:induction false} TotalBackoff(n: nat)
    ensures Sum(Backoff(n)) == Pow2(n) - 1
  {
    if n > 0 {
      assert Backoff(n) == Backoff(n - 1) + [Pow2(n - 1)];
      SumAppend(Backoff(n - 1), [Pow2(n - 1)]);
      TotalBackoff(n - 1);
      assert Sum([Pow2(n - 1)]) == Pow2(n - 1);
    }
  }

  /** With three attempts that all fail, the crawler sleeps 1 + 2 + 4 = 7
      seconds in total for the job. */
  lemma DefaultRetriesBackoff(outcomes: nat -> Attempt)
    requires forall j :: 0 <= j < 3 ==> AttemptFails(outcomes(j))
    ensures Sum(FetchJobDetails(3, outcomes).sleeps) == 7
  {
    AllFailuresGiveUnavailable(3, outcomes);
    TotalBackoff(3);
  }
}

=== FILE: jobs_routes.dfy ===
/** The job routes of the REST backend that decide their answer from the
    request and the database's reply: `update_job` (which builds its UPDATE
    statement from the non-null fields of the body), `delete_job` and
    `get_job_by_id`. The database is an input: the row count an executed
    statement reports, or the row a SELECT finds. */
module JobsRoutes {
  import opened Wrappers
  import opened Seqs

  /** A JSON request body: its keys in order, with None for `null`. */
  type Body<V> = seq<(string, Option<V>)>

  /** What `@jwt_required()` decides before the route runs: the request's
      token is accepted, or the JWT extension answers with its own error
      status (401 for a missing or expired token). */
  datatype Access = Granted | Refused(status: int)

  /** The answer of Flask to an exception the route does not catch. */
  const InternalError := 500

  /** A parameter of a prepared statement: a field value or the job id. */
  datatype Param<V> = FieldValue(value: V) | JobId(id: int)

  /** A statement with `%s` placeholders and the values bound to them. */
  datatype Statement<V> = Statement(sql: string, params: seq<Param<V>>)

  /** What a route answers: a message or a job row, with an HTTP status. */
  datatype Payload<V> = Message(text: string) | JobRow(row: map<string, V>)
  datatype Reply<V> = Reply(payload: Payload<V>, status: int)

  /** `{key: value for key, value in data.items() if value is not None}`:
      the non-null entries, in body order. */
  function Updates<V(==,!new)>(body: Body<V>): (r: seq<(string, V)>)
    ensures |r| <= |body|
    ensures forall k, v :: (k, v) in r <==> (k, Some(v)) in body
    ensures |r| == 0 <==> forall i :: 0 <= i < |body| ==> body[i].1.None?
  {
    if |body| == 0 then []
    else
      var rest := Updates(body[1..]);
      assert forall k, v :: (k, Some(v)) in body <==> (k, Some(v)) == body[0] || (k, Some(v)) in body[1..];
      match body[0].1
      case None => rest
      case Some(v) => [(body[0].0, v)] + rest
  }

  /** The updates keep the body's order: they are a subsequence of it. */
  lemma {:induction false} UpdatesKeepOrder<V(!new)>(body: Body<V>)
    ensures IsSubsequence(Wrapped(Updates(body)), body)
  {
    if |body| > 0 {
      UpdatesKeepOrder(body[1..]);
      var rest := Wrapped(Updates(body[1..]));
      if body[0].1.Some? {
        assert Wrapped(Updates(body)) == [body[0]] + rest;
        assert ([body[0]] + rest)[1..] == rest;
      } else {
        SubsequenceOfTail(rest, body);
      }
    }
  }

  /** The updates as body entries again. */
  function Wrapped<V>(updates: seq<(string, V)>): (r: Body<V>)
    ensures |r| == |updates|
    ensures forall i :: 0 <= i < |r| ==> r[i] == (updates[i].0, Some(updates[i].1))
  {
    if |updates| == 0 then [] else [(updates[0].0, Some(updates[0].1))] + Wrapped(updates[1..])
  }

  /** The SET clause: `key = %s` per update, joined by ", ". */
  function SetClause<V>(updates: seq<(string, V)>): (r: string)
    ensures r == "" <==> |updates| == 0
    ensures |updates| > 0 ==> |r| >= |updates[0].0| + 5 && r[..|updates[0].0| + 5] == updates[0].0 + " = %s"
  {
    Join(", ", seq(|updates|, i requires 0 <= i < |updates| => updates[i].0 + " = %s"))
  }

  /** The UPDATE statement for non-empty updates: the values in order, then
      the job id for the WHERE clause. */
  function UpdateStatement<V>(jobId: int, updates: seq<(string, V)>): (r: Statement<V>)
    ensures |r.params| == |updates| + 1
    ensures r.params[|updates|] == JobId(jobId)
    ensures forall i :: 0 <= i < |updates| ==> r.params[i] == FieldValue(updates[i].1)
  {
    Statement("UPDATE Jobs SET " + SetClause(updates) + " WHERE id = %s",
              seq(|updates|, i requires 0 <= i < |updates| => FieldValue(updates[i].1)) + [JobId(jobId)])
  }

  /** `update_job(job_id)` behind `@jwt_required()`: a refused token gets
      the JWT extension's answer and a JSON body that is not an object
      (None here) makes `data.items()` raise, both without touching the
      database; 400 when nothing is to be updated; otherwise the statement
      runs. `execute` gives the number of rows it changed, or None when the
      database rejects it (an unknown column, a value the connector cannot
      bind): the exception is not caught, so Flask answers 500. Otherwise the
      route answers 404 when no row changed and 200 otherwise. The statement
      executed, if any, is returned with the reply. */
  function UpdateJob<V(==,!new)>(access: Access, jobId: int, body: Option<Body<V>>,
                                 execute: Statement<V> -> Option<nat>): (r: (Option<Statement<V>>, Reply<V>))
    ensures access.Refused? ==> r.0.None? && r.1.status == access.status
    ensures access == Granted && body.None? ==> r.0.None? && r.1.status == InternalError
    ensures access == Granted && body.Some? ==>
              (r.0.None? <==> forall i :: 0 <= i < |body.value| ==> body.value[i].1.None?)
    ensures access == Granted && body.Some? && r.0.None? ==> r.1.status == 400
    ensures r.0.Some? ==> access == Granted && body.Some? &&
                          r.0.value == UpdateStatement(jobId, Updates(body.value))
    ensures r.0.Some? ==> (r.1.status == InternalError <==> execute(r.0.value).None?)
    ensures r.0.Some? ==> (r.1.status == 404 <==> execute(r.0.value) == Some(0))
    ensures r.0.Some? ==> (r.1.status == 200 <==> execute(r.0.value).Some? && execute(r.0.value).value != 0)
  {
    if access.Refused? then (None, Reply(Message("Token refused"), access.status))
    else if body.None? then (None, Reply(Message("Internal Server Error"), InternalError))
    else
      var updates := Updates(body.value);
      if |updates| == 0 then
        (None, Reply(Message("No updates provided"), 400))
      else
        var statement := UpdateStatement(jobId, updates);
        if execute(statement).None? then
          (Some(statement), Reply(Message("Internal Server Error"), InternalError))
        else if execute(statement).value == 0 then
          (Some(statement), Reply(Message("Job not found or no changes made"), 404))
        else (Some(statement), Reply(Message("Job updated successfully!"), 200))
  }

  /** The number of occurrences of `c` in `s`. */
  function CountChar(s: string, c: char): nat
  {
    if |s| == 0 then 0 else (if s[0] == c then 1 else 0) + CountChar(s[1..], c)
  }

  lemma {:induction false} CountCharAppend(a: string, b: string, c: char)
    ensures CountChar(a + b, c) == CountChar(a, c) + CountChar(b, c)
  {
    if |a| == 0 {
      assert a + b == b;
    } else {
      assert (a + b)[1..] == a[1..] + b;
      CountCharAppend(a[1..], b, c);
    }
  }

  /** A text without `c` has no occurrence of it. */
  lemma {:induction false} CountCharAbsent(s: string, c: char)
    requires forall k :: 0 <= k < |s| ==> s[k] != c
    ensures CountChar(s, c) == 0
  {
    if |s| > 0 {
      CountCharAbsent(s[1..], c);
    }
  }

  /** `%s` holds one '%'. */
  lemma CountPlaceholder()
    ensures CountChar("%s", '%') == 1
  {
    assert "%s"[1..] == "s";
    assert "s"[1..] == "";
  }

  /** A literal with no '%' followed by one placeholder. */
  lemma CountLiteralThenPlaceholder(prefix: string)
    requires forall k :: 0 <= k < |prefix| ==> prefix[k] != '%'
    ensures CountChar(prefix + "%s", '%') == 1
  {
    CountCharAbsent(prefix, '%');
    CountPlaceholder();
    CountCharAppend(prefix, "%s", '%');
  }

  /** No key holds a '%'. */
  predicate PlainKeys<V>(updates: seq<(string, V)>)
  {
    forall i :: 0 <= i < |updates| ==> CountChar(updates[i].0, '%') == 0
  }

  /** The '%' signs of a joined SET clause: one per update. */
  lemma {:induction false} SetClausePercents<V>(updates: seq<(string, V)>)
    requires PlainKeys(updates)
    ensures CountChar(SetClause(updates), '%') == |updates|
  {
    if |updates| > 0 {
      var head := updates[0].0 + " = %s";
      CountLiteralThenPlaceholder(" = ");
      assert " = %s" == " = " + "%s";
      CountCharAppend(updates[0].0, " = %s", '%');
      if |updates| > 1 {
        SetClausePercents(updates[1..]);
        var parts := seq(|updates|, i requires 0 <= i < |updates| => updates[i].0 + " = %s");
        assert parts[1..] == seq(|updates| - 1, i requires 0 <= i < |updates| - 1 => updates[1..][i].0 + " = %s");
        CountCharAppend(head, ", ", '%');
        CountCharAppend(head + ", ", SetClause(updates[1..]), '%');
        CountCharAbsent(", ", '%');
      }
    }
  }

  /** When no key holds a '%', the statement has exactly as many `%s`
      placeholders as bound parameters. */
  lemma PlaceholdersMatchParams<V>(jobId: int, updates: seq<(string, V)>)
    requires PlainKeys(updates)
    ensures CountChar(UpdateStatement(jobId, updates).sql, '%') == |UpdateStatement(jobId, updates).params|
  {
    SetClausePercents(updates);
    CountCharAppend("UPDATE Jobs SET ", SetClause(updates), '%');
    CountCharAppend("UPDATE Jobs SET " + SetClause(updates), " WHERE id = %s", '%');
    CountUpdatePrefix();
    CountWhereClause();
  }

  /** The fixed text before the SET clause holds no '%'. */
  lemma CountUpdatePrefix()
    ensures CountChar("UPDATE Jobs SET ", '%') == 0
  {
    CountCharAbsent("UPDATE Jobs SET ", '%');
  }

  /** The WHERE clause holds the one placeholder for the job id. */
  lemma CountWhereClause()
    ensures CountChar(" WHERE id = %s", '%') == 1
  {
    CountLiteralThenPlaceholder(" WHERE id = ");
    assert " WHERE id = %s" == " WHERE id = " + "%s";
  }

  /** `delete_job(job_id)` behind `@jwt_required()`: a refused token gets the
      JWT extension's answer without a DELETE; otherwise the DELETE runs.
      `execute` gives the number of rows it removed, or None when the
      database rejects it (a job that an application still references): the
      exception is not caught, so Flask answers 500. Otherwise 404 when no
      row was removed, 200 otherwise. The reply, which only ever holds a
      message, comes with whether the DELETE ran. */
  function DeleteJob(access: Access, jobId: int, execute: int -> Option<nat>): (r: (bool, Reply<()>))
    ensures r.0 <==> access == Granted
    ensures access.Refused? ==> r.1.status == access.status
    ensures access == Granted ==> (r.1.status == InternalError <==> execute(jobId).None?)
    ensures access == Granted ==> (r.1.status == 404 <==> execute(jobId) == Some(0))
    ensures access == Granted ==> (r.1.status == 200 <==> execute(jobId).Some? && execute(jobId).value != 0)
  {
    if access.Refused? then (false, Reply(Message("Token refused"), access.status))
    else if execute(jobId).None? then (true, Reply(Message("Internal Server Error"), InternalError))
    else if execute(jobId).value == 0 then (true, Reply(Message("Job not found"), 404))
    else (true, Reply(Message("Job deleted successfully!"), 200))
  }

  /** `get_job_by_id(job_id)`: 404 when the SELECT found no row (or an empty
      one, which Python also treats as false), otherwise the row with 200. */
  function GetJobById<V>(jobId: int, fetchOne: int -> Option<map<string, V>>): (r: Reply<V>)
    ensures r.status == 200 <==> fetchOne(jobId).Some? && |fetchOne(jobId).value| > 0
    ensures r.status == 200 ==> r.payload == JobRow(fetchOne(jobId).value)
    ensures r.status != 200 ==> r.status == 404 && r.payload.Message?
  {
    match fetchOne(jobId)
    case Some(row) => if |row| == 0 then Reply(Message("Job not found"), 404) else Reply(JobRow(row), 200)
    case None => Reply(Message("Job not found"), 404)
  }
}

=== FILE: jobs_store.dfy ===
/** The jobs store (`jobsStore.js`): the job list, fetched once from
    `/jobs` and mirrored as JSON in the browser's storage under "jobs". */
module JobsStore {
  import opened Wrappers
  import opened JsValues
  import opened Json
  import opened DataStore
  import opened ListStore

  datatype JobsState = JobsState(jobs: JsVal)

  const Initial := JobsState(Arr([]))

  const JobsUrl := "/jobs"

  /** `fetchJobs()`: the fetch-once action on the job list; on success the
      stored "jobs" item becomes the JSON text of the new list, and on
      failure (or when no request is made) the storage is left alone. */
  function FetchJobs(s: JobsState, storage: Storage, send: Request -> Outcome): (r: (JobsState, Storage))
    requires !Nullish(s.jobs)
    ensures var (list, request) := FetchOnce(s.jobs, JobsUrl, storage, send);
            r.0.jobs == list &&
            (request.Some? && send(request.value).Resolved? ==>
              Stringify(list).Some? && r.1 == storage["jobs" := Stringify(list).value]) &&
            (request.None? || send(request.value).Rejected? ==> r.1 == storage)
    ensures !Nullish(r.0.jobs)
  {
    var (list, request) := FetchOnce(s.jobs, JobsUrl, storage, send);
    if request.Some? && send(request.value).Resolved? then
      (JobsState(list), storage["jobs" := Stringify(list).value])
    else (JobsState(list), storage)
  }

  /** `getAllJobs`: the list itself, the one `getJobById` searches. */
  function GetAllJobs(s: JobsState): (r: JsVal)
    ensures forall id :: GetJobById(s, id) == FindById(r, id)
  {
    s.jobs
  }

  /** `getJobById(id)`. */
  function GetJobById(s: JobsState, id: JsVal): (r: Eval)
    ensures !s.jobs.Arr? ==> r == TypeError
    ensures s.jobs.Arr? ==>
              (r == Value(Undefined) <==> forall i :: 0 <= i < |s.jobs.items| ==> IdStep(s.jobs.items[i], id) == Passes)
    ensures s.jobs.Arr? && r.Value? && r.v != Undefined ==> r.v in s.jobs.items && StrictEq(Member(r.v, "id"), id)
  {
    FindById(s.jobs, id)
  }

  /** After a successful fetch from the initial state, the list and the
      stored copy are the reply's data: reading the stored text back as a
      JSON string literal is lossless when the data was a string. */
  lemma FetchedJobsAreStored(storage: Storage, send: Request -> Outcome)
    requires send(Request(Get, JobsUrl, None, AddAuthHeader([], GetItem(storage, "token")))).Resolved?
    ensures var data := HandleResponse(send(Request(Get, JobsUrl, None, AddAuthHeader([], GetItem(storage, "token")))).response).data;
            var r := FetchJobs(Initial, storage, send);
            GetAllJobs(r.0) == data && "jobs" in r.1 && Some(r.1["jobs"]) == Stringify(data) &&
            (data.Str? ==> Unquote(r.1["jobs"]) == Some(data.s))
  {
    var data := HandleResponse(send(Request(Get, JobsUrl, None, AddAuthHeader([], GetItem(storage, "token")))).response).data;
    if data.Str? {
      QuoteRoundTrip(data.s);
    }
  }
}

=== FILE: js_values.dfy ===
/** The JavaScript values the front-end stores pass around, and the
    operators they apply to them: `??`, `||`, `!!`, `?.`, `===` and
    `String(v)`. Numbers are integers; an object keeps its properties in
    insertion order. */
module JsValues {
  import opened Wrappers

  datatype JsVal =
    | Undefined
    | Null
    | Bool(b: bool)
    | Num(n: int)
    | Str(s: string)
    | Arr(items: seq<JsVal>)
    | Obj(props: seq<(string, JsVal)>)

  /** `null` or `undefined`: what `??` and `?.` test for. */
  predicate Nullish(v: JsVal)
  {
    v.Undefined? || v.Null?
  }

  /** `!!v`: everything except undefined, null, false, 0 and "" is truthy;
      every array and object is. */
  predicate Truthy(v: JsVal)
    ensures Truthy(v) <==> v != Undefined && v != Null && v != Bool(false) && v != Num(0) && v != Str("")
  {
    match v
    case Undefined => false
    case Null => false
    case Bool(b) => b
    case Num(n) => n != 0
    case Str(s) => |s| > 0
    case Arr(_) => true
    case Obj(_) => true
  }

  /** `a ?? b`. */
  function Coalesce(a: JsVal, b: JsVal): (r: JsVal)
    ensures !Nullish(a) ==> r == a
    ensures Nullish(a) ==> r == b
    ensures Nullish(r) ==> Nullish(a) && Nullish(b)
  {
    if Nullish(a) then b else a
  }

  /** `a || b`. */
  function Or(a: JsVal, b: JsVal): (r: JsVal)
    ensures Truthy(a) ==> r == a
    ensures !Truthy(a) ==> r == b
    ensures Truthy(r) <==> Truthy(a) || Truthy(b)
  {
    if Truthy(a) then a else b
  }

  /** The value of the first property named `key`, if any. */
  function Lookup(props: seq<(string, JsVal)>, key: string): (r: Option<JsVal>)
    ensures r.None? <==> forall i :: 0 <= i < |props| ==> props[i].0 != key
  {
    if |props| == 0 then None
    else if props[0].0 == key then Some(props[0].1)
    else Lookup(props[1..], key)
  }

  /** The value found is that of a property named `key`. */
  lemma {:induction false} LookupFound(props: seq<(string, JsVal)>, key: string)
    requires Lookup(props, key).Some?
    ensures exists i :: 0 <= i < |props| && props[i] == (key, Lookup(props, key).value)
  {
    if props[0].0 != key {
      LookupFound(props[1..], key);
      var i :| 0 <= i < |props[1..]| && props[1..][i] == (key, Lookup(props, key).value);
      assert props[i + 1] == props[1..][i];
    }
  }

  /** `v?.key`: undefined on null and undefined, the own property of an
      object, and undefined otherwise (the built-in properties of strings
      and arrays are not modelled). */
  function Member(v: JsVal, key: string): (r: JsVal)
    ensures Nullish(v) || !v.Obj? ==> r == Undefined
    ensures v.Obj? && Lookup(v.props, key).None? ==> r == Undefined
  {
    if v.Obj? then Lookup(v.props, key).GetOr(Undefined) else Undefined
  }

  /** `o[key] = value` on an object: an existing property keeps its place,
      a new one goes last. */
  function SetProp(props: seq<(string, JsVal)>, key: string, value: JsVal): (r: seq<(string, JsVal)>)
    ensures Lookup(r, key) == Some(value)
    ensures forall k :: k != key ==> Lookup(r, k) == Lookup(props, k)
  {
    if |props| == 0 then [(key, value)]
    else if props[0].0 == key then [(key, value)] + props[1..]
    else [props[0]] + SetProp(props[1..], key, value)
  }

  /** `a === b`: same type and same value for primitives. Two object or
      array values are taken to be distinct references. */
  predicate StrictEq(a: JsVal, b: JsVal)
    ensures StrictEq(a, b) <==> a == b && !a.Arr? && !a.Obj?
  {
    match (a, b)
    case (Undefined, Undefined) => true
    case (Null, Null) => true
    case (Bool(x), Bool(y)) => x == y
    case (Num(x), Num(y)) => x == y
    case (Str(x), Str(y)) => x == y
    case _ => false
  }

  /** `===` never holds between values of different types, so a number is
      never strictly equal to a string, whatever their digits. */
  lemma NumberIsNeverString(n: int, s: string)
    ensures !StrictEq(Num(n), Str(s))
    ensures !StrictEq(Str(s), Num(n))
  {
  }

  /** The decimal digit of `d`. */
  function DigitChar(d: nat): char
    requires d < 10
  {
    ('0' as int + d) as char
  }

  /** The decimal digits of `n`, most significant first. */
  function NatToString(n: nat): (r: string)
    ensures |r| > 0
    ensures forall i :: 0 <= i < |r| ==> '0' <= r[i] <= '9'
    decreases n
  {
    if n < 10 then [DigitChar(n)] else NatToString(n / 10) + [DigitChar(n % 10)]
  }

  /** The value of a string of decimal digits. */
  function DigitsValue(s: string): nat
    requires forall i :: 0 <= i < |s| ==> '0' <= s[i] <= '9'
  {
    if |s| == 0 then 0 else DigitsValue(s[..|s| - 1]) * 10 + (s[|s| - 1] as int - '0' as int)
  }

  /** Reading the digits back gives the number. */
  lemma {:induction false} NatToStringRoundTrip(n: nat)
    ensures DigitsValue(NatToString(n)) == n
    decreases n
  {
    if n >= 10 {
      var r := NatToString(n);
      NatToStringRoundTrip(n / 10);
      assert r[..|r| - 1] == NatToString(n / 10);
    }
  }

  /** `String(n)` for an integer: its digits, with '-' in front when negative. */
  function IntToString(n: int): (r: string)
    ensures |r| > 0
    ensures n < 0 <==> r[0] == '-'
  {
    if n < 0 then "-" + NatToString(-n) else NatToString(n)
  }

  /** `String(v)`, which `localStorage.setItem` applies to the value it stores. */
  function ToString(v: JsVal): (r: string)
    ensures r == "" ==> v.Str? || v.Arr?
    ensures v.Num? ==> (r[0] == '-' <==> v.n < 0)
    decreases v
  {
    match v
    case Undefined => "undefined"
    case Null => "null"
    case Bool(b) => if b then "true" else "false"
    case Num(n) => IntToString(n)
    case Str(s) => s
    case Arr(items) => JoinItems(items, v)
    case Obj(_) => "[object Object]"
  }

  /** `items.join(",")`, where null and undefined elements become "". */
  function JoinItems(items: seq<JsVal>, whole: JsVal): string
    requires forall i :: 0 <= i < |items| ==> items[i] < whole
    decreases whole, |items|
  {
    if |items| == 0 then ""
    else
      var first := if Nullish(items[0]) then "" else ToString(items[0]);
      if |items| == 1 then first else first + "," + JoinItems(items[1..], whole)
  }

  /** `String(s)` is `s`, so storing a string and reading it back gives it. */
  lemma ToStringOfString(s: string)
    ensures ToString(Str(s)) == s
  {
  }

  /** A value stored and read back is truthy again unless it was the empty
      string: `String(undefined)` is the text "undefined", which is truthy. */
  lemma StoredTextTruthiness(v: JsVal)
    requires !v.Arr?
    ensures Truthy(Str(ToString(v))) <==> !(v.Str? && |v.s| == 0)
  {
  }
}

=== FILE: json.dfy ===
/** `JSON.stringify` as section 25.5.2 of ECMA-262 defines it, for the
    values of `JsValues`: strings are quoted with the escapes of
    QuoteJSONString, array holes that are `undefined` become `null`, and
    object properties whose value is `undefined` are left out. The string
    quoting comes with its inverse, the string-literal rule of a JSON parser. */
module Json {
  import opened Wrappers
  import opened JsValues

  function HexDigit(d: nat): char
    requires d < 16
  {
    if d < 10 then DigitChar(d) else ('a' as int + d - 10) as char
  }

  /** The escape of one character inside a JSON string literal. */
  function EscapeChar(c: char): (r: string)
    ensures |r| > 0
    ensures forall k :: 0 <= k < |r| ==> r[k] as int >= 0x20
    ensures r == [c] <==> c as int >= 0x20 && c != '"' && c != '\\'
    ensures r != [c] ==> r[0] == '\\' && 2 <= |r|
  {
    if c == '"' then "\\\""
    else if c == '\\' then "\\\\"
    else if c == '\U{8}' then "\\b"
    else if c == '\t' then "\\t"
    else if c == '\n' then "\\n"
    else if c == '\U{c}' then "\\f"
    else if c == '\r' then "\\r"
    else if (c as int) < 0x20 then ['\\', 'u', '0', '0', HexDigit(c as int / 16), HexDigit(c as int % 16)]
    else [c]
  }

  function Escape(s: string): (r: string)
    ensures |r| >= |s|
    ensures forall k :: 0 <= k < |r| ==> r[k] as int >= 0x20
  {
    if |s| == 0 then "" else EscapeChar(s[0]) + Escape(s[1..])
  }

  /** QuoteJSONString: the escaped text between double quotes. */
  function Quote(s: string): (r: string)
    ensures |r| >= 2 + |s| && r[0] == '"' && r[|r| - 1] == '"'
  {
    "\"" + Escape(s) + "\""
  }

  function HexValue(c: char): Option<nat>
  {
    if '0' <= c <= '9' then Some(c as int - '0' as int)
    else if 'a' <= c <= 'f' then Some(c as int - 'a' as int + 10)
    else if 'A' <= c <= 'F' then Some(c as int - 'A' as int + 10)
    else None
  }

  /** The character a `\uXXXX` escape denotes, if it is one. */
  function UnicodeEscape(h: string): Option<char>
    requires |h| == 4
  {
    match (HexValue(h[0]), HexValue(h[1]), HexValue(h[2]), HexValue(h[3]))
    case (Some(a), Some(b), Some(c), Some(d)) =>
      var code := ((a * 16 + b) * 16 + c) * 16 + d;
      if 0xD800 <= code < 0xE000 then None else Some(code as char)
    case _ => None
  }

  /** The text an escaped body of a JSON string literal stands for, or None
      when it is not a valid body (a bare quote, a control character, or an
      unknown escape). */
  function Unescape(t: string): Option<string>
    decreases |t|
  {
    if |t| == 0 then Some("")
    else if t[0] == '"' || (t[0] as int) < 0x20 then None
    else if t[0] != '\\' then
      match Unescape(t[1..])
      case None => None
      case Some(rest) => Some([t[0]] + rest)
    else if |t| < 2 then None
    else
      var e := t[1];
      var simple :=
        if e == '"' then Some('"') else if e == '\\' then Some('\\') else if e == '/' then Some('/')
        else if e == 'b' then Some('\U{8}') else if e == 'f' then Some('\U{c}')
        else if e == 'n' then Some('\n') else if e == 'r' then Some('\r') else if e == 't' then Some('\t')
        else None;
      if simple.Some? then
        match Unescape(t[2..])
        case None => None
        case Some(rest) => Some([simple.value] + rest)
      else if e == 'u' && |t| >= 6 then
        match (UnicodeEscape(t[2..6]), Unescape(t[6..]))
        case (Some(c), Some(rest)) => Some([c] + rest)
        case _ => None
      else None
  }

  /** Reading one escaped character back. */
  lemma UnescapeChar(c: char, rest: string, tail: string)
    requires Unescape(rest) == Some(tail)
    ensures Unescape(EscapeChar(c) + rest) == Some([c] + tail)
  {
    var t := EscapeChar(c) + rest;
    if c == '"' || c == '\\' || c == '\U{8}' || c == '\t' || c == '\n' || c == '\U{c}' || c == '\r' {
      assert t[2..] == rest;
    } else if (c as int) < 0x20 {
      var hi := c as int / 16;
      var lo := c as int % 16;
      assert t[2..6] == ['0', '0', HexDigit(hi), HexDigit(lo)];
      assert t[6..] == rest;
      assert HexValue(HexDigit(hi)) == Some(hi);
      assert HexValue(HexDigit(lo)) == Some(lo);
      assert UnicodeEscape(t[2..6]) == Some(c);
    } else {
      assert t[1..] == rest;
    }
  }

  /** Escaping loses nothing: the parser's reading of an escaped text is the
      text. */
  lemma {:induction false} UnescapeEscape(s: string)
    ensures Unescape(Escape(s)) == Some(s)
  {
    if |s| > 0 {
      UnescapeEscape(s[1..]);
      UnescapeChar(s[0], Escape(s[1..]), s[1..]);
      assert [s[0]] + s[1..] == s;
    }
  }

  /** A JSON string literal read back: the text between the quotes,
      unescaped. */
  function Unquote(t: string): Option<string>
  {
    if |t| >= 2 && t[0] == '"' && t[|t| - 1] == '"' then Unescape(t[1..|t| - 1]) else None
  }

  /** Quoting and unquoting is the identity, so two different strings never
      serialise to the same literal. */
  lemma QuoteRoundTrip(s: string)
    ensures Unquote(Quote(s)) == Some(s)
  {
    var q := Quote(s);
    assert q[1..|q| - 1] == Escape(s);
    UnescapeEscape(s);
  }

  lemma QuoteInjective(a: string, b: string)
    requires Quote(a) == Quote(b)
    ensures a == b
  {
    QuoteRoundTrip(a);
    QuoteRoundTrip(b);
  }

  /** `parts.join(",")`. */
  function JoinComma(parts: seq<string>): string
  {
    if |parts| == 0 then "" else if |parts| == 1 then parts[0] else parts[0] + "," + JoinComma(parts[1..])
  }

  /** `JSON.stringify(v)`: None for `undefined`, which has no JSON text. */
  function Stringify(v: JsVal): (r: Option<string>)
    ensures r.None? <==> v.Undefined?
    ensures v.Str? ==> r == Some(Quote(v.s))
    ensures v.Arr? ==> r.Some? && |r.value| >= 2 && r.value[0] == '[' && r.value[|r.value| - 1] == ']'
    ensures v.Obj? ==> r.Some? && |r.value| >= 2 && r.value[0] == '{' && r.value[|r.value| - 1] == '}'
    decreases v, 1
  {
    match v
    case Undefined => None
    case Null => Some("null")
    case Bool(b) => Some(if b then "true" else "false")
    case Num(n) => Some(IntToString(n))
    case Str(s) => Some(Quote(s))
    case Arr(items) => Some("[" + JoinComma(ArrayParts(items, v)) + "]")
    case Obj(props) => Some("{" + JoinComma(PropertyParts(props, v)) + "}")
  }

  /** The serialised elements of an array, `null` for `undefined`. */
  function ArrayParts(items: seq<JsVal>, whole: JsVal): (r: seq<string>)
    requires forall i :: 0 <= i < |items| ==> items[i] < whole
    ensures |r| == |items|
    decreases whole, 0, |items|
  {
    if |items| == 0 then []
    else
      var s := Stringify(items[0]);
      [if s.None? then "null" else s.value] + ArrayParts(items[1..], whole)
  }

  /** The serialised `"key":value` members of an object, without the
      properties whose value is `undefined`. */
  function PropertyParts(props: seq<(string, JsVal)>, whole: JsVal): (r: seq<string>)
    requires forall i :: 0 <= i < |props| ==> props[i].1 < whole
    ensures |r| <= |props|
    decreases whole, 0, |props|
  {
    if |props| == 0 then []
    else
      var s := Stringify(props[0].1);
      (if s.None? then [] else [Quote(props[0].0) + ":" + s.value]) + PropertyParts(props[1..], whole)
  }
}

=== FILE: list_store.dfy ===
/** What the jobs, CVs and job-analytics stores share: a list held in the
    state, fetched once with a GET and replaced by the reply's data on
    success, and looked up by `id` with `Array.prototype.find`. */
module ListStore {
  import opened Wrappers
  import opened JsValues
  import opened DataStore

  /** `list.length > 0`. Arrays and strings have their own length; an object
      has whatever `length` property it holds (a number or `true` compares
      greater than 0); other values have no length, and `undefined > 0` is
      false. */
  predicate LengthPositive(list: JsVal)
    ensures LengthPositive(list) ==> !Nullish(list)
    ensures list.Bool? || list.Num? ==> !LengthPositive(list)
    ensures list.Arr? ==> (LengthPositive(list) <==> list != Arr([]))
  {
    match list
    case Arr(items) => |items| > 0
    case Str(s) => |s| > 0
    case Obj(_) =>
      var n := Member(list, "length");
      (n.Num? && n.n > 0) || (n.Bool? && n.b)
    case _ => false
  }

  /** The fetch-once action: no request while the list already has a
      positive length; otherwise a GET to `url` whose data replaces the list
      on success, the list being kept on failure. The request made, if any,
      comes back with the new list. `list.length` throws on a null or
      undefined list, so the action needs one that is neither. */
  function FetchOnce(list: JsVal, url: string, storage: Storage, send: Request -> Outcome): (r: (JsVal, Option<Request>))
    requires !Nullish(list)
    ensures LengthPositive(list) <==> r.1.None?
    ensures r.1.None? ==> r.0 == list
    ensures r.1.Some? ==> r.1.value == Request(Get, url, None, AddAuthHeader([], GetItem(storage, "token")))
    ensures r.1.Some? && send(r.1.value).Resolved? ==> r.0 == HandleResponse(send(r.1.value).response).data
    ensures r.1.Some? && send(r.1.value).Rejected? ==> r.0 == list
    ensures !Nullish(r.0)
  {
    if LengthPositive(list) then (list, None)
    else
      var (request, response) := Perform(Get, url, Undefined, [], storage, send);
      (if response.success then response.data else list, Some(request))
  }

  /** A list that was loaded once is not fetched again: a second fetch
      makes no request and keeps it, whatever the server would answer. */
  lemma FetchOnceIsIdempotent(list: JsVal, url: string, storage: Storage, send: Request -> Outcome,
                              storage2: Storage, send2: Request -> Outcome)
    requires !Nullish(list)
    requires LengthPositive(FetchOnce(list, url, storage, send).0)
    ensures FetchOnce(FetchOnce(list, url, storage, send).0, url, storage2, send2) ==
            (FetchOnce(list, url, storage, send).0, None)
  {
  }

  /** An empty list whose fetch fails stays empty, so the next call fetches
      again. */
  lemma FailedFetchIsRetried(url: string, storage: Storage, send: Request -> Outcome)
    requires send(Request(Get, url, None, AddAuthHeader([], GetItem(storage, "token")))).Rejected?
    ensures FetchOnce(Arr([]), url, storage, send) ==
            (Arr([]), Some(Request(Get, url, None, AddAuthHeader([], GetItem(storage, "token")))))
  {
  }

  /** What `find` does with one element: a null or undefined element throws
      when its `id` is read; any other element matches when its `id` is
      strictly equal to the one sought. */
  datatype Step = Throws | Matches | Passes

  function IdStep(item: JsVal, id: JsVal): (r: Step)
    ensures r == Throws <==> Nullish(item)
    ensures r == Matches ==> Member(item, "id") == id && !id.Arr? && !id.Obj?
    ensures !Nullish(item) && Member(item, "id") == id && !id.Arr? && !id.Obj? ==> r == Matches
  {
    if Nullish(item) then Throws
    else if StrictEq(Member(item, "id"), id) then Matches
    else Passes
  }

  /** The outcome of evaluating a getter: its value, or the TypeError it
      throws. */
  datatype Eval = Value(v: JsVal) | TypeError

  /** `list.find((x) => x.id === id)` on an array: the first element whose
      `id` matches, `undefined` when none does, and a TypeError when a null
      or undefined element comes before any match. Calling `find` on a value
      that is not an array throws as well. */
  function FindById(list: JsVal, id: JsVal): (r: Eval)
    ensures !list.Arr? ==> r == TypeError
    ensures list.Arr? ==>
              (r == Value(Undefined) <==> forall i :: 0 <= i < |list.items| ==> IdStep(list.items[i], id) == Passes)
    ensures list.Arr? && r.Value? && r.v != Undefined ==>
              exists i :: 0 <= i < |list.items| && list.items[i] == r.v && IdStep(list.items[i], id) == Matches &&
                forall j :: 0 <= j < i ==> IdStep(list.items[j], id) == Passes
    ensures list.Arr? && r == TypeError ==>
              exists i :: 0 <= i < |list.items| && Nullish(list.items[i]) &&
                forall j :: 0 <= j < i ==> IdStep(list.items[j], id) == Passes
  {
    if list.Arr? then FindIn(list.items, id) else TypeError
  }

  function FindIn(items: seq<JsVal>, id: JsVal): (r: Eval)
    ensures r == Value(Undefined) <==> forall i :: 0 <= i < |items| ==> IdStep(items[i], id) == Passes
    ensures r.Value? && r.v != Undefined ==>
              exists i :: 0 <= i < |items| && items[i] == r.v && IdStep(items[i], id) == Matches &&
                forall j :: 0 <= j < i ==> IdStep(items[j], id) == Passes
    ensures r == TypeError ==>
              exists i :: 0 <= i < |items| && Nullish(items[i]) &&
                forall j :: 0 <= j < i ==> IdStep(items[j], id) == Passes
  {
    if |items| == 0 then Value(Undefined)
    else match IdStep(items[0], id)
      case Throws => TypeError
      case Matches => Value(items[0])
      case Passes =>
        var r := FindIn(items[1..], id);
        assert forall i :: 0 <= i < |items| - 1 ==> items[1..][i] == items[i + 1];
        assert r.Value? && r.v != Undefined ==>
                 exists i :: 0 <= i < |items| && items[i] == r.v && IdStep(items[i], id) == Matches &&
                   forall j :: 0 <= j < i ==> IdStep(items[j], id) == Passes by {
          if r.Value? && r.v != Undefined {
            var i :| 0 <= i < |items[1..]| && items[1..][i] == r.v && IdStep(items[1..][i], id) == Matches &&
                     forall j :: 0 <= j < i ==> IdStep(items[1..][j], id) == Passes;
            assert items[i + 1] == r.v && forall j :: 0 <= j < i + 1 ==> IdStep(items[j], id) == Passes;
          }
        }
        assert r == TypeError ==>
                 exists i :: 0 <= i < |items| && Nullish(items[i]) &&
                   forall j :: 0 <= j < i ==> IdStep(items[j], id) == Passes by {
          if r == TypeError {
            var i :| 0 <= i < |items[1..]| && Nullish(items[1..][i]) &&
                     forall j :: 0 <= j < i ==> IdStep(items[1..][j], id) == Passes;
            assert Nullish(items[i + 1]) && forall j :: 0 <= j < i + 1 ==> IdStep(items[j], id) == Passes;
          }
        }
        r
  }

  /** `===` compares types first: when every element's `id` is a number, a
      string id (a route parameter, say) finds nothing, even "1" for 1. */
  lemma {:induction false} StringIdFindsNothing(items: seq<JsVal>, s: string)
    requires forall i :: 0 <= i < |items| ==> items[i].Obj? && Member(items[i], "id").Num?
    ensures FindById(Arr(items), Str(s)) == Value(Undefined)
  {
    forall i | 0 <= i < |items|
      ensures IdStep(items[i], Str(s)) == Passes
    {
      NumberIsNeverString(Member(items[i], "id").n, s);
    }
  }
}

=== FILE: seqs.dfy ===
/** Sequence helpers used across the model: order-preserving filtering,
    subsequences, joining strings with a separator, sums, powers of two and
    first-match search. */
module Seqs {
  import opened Wrappers

  /** `a` can be obtained from `b` by deleting elements, keeping the order. */
  ghost predicate IsSubsequence<T>(a: seq<T>, b: seq<T>)
  {
    |a| == 0 ||
    (|b| > 0 && ((a[0] == b[0] && IsSubsequence(a[1..], b[1..])) || IsSubsequence(a, b[1..])))
  }

  /** The elements of `xs` satisfying `p`, in their original order
      (JavaScript's `Array.prototype.filter`, a Python list comprehension with a guard). */
  function Filter<T(!new)>(xs: seq<T>, p: T -> bool): (r: seq<T>)
    ensures |r| <= |xs|
    ensures forall x :: x in r <==> x in xs && p(x)
    ensures forall i :: 0 <= i < |r| ==> p(r[i])
  {
    if |xs| == 0 then []
    else (if p(xs[0]) then [xs[0]] else []) + Filter(xs[1..], p)
  }

  lemma {:induction false} FilterIsSubsequence<T(!new)>(xs: seq<T>, p: T -> bool)
    ensures IsSubsequence(Filter(xs, p), xs)
  {
    if |xs| > 0 {
      FilterIsSubsequence(xs[1..], p);
      var rest := Filter(xs[1..], p);
      if p(xs[0]) {
        assert Filter(xs, p) == [xs[0]] + rest;
        assert (([xs[0]] + rest)[1..]) == rest;
      } else {
        assert Filter(xs, p) == rest;
        SubsequenceOfTail(rest, xs);
      }
    }
  }

  /** A subsequence of a tail is a subsequence of the whole. */
  lemma {:induction false} SubsequenceOfTail<T>(a: seq<T>, b: seq<T>)
    requires |b| > 0
    requires IsSubsequence(a, b[1..])
    ensures IsSubsequence(a, b)
  {
  }

  /** Filtering keeps every occurrence of a matching element and drops
      every occurrence of the others. */
  lemma {:induction false} FilterMultiset<T(!new)>(xs: seq<T>, p: T -> bool)
    ensures forall x :: multiset(Filter(xs, p))[x] == if p(x) then multiset(xs)[x] else 0
  {
    if |xs| > 0 {
      FilterMultiset(xs[1..], p);
      assert xs == [xs[0]] + xs[1..];
      assert multiset(xs) == multiset([xs[0]]) + multiset(xs[1..]);
      var head := if p(xs[0]) then [xs[0]] else [];
      assert multiset(Filter(xs, p)) == multiset(head) + multiset(Filter(xs[1..], p));
    }
  }

  /** Filtering distributes over concatenation, so the result lists the
      matches of `xs` before those of `ys`. */
  lemma {:induction false} FilterAppend<T(!new)>(xs: seq<T>, ys: seq<T>, p: T -> bool)
    ensures Filter(xs + ys, p) == Filter(xs, p) + Filter(ys, p)
  {
    if |xs| == 0 {
      assert xs + ys == ys;
    } else {
      assert (xs + ys)[1..] == xs[1..] + ys;
      FilterAppend(xs[1..], ys, p);
    }
  }

  /** `xs[0] + sep + xs[1] + ... + sep + xs[|xs|-1]`, Python's `sep.join(xs)`. */
  function Join(sep: string, xs: seq<string>): string
  {
    if |xs| == 0 then ""
    else if |xs| == 1 then xs[0]
    else xs[0] + sep + Join(sep, xs[1..])
  }

  function Sum(xs: seq<int>): int
  {
    if |xs| == 0 then 0 else xs[0] + Sum(xs[1..])
  }

  lemma {:induction false} SumAppend(xs: seq<int>, ys: seq<int>)
    ensures Sum(xs + ys) == Sum(xs) + Sum(ys)
  {
    if |xs| == 0 {
      assert xs + ys == ys;
    } else {
      assert (xs + ys)[1..] == xs[1..] + ys;
      SumAppend(xs[1..], ys);
    }
  }

  function Pow2(n: nat): (r: nat)
    ensures r >= 1
  {
    if n == 0 then 1 else 2 * Pow2(n - 1)
  }

  /** The first element of `xs` satisfying `p`, or None
      (JavaScript's `Array.prototype.find`). */
  function FindFirst<T>(xs: seq<T>, p: T -> bool): (r: Option<T>)
    ensures r.None? <==> forall i :: 0 <= i < |xs| ==> !p(xs[i])
    ensures r.Some? ==> exists i :: 0 <= i < |xs| && xs[i] == r.value && p(xs[i]) &&
                                    forall j :: 0 <= j < i ==> !p(xs[j])
  {
    if |xs| == 0 then None
    else if p(xs[0]) then Some(xs[0])
    else
      var r := FindFirst(xs[1..], p);
      assert r.Some? ==> exists i :: 0 <= i < |xs| && xs[i] == r.value && p(xs[i]) &&
                                    forall j :: 0 <= j < i ==> !p(xs[j]) by {
        if r.Some? {
          var i :| 0 <= i < |xs[1..]| && xs[1..][i] == r.value && p(xs[1..][i]) &&
                   forall j :: 0 <= j < i ==> !p(xs[1..][j]);
          assert xs[i + 1] == r.value && forall j :: 0 <= j < i + 1 ==> !p(xs[j]);
        }
      }
      r
  }
}

=== FILE: skill_match.dfy ===
/** The batch job that classifies every stored job by how many skill
    categories its description matches, records the level, and writes and
    uploads a customised CV for the jobs worth applying to. The database and
    the object store are replaced by the effects the job asks of them and by
    the set of job ids that already have a CV. */
module SkillMatch {
  import opened Wrappers
  import opened CvCustomizer

  datatype MatchLevel = HighMatch | AverageMatch | LowMatch | NoMatch {

    /** The text stored in the `skill_match_level` column. */
    function Label(): string
    {
      match this
      case HighMatch => "High Match"
      case AverageMatch => "Average Match"
      case LowMatch => "Low Match"
      case NoMatch => "No Match"
    }

    /** Position in the order "No" < "Low" < "Average" < "High". */
    function Rank(): nat
    {
      match this
      case NoMatch => 0
      case LowMatch => 1
      case AverageMatch => 2
      case HighMatch => 3
    }
  }

  /** The number of categories with at least one matched skill. */
  function CategoriesWithMatches(matched: seq<Category>): (n: nat)
    ensures n <= |matched|
  {
    if |matched| == 0 then 0
    else (if |matched[0].skills| > 0 then 1 else 0) + CategoriesWithMatches(matched[1..])
  }

  /** The level for a number of matching categories: all predefined
      categories is a high match, four or more an average one, two or more
      a low one, anything less no match. */
  function Classify(count: nat): (r: MatchLevel)
    ensures r == HighMatch <==> count == CategoryCount
    ensures r == AverageMatch <==> count > CategoryCount
    ensures r == NoMatch <==> count < 2
  {
    if count == CategoryCount then HighMatch
    else if count >= 4 then AverageMatch
    else if count >= 2 then LowMatch
    else NoMatch
  }

  /** `calculate_skill_match_level`: with a dictionary the size of the
      table, a high match is every category matching, and no match is fewer
      than two categories matching. */
  function CalculateSkillMatchLevel(matched: seq<Category>): (r: MatchLevel)
    ensures |matched| == CategoryCount ==>
              (r == HighMatch <==> forall i :: 0 <= i < |matched| ==> |matched[i].skills| > 0)
    ensures r == NoMatch <==> CategoriesWithMatches(matched) < 2
  {
    FullCountAllMatch(matched);
    Classify(CategoriesWithMatches(matched))
  }

  /** The level never drops when more categories match, as long as the
      count stays within the size of the predefined table. */
  lemma ClassifyMonotone(a: nat, b: nat)
    requires a <= b <= CategoryCount
    ensures Classify(a).Rank() <= Classify(b).Rank()
  {
  }

  /** Beyond the size of the predefined table the order breaks: five
      matching categories rank below four. */
  lemma ClassifyNotMonotoneBeyondTable()
    ensures Classify(5).Rank() < Classify(4).Rank()
  {
  }

  /** Some category has a match exactly when the count is positive. */
  lemma {:induction false} PositiveCountHasMatch(matched: seq<Category>)
    ensures CategoriesWithMatches(matched) > 0 <==> exists i :: 0 <= i < |matched| && |matched[i].skills| > 0
  {
    if |matched| > 0 {
      PositiveCountHasMatch(matched[1..]);
      if exists i :: 0 <= i < |matched[1..]| && |matched[1..][i].skills| > 0 {
        var i :| 0 <= i < |matched[1..]| && |matched[1..][i].skills| > 0;
        assert |matched[i + 1].skills| > 0;
      }
      if exists i :: 0 <= i < |matched| && |matched[i].skills| > 0 {
        var i :| 0 <= i < |matched| && |matched[i].skills| > 0;
        if i > 0 {
          assert |matched[1..][i - 1].skills| > 0;
        }
      }
    }
  }

  /** Every category has a match exactly when the count is the full length. */
  lemma {:induction false} FullCountAllMatch(matched: seq<Category>)
    ensures CategoriesWithMatches(matched) == |matched| <==> forall i :: 0 <= i < |matched| ==> |matched[i].skills| > 0
  {
    if |matched| > 0 {
      FullCountAllMatch(matched[1..]);
      if forall i :: 0 <= i < |matched| ==> |matched[i].skills| > 0 {
        assert forall i :: 0 <= i < |matched[1..]| ==> |matched[1..][i].skills| > 0 by {
          forall i | 0 <= i < |matched[1..]|
            ensures |matched[1..][i].skills| > 0
          {
            assert matched[1..][i] == matched[i + 1];
          }
        }
      }
    }
  }

  /** A category of the table whose skills the description mentions. */
  predicate CategoryMentioned(description: string, c: Category)
  {
    exists s :: s in c.skills && SkillMentioned(description, s)
  }

  /** Matching against a table the size of the predefined one: a job is a
      high match exactly when every category has a skill its description
      mentions, and the "Average Match" level is never produced, since the
      table has only four categories. */
  lemma LevelOfDescription(description: string, categories: seq<Category>)
    requires |categories| == CategoryCount
    ensures CalculateSkillMatchLevel(ExtractRelevantSkills(description, categories)) == HighMatch <==>
            forall i :: 0 <= i < |categories| ==> CategoryMentioned(description, categories[i])
    ensures CalculateSkillMatchLevel(ExtractRelevantSkills(description, categories)) != AverageMatch
  {
    var matched := ExtractRelevantSkills(description, categories);
    FullCountAllMatch(matched);
    forall i | 0 <= i < |matched|
      ensures |matched[i].skills| > 0 <==> CategoryMentioned(description, categories[i])
    {
      if |matched[i].skills| > 0 {
        assert matched[i].skills[0] in matched[i].skills;
      }
      if CategoryMentioned(description, categories[i]) {
        var s :| s in categories[i].skills && SkillMentioned(description, s);
        assert s in matched[i].skills;
      }
    }
  }

  /** The names the template choice looks up, in order: the four predefined
      categories, then nine that the predefined table does not have. */
  const TemplateCategories: seq<string> := [
    CloudPlatforms, CiCdTools, IacTools, MonitoringTools,
    "Containerization & Orchestration", "Version Control Tools", "Scripting Languages",
    "Build Tools", "Operating Systems & Platforms", "Networking Tools",
    "Database & Storage Tools", "Security Tools", "Artifact Repositories"
  ]

  /** Python's `any(matched[c] for c in names)`: true at the first name with a
      non-empty list; a name missing from the dictionary raises KeyError when
      the scan reaches it. */
  function AnyNonEmpty(matched: seq<Category>, names: seq<string>): (r: Result<bool, string>)
    ensures r.Failure? ==> r.error in names && r.error !in Names(matched)
    ensures r == Success(true) ==>
              exists k :: 0 <= k < |names| && Lookup(matched, names[k]).Some? && |Lookup(matched, names[k]).value| > 0
    ensures r == Success(false) ==>
              forall k :: 0 <= k < |names| ==> Lookup(matched, names[k]).Some? && |Lookup(matched, names[k]).value| == 0
  {
    if |names| == 0 then Success(false)
    else match Lookup(matched, names[0])
      case None => Failure(names[0])
      case Some(skills) => if |skills| > 0 then Success(true) else AnyNonEmpty(matched, names[1..])
  }

  /** The scan stops with true at a non-empty list whose predecessors all exist. */
  lemma {:induction false} AnyNonEmptyStopsEarly(matched: seq<Category>, names: seq<string>, j: nat)
    requires j < |names|
    requires forall k :: 0 <= k <= j ==> names[k] in Names(matched)
    requires |Lookup(matched, names[j]).value| > 0
    ensures AnyNonEmpty(matched, names) == Success(true)
    decreases j
  {
    if j > 0 && |Lookup(matched, names[0]).value| == 0 {
      AnyNonEmptyStopsEarly(matched, names[1..], j - 1);
    }
  }

  datatype Template = Devops | Frontend

  /** The template choice: "devops" when a devops category matched, the
      (empty) frontend scan otherwise, and no template when neither fired. */
  function ChooseTemplate(matched: seq<Category>): (r: Result<Option<Template>, string>)
    ensures r == Success(Some(Devops)) <==> AnyNonEmpty(matched, TemplateCategories) == Success(true)
    ensures r.Failure? <==> AnyNonEmpty(matched, TemplateCategories).Failure?
    ensures r != Success(Some(Frontend))
  {
    match AnyNonEmpty(matched, TemplateCategories)
    case Failure(key) => Failure(key)
    case Success(true) => Success(Some(Devops))
    case Success(false) =>
      match AnyNonEmpty(matched, [])
      case Failure(key) => Failure(key)
      case Success(true) => Success(Some(Frontend))
      case Success(false) => Success(None)
  }

  /** Whenever the template choice is reached for a dictionary with the
      four predefined names (the level is not "No Match"), the choice is
      "devops": a predefined category matched, so the scan stops before it
      looks up the nine names the dictionary lacks. */
  lemma TemplateIsDevops(matched: seq<Category>)
    requires Names(matched) == [CloudPlatforms, CiCdTools, IacTools, MonitoringTools]
    requires CalculateSkillMatchLevel(matched) != NoMatch
    ensures ChooseTemplate(matched) == Success(Some(Devops))
  {
    PositiveCountHasMatch(matched);
    var i :| 0 <= i < |matched| && |matched[i].skills| > 0;
    LookupDistinct(matched, i);
    AnyNonEmptyStopsEarly(matched, TemplateCategories, i);
  }

  /** In a dictionary with the four predefined names, looking up the i-th
      name finds the i-th entry. */
  lemma LookupDistinct(matched: seq<Category>, i: nat)
    requires Names(matched) == [CloudPlatforms, CiCdTools, IacTools, MonitoringTools]
    requires i < 4
    ensures Lookup(matched, Names(matched)[i]) == Some(matched[i].skills)
  {
    assert matched[0].name == CloudPlatforms;
    assert matched[1].name == CiCdTools;
    assert matched[2].name == IacTools;
    assert matched[3].name == MonitoringTools;
    assert matched[1..][0] == matched[1];
    assert matched[2..][0] == matched[2];
    assert matched[1..][1..] == matched[2..];
    assert matched[2..][1..] == matched[3..];
    assert matched[3..][0] == matched[3];
  }

  /** A stored job: its id and its columns (None for SQL NULL). */
  datatype DbRow = DbRow(id: int, columns: Row)

  /** What processing a job asks of the database and the object store.
      `WriteCv` is the call `generate_cv(job, template)`, whose placeholder
      map is `GenerateCv(job)`. */
  datatype Effect =
    | SaveLevel(jobId: int, level: string)
    | WriteCv(jobId: int, template: Template, job: Row)
    | UploadCv(jobId: int)

  /** How processing one job ended. `Errored` is an exception caught and
      logged by the loop. */
  datatype JobOutcome =
    | SkippedNoMatch
    | SkippedExistingCv
    | SkippedNoTemplate
    | Customized(template: Template)
    | Errored

  /** The body of the per-job loop. `withCv` holds the ids that already have
      a stored CV. A NULL description makes the skill extraction raise before
      anything is written. */
  function ProcessJob(row: DbRow, withCv: set<int>): (r: (seq<Effect>, JobOutcome))
    ensures r.1 == Errored && |r.0| == 0 <==> Get(row.columns, "description", "").None?
  {
    match Get(row.columns, "description", "")
    case None => ([], Errored)
    case Some(description) =>
      ProcessMatched(row, withCv, ExtractRelevantSkills(description, PredefinedCategories))
  }

  /** The per-job loop once the description's skills are extracted: the level
      is saved first, then the job is skipped (no match, CV already stored,
      no template) or gets a CV written and uploaded. */
  function ProcessMatched(row: DbRow, withCv: set<int>, matched: seq<Category>): (r: (seq<Effect>, JobOutcome))
    ensures |r.0| >= 1 && r.0[0] == SaveLevel(row.id, CalculateSkillMatchLevel(matched).Label())
    ensures r.1 == SkippedNoMatch <==> CalculateSkillMatchLevel(matched) == NoMatch
    ensures r.1 == SkippedExistingCv <==> CalculateSkillMatchLevel(matched) != NoMatch && row.id in withCv
    ensures r.1 == SkippedNoTemplate <==>
              CalculateSkillMatchLevel(matched) != NoMatch && row.id !in withCv &&
              ChooseTemplate(matched) == Success(None)
    ensures r.1 == Errored <==>
              CalculateSkillMatchLevel(matched) != NoMatch && row.id !in withCv &&
              (ChooseTemplate(matched).Failure? ||
               (ChooseTemplate(matched).value.Some? && !CvInputsPresent(row.columns)))
    ensures CalculateSkillMatchLevel(matched) != NoMatch && row.id !in withCv &&
            ChooseTemplate(matched).Success? && ChooseTemplate(matched).value.Some? &&
            CvInputsPresent(row.columns) ==>
              r.1 == Customized(ChooseTemplate(matched).value.value)
    ensures r.1.Customized? ==>
              row.id !in withCv && CvInputsPresent(row.columns) &&
              r.0 == [r.0[0], WriteCv(row.id, r.1.template, row.columns), UploadCv(row.id)]
    ensures !r.1.Customized? ==> r.0 == [r.0[0]]
  {
    var level := CalculateSkillMatchLevel(matched);
    var saved := [SaveLevel(row.id, level.Label())];
    if level == NoMatch then (saved, SkippedNoMatch)
    else if row.id in withCv then (saved, SkippedExistingCv)
    else match ChooseTemplate(matched)
      case Failure(_) => (saved, Errored)
      case Success(None) => (saved, SkippedNoTemplate)
      case Success(Some(template)) =>
        if !CvInputsPresent(row.columns) then (saved, Errored)
        else ([SaveLevel(row.id, level.Label()), WriteCv(row.id, template, row.columns), UploadCv(row.id)],
              Customized(template))
  }

  /** With the four predefined names, a customized job gets the devops
      template. */
  lemma MatchedJobsUseDevops(row: DbRow, withCv: set<int>, matched: seq<Category>)
    requires Names(matched) == [CloudPlatforms, CiCdTools, IacTools, MonitoringTools]
    requires ProcessMatched(row, withCv, matched).1.Customized?
    ensures ProcessMatched(row, withCv, matched).1 == Customized(Devops)
  {
    TemplateIsDevops(matched);
  }

  /** The other direction: a matching job with no stored CV, whose title
      and description are present, gets a devops CV written and uploaded. */
  lemma MatchingJobGetsCv(row: DbRow, withCv: set<int>, matched: seq<Category>)
    requires Names(matched) == [CloudPlatforms, CiCdTools, IacTools, MonitoringTools]
    requires CalculateSkillMatchLevel(matched) != NoMatch
    requires row.id !in withCv && CvInputsPresent(row.columns)
    ensures ProcessMatched(row, withCv, matched).1 == Customized(Devops)
    ensures Uploads(ProcessMatched(row, withCv, matched).0) == [row.id]
  {
    TemplateIsDevops(matched);
    MatchedUploads(row, withCv, matched);
  }

  /** Only a job whose description is present, that matches, and that has no
      stored CV gets one; such a job gets the devops template and its CV is
      uploaded under its own id. */
  lemma CustomizedJobsUseDevops(row: DbRow, withCv: set<int>)
    requires ProcessJob(row, withCv).1.Customized?
    ensures ProcessJob(row, withCv).1 == Customized(Devops)
    ensures row.id !in withCv
  {
    var description := Get(row.columns, "description", "").value;
    var matched := ExtractRelevantSkills(description, PredefinedCategories);
    assert ProcessJob(row, withCv) == ProcessMatched(row, withCv, matched);
    ExtractedHasPredefinedNames(description);
    MatchedJobsUseDevops(row, withCv, matched);
  }

  /** The job id `e` uploads a CV for, if any. */
  function UploadOf(e: Effect): seq<int>
  {
    if e.UploadCv? then [e.jobId] else []
  }

  /** The uploads among `effects`, in order. */
  function Uploads(effects: seq<Effect>): seq<int>
  {
    if |effects| == 0 then [] else UploadOf(effects[0]) + Uploads(effects[1..])
  }

  lemma {:induction false} UploadsAppend(a: seq<Effect>, b: seq<Effect>)
    ensures Uploads(a + b) == Uploads(a) + Uploads(b)
  {
    if |a| == 0 {
      assert a + b == b;
    } else {
      assert (a + b)[1..] == a[1..] + b;
      assert (a + b)[0] == a[0];
      UploadsAppend(a[1..], b);
      calc {
        Uploads(a + b);
        UploadOf(a[0]) + Uploads(a[1..] + b);
        UploadOf(a[0]) + (Uploads(a[1..]) + Uploads(b));
        (UploadOf(a[0]) + Uploads(a[1..])) + Uploads(b);
      }
    }
  }

  /** The effects of a job with extracted skills upload a CV for that job
      exactly when it was customized. */
  lemma MatchedUploads(row: DbRow, withCv: set<int>, matched: seq<Category>)
    ensures var r := ProcessMatched(row, withCv, matched);
            Uploads(r.0) == (if r.1.Customized? then [row.id] else [])
  {
    var r := ProcessMatched(row, withCv, matched);
    if r.1.Customized? {
      UploadsOfThree(r.0[0], r.0[1], row.id);
    } else {
      UploadsOfOne(r.0[0]);
    }
  }

  lemma UploadsOfOne(a: Effect)
    requires a.SaveLevel?
    ensures Uploads([a]) == []
  {
    assert [a][1..] == [];
  }

  lemma UploadsOfThree(a: Effect, b: Effect, id: int)
    requires a.SaveLevel? && b.WriteCv?
    ensures Uploads([a, b, UploadCv(id)]) == [id]
  {
    var s := [a, b, UploadCv(id)];
    assert s[1..] == [b, UploadCv(id)];
    assert [b, UploadCv(id)][1..] == [UploadCv(id)];
    assert [UploadCv(id)][1..] == [];
    calc {
      Uploads(s);
      UploadOf(a) + Uploads([b, UploadCv(id)]);
      [] + (UploadOf(b) + Uploads([UploadCv(id)]));
      [] + ([] + (UploadOf(UploadCv(id)) + Uploads([])));
      [id];
    }
  }

  /** A job's effects upload a CV for that job exactly when it was customized. */
  lemma JobUploads(row: DbRow, withCv: set<int>)
    ensures var r := ProcessJob(row, withCv);
            Uploads(r.0) == (if r.1.Customized? then [row.id] else [])
  {
    match Get(row.columns, "description", "")
    case None =>
    case Some(description) =>
      MatchedUploads(row, withCv, ExtractRelevantSkills(description, PredefinedCategories));
  }

  datatype RunResult = RunResult(effects: seq<Effect>, outcomes: seq<JobOutcome>, withCv: set<int>)

  /** `process_all_jobs`: every job in order; a job's exception is logged and
      the loop goes on; an uploaded CV counts as stored for the jobs after it. */
  function ProcessAllJobs(rows: seq<DbRow>, withCv: set<int>): (r: RunResult)
    ensures |r.outcomes| == |rows|
    ensures withCv <= r.withCv
  {
    RunJobs(rows, withCv, ProcessJob)
  }

  /** The loop of `process_all_jobs` for a given per-job body `job`. */
  function RunJobs(rows: seq<DbRow>, withCv: set<int>, job: (DbRow, set<int>) -> (seq<Effect>, JobOutcome)): (r: RunResult)
    ensures |r.outcomes| == |rows|
    ensures withCv <= r.withCv
  {
    if |rows| == 0 then RunResult([], [], withCv)
    else
      var (effects, outcome) := job(rows[0], withCv);
      var after := if outcome.Customized? then withCv + {rows[0].id} else withCv;
      var rest := RunJobs(rows[1..], after, job);
      RunResult(effects + rest.effects, [outcome] + rest.outcomes, rest.withCv)
  }

  /** The loop over two batches is the loop over the first, then over the
      second from the CVs the first stored. */
  lemma {:induction false} RunJobsAppend(a: seq<DbRow>, b: seq<DbRow>, withCv: set<int>,
                                         job: (DbRow, set<int>) -> (seq<Effect>, JobOutcome))
    ensures var first := RunJobs(a, withCv, job);
            var second := RunJobs(b, first.withCv, job);
            RunJobs(a + b, withCv, job) ==
              RunResult(first.effects + second.effects, first.outcomes + second.outcomes, second.withCv)
  {
    if |a| == 0 {
      assert a + b == b;
    } else {
      var step := job(a[0], withCv);
      var after := if step.1.Customized? then withCv + {a[0].id} else withCv;
      var tail := RunJobs(a[1..], after, job);
      var second := RunJobs(b, tail.withCv, job);
      assert RunJobs(a, withCv, job) == RunResult(step.0 + tail.effects, [step.1] + tail.outcomes, tail.withCv);
      assert RunJobs(a + b, withCv, job) ==
             RunResult(step.0 + (tail.effects + second.effects), [step.1] + (tail.outcomes + second.outcomes), second.withCv) by {
        assert (a + b)[0] == a[0];
        assert (a + b)[1..] == a[1..] + b;
        RunJobsAppend(a[1..], b, after, job);
      }
      assert step.0 + (tail.effects + second.effects) == (step.0 + tail.effects) + second.effects;
      assert [step.1] + (tail.outcomes + second.outcomes) == ([step.1] + tail.outcomes) + second.outcomes;
    }
  }

  /** Running two batches of jobs one after the other is running them
      together: the second batch starts from the CVs stored by the first. */
  lemma ProcessAllJobsAppend(a: seq<DbRow>, b: seq<DbRow>, withCv: set<int>)
    ensures var first := ProcessAllJobs(a, withCv);
            var second := ProcessAllJobs(b, first.withCv);
            ProcessAllJobs(a + b, withCv) ==
              RunResult(first.effects + second.effects, first.outcomes + second.outcomes, second.withCv)
  {
    RunJobsAppend(a, b, withCv, ProcessJob);
  }

  /** Job `i` of a run is processed as on its own, with the CVs stored
      before it: its outcome and effects are those of `ProcessJob` given the
      ids stored by the jobs before it, whatever those jobs' outcomes were
      (an exception in one job does not stop the loop). */
  lemma JobInRun(rows: seq<DbRow>, withCv: set<int>, i: nat)
    requires i < |rows|
    ensures var before := ProcessAllJobs(rows[..i], withCv);
            var step := ProcessJob(rows[i], before.withCv);
            ProcessAllJobs(rows, withCv).outcomes[i] == step.1 &&
            ProcessAllJobs(rows[..i + 1], withCv).effects == before.effects + step.0
  {
    RunJobsStep(rows, withCv, i, ProcessJob);
  }

  /** The same for any per-job body. */
  lemma RunJobsStep(rows: seq<DbRow>, withCv: set<int>, i: nat, job: (DbRow, set<int>) -> (seq<Effect>, JobOutcome))
    requires i < |rows|
    ensures var before := RunJobs(rows[..i], withCv, job);
            var step := job(rows[i], before.withCv);
            RunJobs(rows, withCv, job).outcomes[i] == step.1 &&
            RunJobs(rows[..i + 1], withCv, job).effects == before.effects + step.0
  {
    var before := RunJobs(rows[..i], withCv, job);
    assert rows == rows[..i] + rows[i..];
    RunJobsAppend(rows[..i], rows[i..], withCv, job);
    assert rows[..i + 1] == rows[..i] + [rows[i]];
    RunJobsAppend(rows[..i], [rows[i]], withCv, job);
    var step := job(rows[i], before.withCv);
    var after := if step.1.Customized? then before.withCv + {rows[i].id} else before.withCv;
    assert rows[i..][0] == rows[i];
    assert RunJobs(rows[i..], before.withCv, job).outcomes[0] == step.1;
    assert [rows[i]][1..] == [];
    assert RunJobs([rows[i]], before.withCv, job).effects == step.0 + RunJobs([], after, job).effects;
  }

  /** A job that does not get a CV leaves the run's later jobs as they would
      be without it. */
  lemma SkippedJobChangesNothingLater(rows: seq<DbRow>, withCv: set<int>, i: nat)
    requires i < |rows|
    requires !ProcessAllJobs(rows, withCv).outcomes[i].Customized?
    ensures ProcessAllJobs(rows, withCv).outcomes[i + 1..] ==
            ProcessAllJobs(rows[..i] + rows[i + 1..], withCv).outcomes[i..]
  {
    RunJobsSkip(rows, withCv, i, ProcessJob);
  }

  /** The same for any per-job body. */
  lemma RunJobsSkip(rows: seq<DbRow>, withCv: set<int>, i: nat, job: (DbRow, set<int>) -> (seq<Effect>, JobOutcome))
    requires i < |rows|
    requires !RunJobs(rows, withCv, job).outcomes[i].Customized?
    ensures RunJobs(rows, withCv, job).outcomes[i + 1..] ==
            RunJobs(rows[..i] + rows[i + 1..], withCv, job).outcomes[i..]
  {
    var before := RunJobs(rows[..i], withCv, job);
    var rest := rows[i + 1..];
    var step := job(rows[i], before.withCv);
    var later := RunJobs(rest, before.withCv, job);
    assert !step.1.Customized? by {
      RunJobsStep(rows, withCv, i, job);
    }
    assert |before.outcomes| == i;
    assert RunJobs(rows, withCv, job).outcomes == before.outcomes + ([step.1] + later.outcomes) by {
      RunJobsCons(rows[i], rest, before.withCv, job);
      assert rows == rows[..i] + ([rows[i]] + rest);
      RunJobsAppend(rows[..i], [rows[i]] + rest, withCv, job);
    }
    assert RunJobs(rows[..i] + rest, withCv, job).outcomes == before.outcomes + later.outcomes by {
      RunJobsAppend(rows[..i], rest, withCv, job);
    }
    assert (before.outcomes + ([step.1] + later.outcomes))[i + 1..] == later.outcomes;
    assert (before.outcomes + later.outcomes)[i..] == later.outcomes;
  }

  /** The loop over one job followed by others, when that job gets no CV. */
  lemma RunJobsCons(row: DbRow, rest: seq<DbRow>, withCv: set<int>, job: (DbRow, set<int>) -> (seq<Effect>, JobOutcome))
    requires !job(row, withCv).1.Customized?
    ensures RunJobs([row] + rest, withCv, job).outcomes == [job(row, withCv).1] + RunJobs(rest, withCv, job).outcomes
  {
    assert ([row] + rest)[0] == row && ([row] + rest)[1..] == rest;
  }

  /** `ids` has no repetition and avoids `taken`. */
  predicate FreshIds(ids: seq<int>, taken: set<int>)
  {
    (forall k :: 0 <= k < |ids| ==> ids[k] !in taken) &&
    (forall i, j :: 0 <= i < j < |ids| ==> ids[i] != ids[j])
  }

  lemma FreshCons(id: int, rest: seq<int>, taken: set<int>)
    requires id !in taken && FreshIds(rest, taken + {id})
    ensures FreshIds([id] + rest, taken)
  {
    var ids := [id] + rest;
    forall i, j | 0 <= i < j < |ids|
      ensures ids[i] != ids[j]
    {
      assert ids[j] == rest[j - 1];
      if i > 0 {
        assert ids[i] == rest[i - 1];
      }
    }
  }

  /** No job id gets two CV uploads in one run, and none that already had a
      CV gets one. */
  lemma {:induction false} UploadsAreUnique(rows: seq<DbRow>, withCv: set<int>)
    ensures FreshIds(Uploads(ProcessAllJobs(rows, withCv).effects), withCv)
  {
    if |rows| > 0 {
      var step := ProcessJob(rows[0], withCv);
      var after := if step.1.Customized? then withCv + {rows[0].id} else withCv;
      var rest := ProcessAllJobs(rows[1..], after);
      assert ProcessAllJobs(rows, withCv).effects == step.0 + rest.effects;
      UploadsAreUnique(rows[1..], after);
      JobUploads(rows[0], withCv);
      UploadsAppend(step.0, rest.effects);
      if step.1.Customized? {
        CustomizedJobsUseDevops(rows[0], withCv);
        FreshCons(rows[0].id, Uploads(rest.effects), withCv);
      } else {
        assert Uploads(step.0) + Uploads(rest.effects) == Uploads(rest.effects);
      }
    }
  }
}

=== FILE: text.dfy ===
/** Python string operations the backend relies on: `str.lower` (ASCII
    letters), the `in` substring test, `str.replace` and `str.strip`. */
module Text {

  function LowerChar(c: char): char
  {
    if 'A' <= c <= 'Z' then (c as int + 32) as char else c
  }

  /** `s.lower()` for ASCII letters; other characters are kept. */
  function Lower(s: string): (r: string)
    ensures |r| == |s|
    ensures forall i :: 0 <= i < |s| ==> r[i] == LowerChar(s[i])
  {
    seq(|s|, i requires 0 <= i < |s| => LowerChar(s[i]))
  }

  predicate StartsWith(s: string, p: string)
  {
    |p| <= |s| && s[..|p|] == p
  }

  /** Python's `p in s`: `p` occurs in `s` as a contiguous block. */
  predicate Contains(s: string, p: string)
    decreases |s|
  {
    StartsWith(s, p) || (|s| > 0 && Contains(s[1..], p))
  }

  /** `p` occurs in `s` starting at index `i`. */
  predicate OccursAt(s: string, p: string, i: int)
  {
    0 <= i && i + |p| <= |s| && s[i..i + |p|] == p
  }

  lemma {:induction false} OccursImpliesContains(s: string, p: string, i: int)
    requires OccursAt(s, p, i)
    ensures Contains(s, p)
    decreases i
  {
    if i > 0 {
      assert s[1..][i - 1..i - 1 + |p|] == s[i..i + |p|];
      OccursImpliesContains(s[1..], p, i - 1);
    }
  }

  lemma {:induction false} ContainsImpliesOccurs(s: string, p: string) returns (i: int)
    requires Contains(s, p)
    ensures OccursAt(s, p, i)
    decreases |s|
  {
    if StartsWith(s, p) {
      i := 0;
    } else {
      var k := ContainsImpliesOccurs(s[1..], p);
      assert s[k + 1..k + 1 + |p|] == s[1..][k..k + |p|];
      i := k + 1;
    }
  }

  /** The recursive substring test agrees with the positional one. */
  lemma ContainsIffOccurs(s: string, p: string)
    ensures Contains(s, p) <==> exists i :: OccursAt(s, p, i)
  {
    if Contains(s, p) {
      var i := ContainsImpliesOccurs(s, p);
    }
    forall i | OccursAt(s, p, i)
      ensures Contains(s, p)
    {
      OccursImpliesContains(s, p, i);
    }
  }

  /** Every occurrence of `c` in `s` is at one of the positions `at`. */
  predicate OnlyAt(s: string, c: char, at: set<int>)
  {
    forall i :: 0 <= i < |s| && s[i] == c ==> i in at
  }

  /** The positions of `c` in `x + y` are those in `x` and those in `y`,
      shifted by `|x|`. */
  lemma OnlyAtAppend(x: string, y: string, c: char, atX: set<int>, atY: set<int>, at: set<int>)
    requires OnlyAt(x, c, atX) && OnlyAt(y, c, atY)
    requires atX <= at && forall k :: k in atY ==> k + |x| in at
    ensures OnlyAt(x + y, c, at)
  {
    forall i | 0 <= i < |x + y| && (x + y)[i] == c
      ensures i in at
    {
      if i >= |x| {
        assert y[i - |x|] == c;
      }
    }
  }

  /** A text in which no position of `p[0]` has a position of `p[j]` `j`
      places after it does not contain `p`. */
  lemma AbsentByTwo(s: string, p: string, j: nat, atFirst: set<int>, atJ: set<int>)
    requires 0 < j < |p|
    requires OnlyAt(s, p[0], atFirst) && OnlyAt(s, p[j], atJ)
    requires forall k :: k in atFirst ==> k + j !in atJ
    ensures !Contains(s, p)
  {
    forall i | 0 <= i && i + |p| <= |s|
      ensures !OccursAt(s, p, i)
    {
      var w := s[i..i + |p|];
      assert w[0] == s[i] && w[j] == s[i + j];
    }
    ContainsIffOccurs(s, p);
  }

  /** `s.replace(pat, repl)`: every non-overlapping occurrence of `pat`,
      scanning left to right, is replaced by `repl`; an empty `pat` inserts
      `repl` before every character and at the end. */
  function ReplaceAll(s: string, pat: string, repl: string): (r: string)
    ensures |repl| == |pat| ==> |r| == |s|
    decreases |s|
  {
    if |pat| == 0 then
      if |s| == 0 then repl else repl + [s[0]] + ReplaceAll(s[1..], pat, repl)
    else if |s| < |pat| then s
    else if s[..|pat|] == pat then repl + ReplaceAll(s[|pat|..], pat, repl)
    else [s[0]] + ReplaceAll(s[1..], pat, repl)
  }

  /** Replacing a non-empty string that does not occur changes nothing. */
  lemma {:induction false} ReplaceAbsentIsIdentity(s: string, pat: string, repl: string)
    requires |pat| > 0 && !Contains(s, pat)
    ensures ReplaceAll(s, pat, repl) == s
    decreases |s|
  {
    if |s| >= |pat| {
      assert !StartsWith(s, pat);
      ReplaceAbsentIsIdentity(s[1..], pat, repl);
      assert [s[0]] + s[1..] == s;
    }
  }

  /** An occurrence inside `b` is an occurrence inside `a + b + c`. */
  lemma OccursInContext(a: string, b: string, c: string, p: string, i: int)
    requires OccursAt(b, p, i)
    ensures OccursAt(a + b + c, p, |a| + i)
  {
    assert (a + b + c)[|a| + i..|a| + i + |p|] == b[i..i + |p|];
  }

  /** Replacing a non-empty string that occurs puts the replacement in the
      result. */
  lemma {:induction false} PresentIsReplaced(s: string, pat: string, repl: string)
    requires |pat| > 0 && Contains(s, pat)
    ensures Contains(ReplaceAll(s, pat, repl), repl)
    decreases |s|
  {
    if |s| >= |pat| && s[..|pat|] == pat {
      assert StartsWith(repl + ReplaceAll(s[|pat|..], pat, repl), repl);
    } else {
      PresentIsReplaced(s[1..], pat, repl);
      var t := ReplaceAll(s[1..], pat, repl);
      assert ReplaceAll(s, pat, repl) == [s[0]] + t;
      assert ([s[0]] + t)[1..] == t;
    }
  }

  /** The characters Python's `str.isspace` accepts. */
  predicate IsSpace(c: char)
  {
    c == ' ' || ('\t' <= c <= '\r') || ('\U{1c}' <= c <= '\U{1f}') ||
    c == '\U{85}' || c == '\U{a0}' || c == '\U{1680}' || ('\U{2000}' <= c <= '\U{200a}') ||
    c == '\U{2028}' || c == '\U{2029}' || c == '\U{202f}' || c == '\U{205f}' || c == '\U{3000}'
  }

  /** Neither end of `s` is whitespace. */
  predicate IsStripped(s: string)
  {
    |s| == 0 || (!IsSpace(s[0]) && !IsSpace(s[|s| - 1]))
  }

  /** The first index at or after `i` that does not hold whitespace. */
  function SkipSpaceForward(s: string, i: nat): (r: nat)
    requires i <= |s|
    ensures i <= r <= |s|
    ensures forall k :: i <= k < r ==> IsSpace(s[k])
    ensures r == |s| || !IsSpace(s[r])
    decreases |s| - i
  {
    if i < |s| && IsSpace(s[i]) then SkipSpaceForward(s, i + 1) else i
  }

  /** The least end `r` in `lo..j` with only whitespace in `s[r..j]`. */
  function SkipSpaceBackward(s: string, lo: nat, j: nat): (r: nat)
    requires lo <= j <= |s|
    ensures lo <= r <= j
    ensures forall k :: r <= k < j ==> IsSpace(s[k])
    ensures r == lo || !IsSpace(s[r - 1])
    decreases j
  {
    if lo < j && IsSpace(s[j - 1]) then SkipSpaceBackward(s, lo, j - 1) else j
  }

  /** Python's `s.strip()`: `s` with leading and trailing whitespace removed.
      The result is a block of `s` with only whitespace around it and
      non-whitespace at both of its ends. */
  function Strip(s: string): (r: string)
    ensures IsStripped(r)
    ensures exists i, j :: 0 <= i <= j <= |s| && r == s[i..j] &&
                          (forall k :: 0 <= k < i ==> IsSpace(s[k])) &&
                          (forall k :: j <= k < |s| ==> IsSpace(s[k]))
  {
    var i := SkipSpaceForward(s, 0);
    var j := SkipSpaceBackward(s, i, |s|);
    s[i..j]
  }

  /** Stripping a string whose ends are not whitespace leaves it as it is. */
  lemma StripStrippedIsIdentity(s: string)
    requires IsStripped(s)
    ensures Strip(s) == s
  {
  }

  /** `strip` is idempotent. */
  lemma StripIdempotent(s: string)
    ensures Strip(Strip(s)) == Strip(s)
  {
    StripStrippedIsIdentity(Strip(s));
  }
}

=== FILE: url_join.dfy ===
/** Python's `urljoin(base, ref)` for the references the crawler follows: a
    missing or empty reference, and an absolute-path reference (one that
    starts with a single "/"), resolved as section 5.2.2 of RFC 3986 says:
    the result keeps the base's scheme and authority and takes the
    reference's path and query. */
module UrlJoin {
  import opened Wrappers
  import opened Text

  /** A path segment "." or "..", which resolution would remove. */
  predicate IsDotSegment(segment: string)
  {
    segment == "." || segment == ".."
  }

  /** `path` has a dot segment between two slashes or at its end (before a
      query or fragment). */
  predicate HasDotSegment(path: string)
  {
    exists i, j :: 0 <= i < j <= |path| && path[i] == '/' &&
      IsDotSegment(path[i + 1..j]) &&
      (j == |path| || path[j] == '/' || path[j] == '?' || path[j] == '#')
  }

  /** An absolute-path reference: a single leading "/" (two would make it a
      network-path reference) and no dot segments. */
  predicate IsAbsolutePath(ref: string)
  {
    |ref| >= 1 && ref[0] == '/' && (|ref| == 1 || ref[1] != '/') && !HasDotSegment(ref) && KeptVerbatim(ref)
  }

  /** The references the model resolves as written. `urlsplit` deletes
      tabs, carriage returns and newlines, and `urlunsplit` drops a '?' that
      starts an empty query, so those are excluded because `urljoin` rewrites
      them. The model also leaves out every reference with a fragment or
      parameters marker ('#', ';'): `urljoin` rewrites some of them ("/a#",
      "/a;", "/a/..;x") and keeps others ("/a#x", "/a;x"), and the model
      does not tell them apart. */
  predicate KeptVerbatim(ref: string)
  {
    |ref| > 0 &&
    (forall i :: 0 <= i < |ref| ==> ref[i] !in "#;\t\r\n") &&
    ref[|ref| - 1] != '?'
  }

  /** The absolute paths that `urljoin` does not give back as written are
      outside the model. */
  lemma AlteredReferencesExcluded()
    ensures !IsAbsolutePath("/jobs?") && !IsAbsolutePath("/a#") && !IsAbsolutePath("/a;")
    ensures !IsAbsolutePath("/a\tb") && !IsAbsolutePath("/a/..;x")
  {
    assert "/jobs?"[5] == '?';
    assert "/a#"[2] == '#';
    assert "/a;"[2] == ';';
    assert "/a\tb"[2] == '\t';
    assert "/a/..;x"[5] == ';';
  }

  /** References with a fragment or parameters are left out even where
      `urljoin` keeps them as written. */
  lemma FragmentsAndParametersLeftOut()
    ensures !IsAbsolutePath("/a#x") && !IsAbsolutePath("/a;x") && !IsAbsolutePath("/a;b/c")
  {
    assert "/a#x"[2] == '#';
    assert "/a;x"[2] == ';';
    assert "/a;b/c"[2] == ';';
  }

  /** The references this model resolves: the empty one and absolute paths. */
  type Reference = ref: string | ref == "" || IsAbsolutePath(ref) witness ""

  /** An absolute base URL `scheme://authority` followed by whatever path,
      query and fragment it has. */
  datatype Base = Base(scheme: string, authority: string, rest: string)

  /** `scheme://authority` of the base. */
  function Origin(base: Base): string
  {
    base.scheme + "://" + base.authority
  }

  /** A base as `ParseUrl` produces it: a scheme without ':', an authority
      without '/', and the rest starting with '/'. */
  predicate WellFormed(base: Base)
  {
    (forall k :: 0 <= k < |base.scheme| ==> base.scheme[k] != ':') &&
    (forall k :: 0 <= k < |base.authority| ==> base.authority[k] != '/') &&
    |base.rest| > 0 && base.rest[0] == '/'
  }

  /** The URL text of a base, which splits back into the same base. */
  function Serialize(base: Base): (r: string)
    ensures WellFormed(base) ==> ParseUrl(r) == Some(base)
  {
    ParseWellFormed(base);
    Origin(base) + base.rest
  }

  lemma ParseWellFormed(base: Base)
    ensures WellFormed(base) ==> ParseUrl(Origin(base) + base.rest) == Some(base)
  {
    if WellFormed(base) {
      ParseSplit(base.scheme, base.authority, base.rest);
    }
  }

  /** `urljoin(base, ref)`: the base itself for None or "", otherwise the
      base's origin followed by the reference. */
  function Resolve(base: Base, ref: Option<Reference>): (r: string)
    ensures ref.None? || ref.value == "" ==> r == Serialize(base)
    ensures ref.Some? && ref.value != "" ==> StartsWith(r, Origin(base)) && r[|Origin(base)|..] == ref.value
  {
    if ref.None? || ref.value == "" then Serialize(base)
    else Origin(base) + ref.value
  }

  /** The first index at or after `from` holding `c`, or `|s|`. */
  function IndexOf(s: string, c: char, from: nat): (r: nat)
    requires from <= |s|
    ensures from <= r <= |s|
    ensures forall k :: from <= k < r ==> s[k] != c
    ensures r < |s| ==> s[r] == c
    decreases |s| - from
  {
    if from == |s| || s[from] == c then from else IndexOf(s, c, from + 1)
  }

  /** Splits an absolute URL into scheme, authority and the rest (path,
      query and fragment): the scheme ends at the first ':', which must be
      followed by "//", and the authority ends at the next "/". */
  function ParseUrl(url: string): (r: Option<Base>)
    ensures r.Some? ==> Origin(r.value) + r.value.rest == url
  {
    var colon := IndexOf(url, ':', 0);
    if colon + 3 <= |url| && url[colon..colon + 3] == "://" then
      var slash := IndexOf(url, '/', colon + 3);
      assert url == url[..colon] + "://" + url[colon + 3..slash] + url[slash..];
      Some(Base(url[..colon], url[colon + 3..slash], url[slash..]))
    else None
  }

  /** Reading an absolute-path join back gives the base's scheme and
      authority and the reference as its path: resolution neither loses nor
      adds characters. */
  lemma ParseJoin(base: Base, ref: Reference)
    requires ref != ""
    requires forall k :: 0 <= k < |base.scheme| ==> base.scheme[k] != ':'
    requires forall k :: 0 <= k < |base.authority| ==> base.authority[k] != '/'
    ensures ParseUrl(Resolve(base, Some(ref))) == Some(Base(base.scheme, base.authority, ref))
  {
    ParseSplit(base.scheme, base.authority, ref);
  }

  /** A URL put together from a scheme without ':', an authority without
      '/' and a path starting with '/' is split back into those three. */
  lemma ParseSplit(scheme: string, authority: string, path: string)
    requires |path| > 0 && path[0] == '/'
    requires forall k :: 0 <= k < |scheme| ==> scheme[k] != ':'
    requires forall k :: 0 <= k < |authority| ==> authority[k] != '/'
    ensures ParseUrl(scheme + "://" + authority + path) == Some(Base(scheme, authority, path))
  {
    var url := scheme + "://" + authority + path;
    var n, m := |scheme|, |authority|;
    assert url[..n] == scheme;
    assert url[n..n + 3] == "://";
    assert url[n + 3..n + 3 + m] == authority;
    assert url[n + 3 + m..] == path;
    ParseSliced(url, scheme, authority, path);
  }

  /** The same split, stated on the pieces of the URL. */
  lemma ParseSliced(url: string, scheme: string, authority: string, path: string)
    requires |url| == |scheme| + 3 + |authority| + |path|
    requires url[..|scheme|] == scheme && url[|scheme|..|scheme| + 3] == "://"
    requires url[|scheme| + 3..|scheme| + 3 + |authority|] == authority
    requires url[|scheme| + 3 + |authority|..] == path
    requires |path| > 0 && path[0] == '/'
    requires forall k :: 0 <= k < |scheme| ==> scheme[k] != ':'
    requires forall k :: 0 <= k < |authority| ==> authority[k] != '/'
    ensures ParseUrl(url) == Some(Base(scheme, authority, path))
  {
    var n, m := |scheme|, |authority|;
    assert IndexOf(url, ':', 0) == n by {
      forall k | 0 <= k < n
        ensures url[k] != ':'
      {
        assert url[k] == url[..n][k];
      }
      assert url[n] == url[n..n + 3][0];
      FirstIndex(url, ':', 0, n);
    }
    assert IndexOf(url, '/', n + 3) == n + 3 + m by {
      forall k | n + 3 <= k < n + 3 + m
        ensures url[k] != '/'
      {
        assert url[k] == url[n + 3..n + 3 + m][k - n - 3];
      }
      assert url[n + 3 + m] == url[n + 3 + m..][0];
      FirstIndex(url, '/', n + 3, n + 3 + m);
    }
    ParseUrlAt(url, n, n + 3 + m);
  }

  /** `ParseUrl` splits at the first ':' when "//" follows it, and then at
      the first '/' after them. */
  lemma ParseUrlAt(url: string, colon: nat, slash: nat)
    requires colon + 3 <= slash <= |url|
    requires IndexOf(url, ':', 0) == colon && url[colon..colon + 3] == "://"
    requires IndexOf(url, '/', colon + 3) == slash
    ensures ParseUrl(url) == Some(Base(url[..colon], url[colon + 3..slash], url[slash..]))
  {
  }

  /** `IndexOf` finds the first occurrence at or after `from`. */
  lemma FirstIndex(s: string, c: char, from: nat, at: nat)
    requires from <= at < |s| && s[at] == c
    requires forall k :: from <= k < at ==> s[k] != c
    ensures IndexOf(s, c, from) == at
  {
  }

  /** The base's own path, query and fragment play no part once the
      reference is an absolute path. */
  lemma JoinIgnoresBasePath(base: Base, other: string, ref: Reference)
    requires ref != ""
    ensures Resolve(base, Some(ref)) == Resolve(base.(rest := other), Some(ref))
  {
  }
}

=== FILE: user_store.dfy ===
/** The user store (`userStore.js`): the signed-in user and the access
    token, kept in step with the token item of the browser's storage. */
module UserStore {
  import opened Wrappers
  import opened JsValues
  import opened DataStore

  datatype UserState = UserState(user: JsVal, token: JsVal)

  /** `localStorage.getItem("token")` as a JavaScript value. */
  function StoredToken(storage: Storage): (r: JsVal)
    ensures r == Null <==> "token" !in storage
    ensures "token" in storage ==> r == Str(storage["token"])
  {
    match GetItem(storage, "token")
    case Some(t) => Str(t)
    case None => Null
  }

  /** The state a page load starts from: no user, and the stored token, or
      null when there is none or it is empty. */
  function InitialState(storage: Storage): (r: UserState)
    ensures r.user == Null
    ensures "token" in storage && storage["token"] != "" ==> r.token == Str(storage["token"])
    ensures "token" !in storage || storage["token"] == "" ==> r.token == Null
  {
    UserState(Null, Or(StoredToken(storage), Null))
  }

  /** `isAuthenticated`: the token is truthy. */
  predicate IsAuthenticated(s: UserState)
    ensures IsAuthenticated(s) ==> !Nullish(s.token)
    ensures s.token.Str? ==> (IsAuthenticated(s) <==> s.token.s != "")
  {
    Truthy(s.token)
  }

  /** A page load starts signed in exactly when a non-empty token is
      stored. */
  lemma InitiallyAuthenticatedIff(storage: Storage)
    ensures IsAuthenticated(InitialState(storage)) <==> "token" in storage && storage["token"] != ""
  {
  }

  /** `logout()`: user and token become null and the stored token is
      removed. */
  function Logout(s: UserState, storage: Storage): (r: (UserState, Storage))
    ensures !IsAuthenticated(r.0) && r.0.user == Null
    ensures "token" !in r.1
    ensures forall k :: k != "token" ==> (k in r.1 <==> k in storage) && (k in r.1 ==> r.1[k] == storage[k])
  {
    (UserState(Null, Null), storage - {"token"})
  }

  /** After a logout a page reload starts from the logged-out state again. */
  lemma LogoutSurvivesReload(s: UserState, storage: Storage)
    ensures InitialState(Logout(s, storage).1) == Logout(s, storage).0
  {
  }

  const ProfileUrl := "/profile"

  /** `fetchUserProfile()`: a GET of the profile with the stored token; on
      success the user becomes the reply's data, on a 401 the store logs
      out, and any other failure changes nothing. */
  function FetchUserProfile(s: UserState, storage: Storage, send: Request -> Outcome): (r: (UserState, Storage, Request))
    ensures r.2 == Request(Get, ProfileUrl, None, AddAuthHeader([], GetItem(storage, "token")))
    ensures send(r.2).Resolved? ==>
              r.0 == UserState(HandleResponse(send(r.2).response).data, s.token) && r.1 == storage
    ensures send(r.2).Rejected? && HandleErrorResponse(send(r.2).error).status == 401 ==>
              (r.0, r.1) == Logout(s, storage)
    ensures send(r.2).Rejected? && HandleErrorResponse(send(r.2).error).status != 401 ==>
              r.0 == s && r.1 == storage
  {
    var (request, response) := Perform(Get, ProfileUrl, Undefined, [], storage, send);
    if response.success then (s.(user := response.data), storage, request)
    else if StrictEq(Num(response.status), Num(401)) then
      var (state, storage') := Logout(s, storage);
      (state, storage', request)
    else (s, storage, request)
  }

  /** A profile request that gets no reply at all is reported with status
      500, so it never logs the user out. */
  lemma UnreachableServerKeepsSession(s: UserState, storage: Storage, send: Request -> Outcome)
    requires send(Request(Get, ProfileUrl, None, AddAuthHeader([], GetItem(storage, "token")))) == Rejected(HttpError(None))
    ensures FetchUserProfile(s, storage, send).0 == s
    ensures FetchUserProfile(s, storage, send).1 == storage
  {
  }

  const LoginUrl := "/login"

  /** The body of the login request. */
  function Credentials(email: string, password: string): JsVal
  {
    Obj([("email", Str(email)), ("password", Str(password))])
  }

  /** `login(email, password)`: a POST of the credentials; on success the
      token becomes the reply's `access_token`, its text is stored, and the
      profile is fetched with it; on failure nothing changes. The requests
      made are returned in order. */
  function Login(s: UserState, storage: Storage, email: string, password: string,
                 send: Request -> Outcome): (r: (UserState, Storage, seq<Request>))
    ensures |r.2| >= 1 &&
            r.2[0] == Request(Post, LoginUrl, Some(Credentials(email, password)), AddAuthHeader([], GetItem(storage, "token")))
    ensures send(r.2[0]).Rejected? ==> r.0 == s && r.1 == storage && |r.2| == 1
    ensures send(r.2[0]).Resolved? ==>
              var token := Member(HandleResponse(send(r.2[0]).response).data, "access_token");
              var stored := storage["token" := ToString(token)];
              var profile := FetchUserProfile(s.(token := token), stored, send);
              r == (profile.0, profile.1, [r.2[0], profile.2])
  {
    var (request, response) := Perform(Post, LoginUrl, Credentials(email, password), [], storage, send);
    if response.success then
      var token := Member(response.data, "access_token");
      var stored := storage["token" := ToString(token)];
      var (state, storage', profileRequest) := FetchUserProfile(s.(token := token), stored, send);
      (state, storage', [request, profileRequest])
    else (s, storage, [request])
  }

  /** A login that returns a non-empty string token authenticates the
      store, stores that token, and puts "Bearer <token>" under
      `Authorization` in the options of the profile request that follows
      (the options object itself, not its `headers`); when the profile is
      then fetched the user is its data. */
  lemma LoginUsesNewToken(s: UserState, storage: Storage, email: string, password: string,
                          send: Request -> Outcome, t: string)
    requires var first := Login(s, storage, email, password, send).2[0];
             send(first).Resolved? && Member(HandleResponse(send(first).response).data, "access_token") == Str(t)
    requires t != ""
    ensures var r := Login(s, storage, email, password, send);
            |r.2| == 2 &&
            Lookup(r.2[1].options, "Authorization") == Some(Str("Bearer " + t)) &&
            (send(r.2[1]).Resolved? ==>
               IsAuthenticated(r.0) && r.1["token"] == t &&
               r.0.user == HandleResponse(send(r.2[1]).response).data)
  {
    var r := Login(s, storage, email, password, send);
    ToStringOfString(t);
    assert GetItem(storage["token" := t], "token") == Some(t);
  }

  /** A successful login reply without an `access_token` leaves the store
      unauthenticated but stores the text "undefined", which a reload then
      takes for a token. */
  lemma MissingAccessTokenIsStoredAsText(s: UserState, storage: Storage, email: string, password: string,
                                         send: Request -> Outcome)
    requires var first := Login(s, storage, email, password, send).2[0];
             send(first).Resolved? && Member(HandleResponse(send(first).response).data, "access_token") == Undefined
    requires var r := Login(s, storage, email, password, send);
             send(r.2[1]).Resolved?
    ensures var r := Login(s, storage, email, password, send);
            !IsAuthenticated(r.0) && IsAuthenticated(InitialState(r.1))
  {
  }

  const RegisterUrl := "/register"

  /** `register(name, email, password)`: a POST of the new account; the
      outcome is only shown to the user, so the state and the storage are
      left as they were. */
  function Register(s: UserState, storage: Storage, name: string, email: string, password: string,
                    send: Request -> Outcome): (r: (UserState, Storage, Request))
    ensures r.2 == Request(Post, RegisterUrl,
                           Some(Obj([("name", Str(name)), ("email", Str(email)), ("password", Str(password))])),
                           AddAuthHeader([], GetItem(storage, "token")))
    ensures r.0 == s && r.1 == storage
  {
    var (request, _) := Perform(Post, RegisterUrl, Obj([("name", Str(name)), ("email", Str(email)), ("password", Str(password))]),
                                [], storage, send);
    (s, storage, request)
  }
}

=== FILE: wrappers.dfy ===
/** Failure-compatible wrappers shared by every module of the model: an
    optional value (Python's None / JavaScript's undefined result of a lookup)
    and a value-or-error result (a Python exception made explicit). */
module Wrappers {

  datatype Option<+T> = None | Some(value: T) {

    /** The wrapped value, or `default` when there is none. */
    function GetOr(default: T): T {
      match this
      case Some(v) => v
      case None => default
    }
  }

  datatype Result<+T, +E> = Success(value: T) | Failure(error: E)
}
